=== FILE: README.md ===
# Transform-Service control plane in Dafny

This project models the deterministic core of Transform-Service, a Go job-scheduling service. Transform-Service takes document-transformation jobs through a web front end, keeps job types, job sets and resource pools in MongoDB, and supervises a fleet of worker processes. The core covered here is:

- **Fleet monitor.** This covers:
  - the scale-up predicate (a ceiling division);
  - the idle-majority predicate and idle-worker trimming;
  - retry bookkeeping with exponential backoff, capped at three restarts;
  - the stuck predicate;
  - the two-stage health check (a liveness line, then CPU and memory ceilings);
  - one supervision tick.
- **Job status taxonomy.** Twelve status codes, the terminal ("end") set and the failed set.
- **Admission rules of the web front end.** This covers:
  - quota consumption against equity records;
  - the target-format whitelist;
  - VIP classification;
  - queue back-pressure: a hard limit of 1000 and an alert above 500 with a 30-minute cooldown.
- **Token-checked locks.**
  - The Redis Lua scripts: a reentrant set-if-absent and a compare-and-delete.
  - The `RedisLock` wrapper.
  - The standalone `SETNX` lock package.
- **Persistence helpers.** This covers:
  - existence check by id and delete by id;
  - the skip/limit cursor walk;
  - first-occurrence de-duplication by id;
  - the job-set and job-type query controllers, including their second page window;
  - the job-set creation check.
- **Generic utilities.** This covers:
  - the slice helpers (`InSlice`, `Reduce`, `Unique`, `Top`/`Min`/`Max`, `Diff`, `SafeSlice`, `Reverse`);
  - the map helpers (`GetKeys`, `Filter`, `Merge`);
  - the `QueryResult` column, row and index lookups;
  - the configuration-template validator;
  - JSON-tree path lookup, copy and merge;
  - error-code defaulting.

External stores become values:

- a MongoDB collection is a sequence of documents, each of which may fail to decode, or an unreachable collection;
- Redis is a map from key to value and expiry deadline. A key stays present up to and including its deadline instant and is gone once the clock is past it.

The wall clock, generated ids, the outcome of starting a process and the replies of worker probes are all parameters. Times are integer milliseconds. Durations given to Redis are nanoseconds, as Go's `time.Duration` is.

Files (one module each):

| file | module | models |
|---|---|---|
| common.dfy | `Common` | `Option`, `int32` wrap-around, `strings.Split` |
| worker_info.dfy | `WorkerInfo` | src/monitor/workerInfo |
| monitor.dfy | `Monitor` | src/monitor/main.go |
| job_constants.dfy | `JobConstants` | src/abandoned/web/model/jobConstants.go |
| admission.dfy | `Admission` | src/abandoned/web/controller/equity.go, handler.go |
| redis.dfy | `Redis` | framework/database/redis.go (keys, lock scripts, `RedisLock`) |
| setnx_lock.dfy | `SetNxLock` | framework/lock/lock.go |
| slices.dfy | `Slices` | framework/xutil/slice.go |
| maps.dfy | `Maps` | framework/xutil/map.go |
| service.dfy | `Service` | src/service/jobmanage.go, resourcemanage.go |
| job_controller.dfy | `JobController` | src/controller/jobmanage.go |
| query_result.dfy | `QueryResult` | framework/database/mysql.go |
| struct_validator.dfy | `StructValidator` | framework/xutil/struct_validator.go |
| variant.dfy | `Variant` | framework/variant/variant.go and the `Get`/`Set` of value.go |
| error_codes.dfy | `ErrorCodes` | src/config/errors.go |

Where the code has a defect, the model keeps two versions. A member whose name ends in `AsWritten` follows the code as shipped. The corrected member is the one the rest of the model uses (see Findings).

Behaviours of the code a reader might not expect:

- The metric ceilings are inclusive. A CPU usage of exactly 80 and a memory usage of exactly 70 pass.
- Retry counts are never reset. A replacement inherits its predecessor's count plus one.
- The task-queue length is read once, before the monitor loop starts.
- A worker whose restart failed stays in the fleet.
- Health probes refresh `lastHealthyTime` alongside the tick, after the stuck checks have run.

## Model

| member | source | states |
|---|---|---|
| WorkerInfo.IsWorkerStuck | src/monitor/workerInfo/workerStuckCheck.go:5-18 | a worker seen healthy within the health timeout is never stuck; a stuck worker has stale progress or progress below 20; a health-stale worker below 20% is stuck |
| WorkerInfo.StuckIffDeadlinesPassed | src/monitor/workerInfo/workerStuckCheck.go:5-18 | stuck iff the health deadline has passed and either the progress deadline has passed or progress is under 20, stated with absolute deadlines |
| WorkerInfo.StaleLowProgressWorkerIsStuck | src/monitor/workerInfo/workerStuckCheck.go:13 | with the monitor's one-minute timeout, a worker two minutes stale at 10% progress is stuck |
| WorkerInfo.RecentProgressClearsStuck | src/monitor/workerInfo/workerStuckCheck.go:13-15 | progress at or above 20 with recent progress clears the verdict however stale the health is |
| WorkerInfo.StuckPersists | src/monitor/workerInfo/workerStuckCheck.go:5-18 | a stuck worker that nobody refreshes is still stuck at any later time |
| WorkerInfo.EvaluateHealthMetrics | src/monitor/workerInfo/checkWorkerHealth.go:61-77 | metrics pass only when CPU ≤ 80 and memory ≤ 70; exceeding either ceiling fails |
| WorkerInfo.MetricsBoundaries | src/monitor/workerInfo/checkWorkerHealth.go:62-74 | the ceilings 80 and 70 themselves pass; 80.01 CPU or 70.01 memory fail |
| WorkerInfo.FirstLine | src/monitor/workerInfo/checkWorkerHealth.go:34-38 | the scanner's first token: absent exactly for empty output, never containing a newline |
| WorkerInfo.SimpleHealthCheck | src/monitor/workerInfo/checkWorkerHealth.go:26-41 | the liveness probe passes iff the command was written and the first line read back is exactly `healthy` |
| WorkerInfo.LivenessExamples | src/monitor/workerInfo/checkWorkerHealth.go:34-40 | `healthy` passes with LF, CRLF or no line end; `Healthy`, `healthy!`, empty output and a failed write fail |
| WorkerInfo.MetricsBasedHealthCheck | src/monitor/workerInfo/checkWorkerHealth.go:44-58 | the metrics probe passes iff the reply decoded and its metrics are within the ceilings |
| WorkerInfo.IsWorkerHealthy | src/monitor/workerInfo/checkWorkerHealth.go:15-23 | healthy implies a passing liveness probe and decoded metrics within the ceilings; both probes passing implies healthy |
| WorkerInfo.FailedLivenessIgnoresMetrics | src/monitor/workerInfo/checkWorkerHealth.go:17-19 | when liveness fails the verdict is false whatever the metrics reply |
| Monitor.NeedMoreWorkers | src/monitor/main.go:21-24 | for a queue length q ≥ 0, more workers are needed iff count · 10 < q; an empty queue never needs workers |
| Monitor.RequiredIsCeiling | src/monitor/main.go:22 | `(q + 9) / 10` is the least k with 10k ≥ q |
| Monitor.RemoveIdleWorkers | src/monitor/main.go:117-128 | the result is a subsequence of the fleet, holds no idle worker, keeps every non-idle one, and drops exactly the idle count |
| Monitor.TooManyIdleWorkers | src/monitor/main.go:26-34 | true iff trimming would remove more than half the fleet (integer division) |
| Monitor.NoIdleNoTrim | src/monitor/main.go:26-34 | with nobody idle, trimming is not triggered and would change nothing |
| Monitor.Backoff | src/monitor/main.go:159-165 | the sleep before a restart is at least one second |
| Monitor.BackoffDoubles | src/monitor/main.go:165 | each further retry waits twice as long |
| Monitor.BackoffSchedule | src/monitor/main.go:165 | retry counts 0, 1, 2 wait 1 s, 2 s, 4 s |
| Monitor.RetryWorker | src/monitor/main.go:159-180 | retries are exhausted iff the count is ≥ 3; otherwise the backoff is exactly `Backoff` of the worker's retry count, between 1 and 4 s; a restart happens iff the budget remains and the start succeeded; on a restart the new id's count is the old id's count plus one and the old entry is unchanged; otherwise the counts are unchanged |
| Monitor.RetryChainFrom | src/monitor/main.go:159-180 | from count c with fresh replacement ids, successive retries restart with backoffs `Backoff(c)`, `Backoff(c+1)`, … while under the cap and then report exhaustion |
| Monitor.RetiredAfterThreeRestarts | src/monitor/main.go:159-177 | a fresh worker that keeps failing is restarted after 1 s, 2 s and 4 s and retired on the fourth failure |
| Monitor.ScaleStep | src/monitor/main.go:47-59 | a tick's scaling adds at most one worker and yields a subsequence of the fleet plus the new worker; with a deficit and a started worker and no idle majority the fleet is the old one plus that worker; with an idle majority after growing, the result is the grown fleet minus its idle workers; without one, the result is exactly the grown fleet, so a failed start with no idle majority leaves the fleet unchanged |
| Monitor.ScaleStepMembers | src/monitor/main.go:47-59 | a worker is in the scaled fleet iff it was in the fleet or was started for a deficit, and it is not idle whenever the idle majority triggered trimming |
| Monitor.AtMostOneStartPerTick | src/monitor/main.go:48-53 | even with a deficit of several workers, one tick grows the fleet by at most one and the deficit persists |
| Monitor.SuperviseAsWritten | src/monitor/main.go:61-107 | as shipped: when the loop does not panic, the fleet is no longer than the live slice and holds only workers that were already in it, so no replacement is ever supervised |
| Monitor.SuperviseOne | src/monitor/main.go:79-106 | one corrected iteration: an outcome exactly when the worker crashed or is stuck, the replacement in the slot exactly when that outcome is a restart, replacements taken only from the start attempts, retry counts kept |
| Monitor.Supervise | src/monitor/main.go:61-107 | corrected loop: one retry outcome per slot, present exactly for the crashed or stuck workers; each slot holds the replacement when that outcome is a restart and the old worker otherwise; replacements come from the started workers; no retry count is lost |
| Monitor.Tick | src/monitor/main.go:47-107 | the corrected tick never panics: its fleet has one slot per worker of the scaled fleet, holding that worker or (when restarted) its replacement, with the probe's timestamp applied; at most one more worker than before |
| Monitor.QuietTickKeepsFleet | src/monitor/main.go:47-107 | with the queue covered and nobody idle, crashed or stuck, a tick changes only health timestamps |
| Monitor.ReplacementDroppedAsWritten | src/monitor/main.go:79-91 | as shipped, one crashed worker restarted as `b` leaves an empty fleet; the corrected loop keeps `b` in its place |
| Monitor.TwoCrashesPanicAsWritten | src/monitor/main.go:61-91 | as shipped, two crashed workers both restarted make the loop index past the live slice and panic; corrected, both are replaced |
| JobConstants.Code | src/abandoned/web/model/jobConstants.go:3-16 | every status has a code in 0..11 |
| JobConstants.FromCode | src/abandoned/web/model/jobConstants.go:3-16 | every code in 0..11 names a status whose code it is |
| JobConstants.CodesDistinct | src/abandoned/web/model/jobConstants.go:3-16 | the twelve codes are pairwise distinct and decoding inverts encoding |
| JobConstants.TerminalStatuses | src/abandoned/web/model/jobConstants.go:18-25 | terminal iff Processed, ProcessFailed, UploadingFailed, Timeout, Canceled or DownloadFailed |
| JobConstants.FailedIsTerminal | src/abandoned/web/model/jobConstants.go:18-31 | failed iff DownloadFailed, ProcessFailed or UploadingFailed, and every failed status is terminal |
| JobConstants.InFlightAndQuietEnds | src/abandoned/web/model/jobConstants.go:3-31 | the six in-flight statuses are not terminal; Canceled and Timeout are terminal but not failed |
| JobConstants.TableSizes | src/abandoned/web/model/jobConstants.go:18-31 | six terminal codes, three failed codes, failed ⊆ terminal |
| Admission.FirstEnabled | src/abandoned/web/controller/equity.go:20-23 | the position of the first enabled record, or none when no record is enabled |
| Admission.CheckEquity | src/abandoned/web/controller/equity.go:9-33 | a lookup error refuses with the error; no records or no enabled record allows without change; otherwise allowed iff the first enabled record covers the cost, in which case exactly that record is decreased by exactly the cost, else nothing changes |
| Admission.UnitCallsDrain | src/abandoned/web/controller/equity.go:24-27 | k ≤ n unit-cost checks against n units all succeed and leave n − k units on the same record |
| Admission.ExactlyNCallsSucceed | src/abandoned/web/controller/equity.go:24-29 | a quota of n admits exactly n unit-cost requests and refuses the next |
| Admission.CheckTaskTargetFormat | src/abandoned/web/controller/equity.go:66-104 | true iff there is no caller, or the governing list (tenant entry first, user entry as fallback) is empty, or every requested format is on it |
| Admission.TenantOverridesUser | src/abandoned/web/controller/equity.go:75-91 | the tenant's format list governs whatever the user's entry says |
| Admission.HasEnabledVip | src/abandoned/web/controller/equity.go:114-122 | true iff some enabled record has user type 2 |
| Admission.CheckVip | src/abandoned/web/controller/equity.go:106-123 | VIP iff the lookup succeeded and some enabled record has user type 2 |
| Admission.DisabledRecordsIgnored | src/abandoned/web/controller/equity.go:114-117 | adding a disabled record anywhere never changes the VIP verdict |
| Admission.CooldownKeyValue | src/abandoned/web/service/common.go:21-40 | the cooldown key built from the record-key pattern is `S:filetransfer:job.data:limit:C` |
| Admission.LimitJobHandlerAsWritten | src/abandoned/web/controller/handler.go:15-45 | as shipped: a queue ≥ 1000 is rejected with 30201; above 500 an alert is sent when the bare key is not live, and the cooldown is written under the service-prefixed key |
| Admission.LimitJobHandler | src/abandoned/web/controller/handler.go:15-45 | corrected: rejected with 30201 iff the queue is ≥ 1000; an alert iff the queue is > 500 and the cooldown key it writes is not live; after an alert the key reads back for the whole 30 minutes |
| Admission.PressureBandNeverRejects | src/abandoned/web/controller/handler.go:18-26 | queue lengths 501..999 are never rejected |
| Admission.RejectedRequestsStillAlert | src/abandoned/web/controller/handler.go:18-26 | a rejected request still raises an alert when no cooldown runs, because `Abort` does not return |
| Admission.RunAlerts | src/abandoned/web/controller/handler.go:26-44 | a run of requests raises at most one alert per request |
| Admission.SilentWhileCooling | src/abandoned/web/controller/handler.go:28 | while the cooldown key stays live, the corrected handler raises no alert |
| Admission.OneAlertPerCooldown | src/abandoned/web/controller/handler.go:26-44 | under sustained pressure, requests within 30 minutes raise exactly one alert |
| Admission.AlertsEveryTimeAsWritten | src/abandoned/web/controller/handler.go:28-39 | as shipped, with the bare key absent, every request under pressure raises an alert |
| Admission.CooldownIgnoredAsWritten | src/abandoned/web/controller/handler.go:26-44 | two requests one second apart at 501 queued: two mails as shipped, one corrected |
| Redis.FullKey | framework/database/redis.go:61-64 | the full key is the service name (default `NoServiceName`) and a colon, followed by the key itself |
| Redis.FullKeyInjective | framework/database/redis.go:61-64 | distinct keys of one service never collide, and a full key never equals its bare key |
| Redis.LockScript | framework/database/redis.go:16-23 | the reentrant lock answers OK iff the TTL is positive and the key is free or already holds the caller's id; on OK the key holds the id with a fresh deadline; otherwise nothing changes |
| Redis.DelScript | framework/database/redis.go:25-30 | the key is deleted, with reply 1, iff it holds the caller's id; otherwise reply 0 and nothing changes |
| Redis.DelSparesOtherHolders | framework/database/redis.go:25-30 | a release never removes another holder's live key |
| Redis.NewRedisLock | framework/database/redis.go:602-619 | a lock handle carries the service-prefixed key and the caller's id |
| Redis.AbsMilliseconds | framework/database/redis.go:624 | the TTL is the whole milliseconds of the duration's absolute value |
| Redis.TryLock | framework/database/redis.go:621-632 | true iff the server answers and the script replies OK, i.e. a positive TTL and a free or own key; a failure leaves the keyspace unchanged |
| Redis.Lock | framework/database/redis.go:651-665 | no error iff the context is live and the attempt succeeded; on success the key holds the lock's id; on error nothing changed |
| Redis.Unlock | framework/database/redis.go:666-670 | the key is deleted iff it holds the lock's id; otherwise the keyspace is unchanged |
| Redis.ExclusiveWhileLive | framework/database/redis.go:16-30 | while one holder's lock is live, up to and including its deadline, a different id neither acquires nor releases it |
| Redis.Reentrant | framework/database/redis.go:17-20 | the holder may re-acquire up to and including its deadline, which only extends the deadline |
| Redis.ExpiredLockIsFree | framework/database/redis.go:22 | once the clock is past the deadline, anyone acquires the key |
| Redis.LockUnlockFreesKey | framework/database/redis.go:651-670 | lock then unlock from a free key leaves the key free |
| Redis.ZeroTimeoutFails | framework/database/redis.go:624-628 | a sub-millisecond timeout rounds to zero and never acquires |
| SetNxLock.SetNxDeadline | framework/lock/lock.go:53-55 | refused exactly for negative durations other than keep-TTL; a positive duration sets a future deadline of its whole milliseconds (`sec / 1_000_000`), and a positive duration under one millisecond sets exactly one millisecond, as go-redis rounds it up |
| SetNxLock.Lock | framework/lock/lock.go:53-55 | set-if-absent: succeeds iff the server answers and the key is free; on success the key reads back the value and no other key changes; otherwise nothing changes |
| SetNxLock.Unlock | framework/lock/lock.go:62-72 | true iff the key held the value, in which case it is deleted; otherwise nothing changes |
| SetNxLock.TryLock | framework/lock/lock.go:74-91 | the action runs iff the acquire succeeded; an action error is reported as (true, err); the token-checked release always runs on exit |
| SetNxLock.TryLockReleases | framework/lock/lock.go:79-81 | after a successful guarded run the key is free again |
| SetNxLock.TryLockRespectsHolder | framework/lock/lock.go:83-86 | when another holder's lock is live, the action does not run and that holder is undisturbed |
| SetNxLock.TryLockDropsOwnLock | framework/lock/lock.go:79-86 | a caller that already holds the key is refused, yet its own lock is deleted on exit |
| SetNxLock.LockIsExclusive | framework/lock/lock.go:53-72 | a second holder is refused until the first unlocks, then succeeds |
| Slices.InSlice | framework/xutil/slice.go:11-19 | true iff the element occurs in the slice |
| Slices.InSliceIndex | framework/xutil/slice.go:11-19 | membership is witnessed by an index |
| Slices.ReduceIsLeftFold | framework/xutil/slice.go:33-39 | the empty slice folds to the initial value; an appended element is folded in last, with its index |
| Slices.ReduceCollectsIndexes | framework/xutil/slice.go:103-113 | reducing with "append offset + index" appends the run offset, offset+1, … |
| Slices.UniqueSameElements | framework/xutil/slice.go:41-50 | `Unique` keeps every value of the input and invents none |
| Slices.UniqueDistinct | framework/xutil/slice.go:41-50 | `Unique` leaves no value twice |
| Slices.UniqueSubsequence | framework/xutil/slice.go:41-50 | `Unique`'s survivors keep their original order |
| Slices.UniqueKeepsLast | framework/xutil/slice.go:41-50 | appending x moves x to the end of the unique list and leaves the other survivors in place (last occurrence wins) |
| Slices.UniqueIdempotent | framework/xutil/slice.go:41-50 | applying `Unique` twice is applying it once |
| Slices.UniqueExample | framework/xutil/slice.go:41-50 | `Unique([1,2,1,3,2]) == [1,3,2]` |
| Slices.TopOfUnbeaten | framework/xutil/slice.go:64-78 | for a strict total order, `Top`'s winner is beaten by no candidate |
| Slices.Top | framework/xutil/slice.go:64-78 | `Top` returns one of its arguments |
| Slices.Min | framework/xutil/slice.go:81-83 | returns one of its arguments, ≤ every argument |
| Slices.Max | framework/xutil/slice.go:86-88 | returns one of its arguments, ≥ every argument |
| Slices.MinIsNegatedMax | framework/xutil/slice.go:81-88 | the minimum equals the negated maximum of the negated arguments |
| Slices.Sort | framework/xutil/slice.go:98-99 | the sorted list is ordered and a permutation of the input |
| Slices.Walk | framework/xutil/slice.go:101-128 | the merge walk reports strictly increasing indexes within each list's unvisited range |
| Slices.WalkValues | framework/xutil/slice.go:101-128 | the walk's indexes carry exactly the multiset surplus of each side over the other |
| Slices.Diff | framework/xutil/slice.go:91-131 | both inputs are sorted in place; `added` indexes the sorted newest list and carries exactly newest − current (as multisets); `removed` carries exactly current − newest |
| Slices.SafeSlice | framework/xutil/slice.go:155-161 | a nil `*[]T` reads as the empty slice, otherwise as its slice |
| Slices.Reverse | framework/xutil/slice.go:163-169 | same length, and element i is element n−1−i of the input |
| Slices.ReverseInvolution | framework/xutil/slice.go:163-169 | reversing twice gives back the slice |
| Maps.GetKeys | framework/xutil/map.go:9-20 | nil iff the map is empty; otherwise every key exactly once |
| Maps.Filter | framework/xutil/map.go:30-40 | exactly the entries satisfying the predicate, with their values |
| Maps.FilterComposes | framework/xutil/map.go:30-48 | filtering twice is filtering by the conjunction; an always-true filter keeps the map |
| Maps.LastHolder | framework/xutil/map.go:50-59 | the last map holding a key, or none when no map holds it |
| Maps.MergeInto | framework/xutil/map.go:50-59 | a key is in the result iff the first map or a later map holds it; the last later map holding it gives the value; otherwise the first map's value stays |
| Maps.Merge | framework/xutil/map.go:50-59 | merging into a nil first map panics iff some later map has an entry; a present first map merges as above |
| Maps.MergeTwo | framework/xutil/map.go:50-59 | with two maps the result is the first overridden by the second |
| Service.FirstWithKey | src/service/jobmanage.go:18-24 | the first document with the id, or none when no document has it |
| Service.FindOne | src/service/jobmanage.go:24-33 | "no documents" is reported iff the collection is reachable and no document has the id |
| Service.ValidateById | src/service/jobmanage.go:17-34 | true iff the collection was reachable and no document has the id; any other failure reads as "exists" |
| Service.RemoveById | src/service/jobmanage.go:91-101 | an unreachable collection panics on the nil result; otherwise an error iff no document had the id, and the first matching document is deleted |
| Service.RemoveShrinks | src/service/resourcemanage.go:69-76 | deleting a present id shrinks the collection by one, and with distinct ids the id is gone afterwards |
| Service.SkipPhase | src/service/jobmanage.go:188-197 | the skip loop succeeds iff every skipped document decodes, and stops at min(skip, n) |
| Service.TakePhase | src/service/jobmanage.go:200-211 | the read loop succeeds iff every read document decodes, and returns exactly those documents |
| Service.QueryWindow | src/service/jobmanage.go:177-214 | the answered window lies within the collection and is at most `limit` long |
| Service.HandleQueries | src/service/resourcemanage.go:106-143 | a failed find is a query error; a decoding failure anywhere up to the window's end is a decode error; otherwise the documents of the skip/limit window |
| Service.QueryIsSlice | src/service/jobmanage.go:177-254 | with every document decodable, the answer is `docs[skip .. min(skip+limit, n)]`, at most `limit` long, whatever the page |
| Service.DedupFrom | src/service/resourcemanage.go:146-158 | the kept records have pairwise distinct ids, none of them already seen |
| Service.DedupCovers | src/service/jobmanage.go:37-49 | exactly the ids not seen before survive |
| Service.DedupSubsequence | src/service/jobmanage.go:257-269 | the kept records appear in their original order |
| Service.DedupKeepsFirst | src/service/resourcemanage.go:150-155 | of two records with one id, the first is kept |
| Service.DedupFirstOccurrence | src/service/resourcemanage.go:146-158 | every kept record is the first record of the input with its id, and that id was not seen before |
| Service.DedupOfDistinct | src/service/jobmanage.go:37-49 | a list with distinct, unseen ids passes unchanged |
| Service.DedupIdempotent | src/service/jobmanage.go:257-269 | de-duplicating twice is de-duplicating once |
| JobController.AddJobSet | src/controller/jobmanage.go:166-206 | the code is 200 or 402; 402 iff the job type is reported absent or the insert fails; on 200 the generated id is returned and exactly the requested job set is inserted under it |
| JobController.AddJobSetNeedsJobType | src/controller/jobmanage.go:183-189 | with a reachable collection a job set is created iff its job type is stored; an unreachable collection does not block creation |
| JobController.JobSetFilters | src/controller/jobmanage.go:280-312 | the total filter is always issued, plus one filter per non-empty text filter |
| JobController.TotalAlwaysQueried | src/controller/jobmanage.go:304-305 | with every other filter empty, the total query is the only one |
| JobController.JobTypeFilters | src/controller/jobmanage.go:365-413 | at most seven filters, and none exactly when every filter is empty, zero or nil |
| JobController.Collect | src/controller/jobmanage.go:314-332 | the concatenation succeeds iff every filter's query succeeds; a failure is the error of the first failing filter, all earlier ones having succeeded; on success a record is listed iff some filter's answer holds it |
| JobController.CollectInOrder | src/controller/jobmanage.go:314-332 | on success the list is the filters' answers in filter order: the i-th answer occupies exactly the slice between the i-th and (i+1)-th running totals, and the last total is the list's length |
| JobController.CollectOne | src/controller/jobmanage.go:314-332 | a single filter's answer comes back as the service returned it |
| JobController.QueryJobSetAsWritten | src/controller/jobmanage.go:264-340 | as shipped: succeeds iff every query succeeds, and lists the concatenated answers, duplicates included |
| JobController.QueryJobSet | src/controller/jobmanage.go:264-340 | corrected: succeeds iff every query succeeds, and a failure carries the first failing query's error; the listed job sets keep the order of the concatenated answers, have distinct ids, cover exactly the ids found, and each is the first job set with its id |
| JobController.DuplicateJobSetListed | src/controller/jobmanage.go:330-338 | a job set matched by its id and its name is listed twice as shipped, once corrected |
| JobController.ControllerWindow | src/controller/jobmanage.go:420-427 | the second window's start is never negative and its end never exceeds the answer's length |
| JobController.WindowSafeIff | src/controller/jobmanage.go:420-430 | slicing is safe iff the limit is not negative, the unclamped start `(page-1)*limit + skip` (page-1 in int32) is at most the answer's length, and the unclamped end is not negative |
| JobController.CollectWindowed | src/controller/jobmanage.go:415-443 | as shipped: success iff every filter is answered with a safe window; a panic iff the first filter that is not so was answered with an inverted window; otherwise the error is that first filter's; on success a record is listed iff it is in some filter's twice-windowed answer |
| JobController.QueryJobTypeAsWritten | src/controller/jobmanage.go:342-452 | as shipped, over the issued filters: success iff every answer is safely windowed, a panic iff the first unsafe one was answered, the error of the first failing filter otherwise, and the listed records are those of the twice-windowed answers |
| JobController.SkipTwiceOnFirstPage | src/controller/jobmanage.go:416-430 | on page 1 with decodable documents the service returns `[skip, m)` with `m = min(skip+limit, n)` and the controller keeps `[2·skip, m)`, panicking exactly when `2·skip > m` |
| JobController.LaterPagesListNothing | src/controller/jobmanage.go:416-430 | beyond page 1 with no skip the controller's window is empty or inverted (panicking iff `(page-1)·limit` exceeds the answer's length): nothing is ever listed |
| JobController.QueryJobType | src/controller/jobmanage.go:342-452 | corrected: never panics; succeeds iff every query succeeds, and a failure carries the first failing query's error; the list keeps the order of the concatenated answers, has distinct ids, covers exactly the ids found, and keeps the first job type with each id |
| JobController.FirstPageWindowIsWhole | src/controller/jobmanage.go:420-427 | on page 1 with no skip the second window keeps the whole answer |
| JobController.ShortSecondPagePanics | src/controller/jobmanage.go:420-430 | page 2 of a three-record answer slices `[10:3]` and panics as shipped; corrected lists the three |
| JobController.SkipAppliedTwice | src/controller/jobmanage.go:416-430 | twelve matches with skip 5 and limit 10: as shipped only the last two are listed |
| QueryResult.GetCol | framework/database/mysql.go:121-129 | the first column with the name, or −1 iff there is none |
| QueryResult.GetValue | framework/database/mysql.go:131-146 | a cell iff row and column are in range and the row is long enough; then the cell at that position |
| QueryResult.GetValueByName | framework/database/mysql.go:148-150 | a cell exactly when the name is a column, the row is in range and the row reaches that column, and then the cell under the first column with that name; nothing for an unknown name |
| QueryResult.BuildIndexMap | framework/database/mysql.go:105-114 | every row is filed under its key, and no entry is empty |
| QueryResult.BuildIndexMapLists | framework/database/mysql.go:107-113 | each entry lists, in ascending order, exactly the rows filed under its key |
| QueryResult.IndexesFor | framework/database/mysql.go:98-117 | an index exists exactly for each requested name that is a column, built over all rows |
| QueryResult.BuildIndexes | framework/database/mysql.go:94-119 | the table is untouched; with no names the indexes are unchanged; otherwise they are replaced by those of the requested columns |
| QueryResult.GetRowByIndex | framework/database/mysql.go:152-164 | nothing iff the index is unknown or the value absent; otherwise the rows filed under the value |
| QueryResult.LookupFindsRows | framework/database/mysql.go:94-164 | with value keys, a lookup answers iff some row holds the value, and then exactly those rows, ascending |
| QueryResult.ValueLookupMissesAsWritten | framework/database/mysql.go:105-146 | as shipped, a lookup by a cell value finds nothing, whatever was indexed |
| QueryResult.AddressEntriesSingleAsWritten | framework/database/mysql.go:105-146 | as shipped, every present cell gets an entry of its own holding just its row |
| QueryResult.UnknownColumnNotIndexed | framework/database/mysql.go:99-102 | a name that is not a column gets no index, so its lookups fail |
| StructValidator.ValidateTemplateString | framework/xutil/struct_validator.go:11-18 | accepts exactly `Boolean`, `Numerical` and `String` |
| StructValidator.ValidateTemplateArray | framework/xutil/struct_validator.go:21-33 | true iff every item is a string naming a type |
| StructValidator.ValidateTemplateElement | framework/xutil/struct_validator.go:36-55 | true iff the element is a type name, a map of valid elements, or a list of type names |
| StructValidator.ValidateTemplate | framework/xutil/struct_validator.go:58-66 | true iff every value of the template is a valid element |
| StructValidator.TemplateShapes | framework/xutil/struct_validator.go:36-55 | numbers and booleans are never template elements; a map is valid iff its values are; a nested list or an unknown name is rejected |
| StructValidator.ValidateConfigurationKey | framework/xutil/struct_validator.go:69-88 | true iff a '#' key is present, and for a map element, its own '#' keys are present one level down, recursively; only keys the check reaches must be non-empty |
| StructValidator.ValidateConfigurationKeys | framework/xutil/struct_validator.go:147-154 | true iff every template key's requirement holds; an empty key nested under a key that is not required is accepted |
| StructValidator.RequiredKeysPresent | framework/xutil/struct_validator.go:69-88 | a passing required key is present, and so are its map's required keys |
| StructValidator.KeysHoldForSelf | framework/xutil/struct_validator.go:69-88 | a configuration always passes against its own shape |
| StructValidator.KeysHoldMonotone | framework/xutil/struct_validator.go:69-88 | adding entries never breaks the required keys |
| StructValidator.PlainKeyNotRead | framework/xutil/struct_validator.go:69-71 | below a key not starting with '#' nothing is read: any element, empty keys included, passes without a panic |
| StructValidator.Strings | framework/xutil/struct_validator.go:108-111 | the configuration list's strings, one per item, in order |
| StructValidator.StringsMembership | framework/xutil/struct_validator.go:108-111 | a name is among the configured strings iff the configuration list holds it as a string item |
| StructValidator.ListAllowed | framework/xutil/struct_validator.go:112-122 | true iff every string item of the list element finds `String` configured and every float item finds `Numerical` |
| StructValidator.ValidateFields | framework/xutil/struct_validator.go:127-133 | true iff every entry of the map element matches in the nested configuration |
| StructValidator.ValidateConfigurationElement | framework/xutil/struct_validator.go:91-144 | true iff the entry is present and matches: the three type names ask for string, float and bool; a non-empty list must meet a list element whose strings and floats it allows; maps match recursively |
| StructValidator.ValidateConfiguration | framework/xutil/struct_validator.go:157-164 | true iff every template entry matches |
| StructValidator.ConfigurationTypes | framework/xutil/struct_validator.go:91-104 | a passing configuration has every template key, with a string, float or bool where `String`, `Numerical` or `Boolean` is asked |
| StructValidator.IntegerIsNotNumerical | framework/xutil/struct_validator.go:97-100 | an integer does not pass for `Numerical`; a float does |
| Variant.ParseInt32 | framework/variant/value.go:70-76 | a parsed index is an `int32` written as an optional sign and digits only; any digit string below 2^31 parses to its value |
| Variant.Child | framework/variant/value.go:51-95 | an object answers its entry or nil; an array answers the element at the parsed index when in range, else nil |
| Variant.GetPath | framework/variant/variant.go:51-68 | no keys, or a scalar, yields nil; one key on a container is a child lookup |
| Variant.Get | framework/variant/variant.go:87-89 | a dotted path into a scalar yields nil |
| Variant.GetPathConcat | framework/variant/variant.go:51-68 | following a path in two pieces equals following it in one |
| Variant.ArrayIndexSpellings | framework/variant/value.go:59-77 | `1`, `+1` and `01` address element 1; `-1`, empty and `1x` find nothing |
| Variant.WideIndexRejected | framework/variant/value.go:70-73 | an index beyond 32 bits is rejected rather than wrapped |
| Variant.DottedPath | framework/variant/variant.go:87-89 | `a.b` is the key path `["a", "b"]` |
| Variant.CopyJson | framework/variant/variant.go:95-112 | scalars copy to themselves; an object's copy has exactly its non-nil keys; an array's copy has its length and exists only when no element is nil |
| Variant.CopyOfNullFree | framework/variant/variant.go:95-112 | a value without nils copies to itself |
| Variant.MergeTwo | framework/variant/variant.go:150-212 | nil on a missing side, a kind mismatch or a scalar old value; a result has the old value's kind; a panic exactly when copying the old value fails or the new array holds a nil over one of the old array's slots |
| Variant.FoldStep | framework/variant/variant.go:223-229 | a panic stays a panic; a nil value changes nothing; a nil accumulator takes the value; otherwise the accumulator is merged over the value |
| Variant.FoldMerge | framework/variant/variant.go:223-229 | a panic is never recovered from; a run of nil values changes nothing; a nil accumulator takes the first value |
| Variant.Merge | framework/variant/variant.go:214-221 | with no further arguments, a missing new value yields the old one and a missing old value yields the new one |
| Variant.MergeObjects | framework/variant/variant.go:172-206 | for objects: a new scalar wins, a new nil removes the key, nested objects merge, an old array is kept, a new container replaces a different kind, and keys only the old value has stay |
| Variant.MergeIdempotent | framework/variant/variant.go:150-212 | a nil-free container merged over itself is unchanged |
| Variant.ArrayMergeEdges | framework/variant/variant.go:191-206 | a nil in the new array over an old slot panics; new elements past the old array's end are dropped |
| Variant.EarlierArgumentsWin | framework/variant/variant.go:214-231 | over three objects each key takes the value of the earliest argument that has it |
| ErrorCodes.Lookup | src/config/errors.go:42-47 | the table's message for a known code, the empty string otherwise |
| ErrorCodes.ErrCode | src/config/errors.go:36-41 | never zero; zero becomes the database-error code 1001, which has a table entry; other codes are unchanged |
| ErrorCodes.ErrMsg | src/config/errors.go:42-47 | an explicit message wins; an empty one becomes the code's non-empty table message, or stays empty for an unknown code |
| ErrorCodes.Error | src/config/errors.go:48-56 | the first call builds the service error from the stored code and the defaulted message; later calls return the cached error unchanged |
| ErrorCodes.TableComplete | src/config/errors.go:5-24 | every table message is non-empty, so `ErrMsg` is empty iff the message is empty and the code unknown |
| ErrorCodes.ZeroCodeMessage | src/config/errors.go:36-47 | a zero code reports 1001 but an empty message, while code 1001 itself gets "Database error." |
| ErrorCodes.RejectionCodeHasMessage | src/config/errors.go:20 | the admission rejection code 30201 carries "Too many tasks, try again later. " |

## Left out

- Process control is not modelled. This covers starting and shutting down workers, the stdin/stdout pipes, `time.Sleep`, the 10-second kill timeout, log fetching, crash analysis and crash notification. Each is an operating-system effect; their outcomes enter as parameters (`started`, `crashed`, probe replies).
- The per-worker health goroutines in the monitor loop run concurrently. The model applies their effect after the tick's supervision pass.
- `GetTaskScopeId` (equity.go:35-64) is not modelled. It is a configuration lookup with recovered panics, outside the admission rules.
- `UpdateEquity` is not modelled as a store write. The write-back of `CheckEquity` is returned as the new record list, and its error, which the source ignores, is not modelled.
- The equity lookup by user or tenant id is a database query. Its result is the `Lookup` parameter.
- Admission.CheckTaskTargetFormat: an entry whose `support_format` is not a `[]string` panics in the source; the model has no such entry.
- Admission.LimitJobHandler: the mail body and the event-bus publication are reduced to an "alerted" flag.
- Admission.LimitJobHandlerAsWritten: a Redis error on `RedisExists` reads as "absent" and an error on the write leaves the keyspace as it was; both are the single `up` flag, and a partial failure (one call failing, the other not) is not modelled.
- Redis.TryLock: the connection timeout and the nanosecond-to-millisecond conversion of `time.Until` in `NewRedisLock` are not modelled; the id is a parameter because it comes from a snowflake generator or a random string.
- `LockRetry` (redis.go:634-650) is not modelled: it is an unbounded sleep-and-retry loop around `TryLock`.
- `RandomStr` (lock.go:39-46) is not modelled: it is randomness.
- SetNxLock.TryLock: the action's own effects on Redis are not modelled, only its error.
- Maps.Merge: the source writes into and returns the first map itself (aliasing); the model returns the merged value.
- Maps.GetKeys: the order of the keys is Go's unspecified map iteration order; the model fixes none.
- `OrderForeach`, `FilterKey`, `FilterVal`, `InSliceF`, `UniqueF` and `Slice` are not modelled: they are thin wrappers or reflection-based conversions.
- Slices.Top, Slices.Min, Slices.Max, Slices.Diff are modelled on integers only, not over every ordered Go type.
- Service.HandleQueries: a cursor that fails partway (as opposed to a document that fails to decode) is not modelled. The MongoDB filter semantics (which documents a filter selects) are a parameter, `find`.
- Service.RemoveById: `DeleteOne` ignoring its error and dereferencing a nil result is modelled as a panic on an unreachable collection; a delete that fails on a reachable collection is not distinguished.
- The generated ids of `GenerateID` are a parameter (`newId`).
- JobController.AddJobSet: the reply message text is not modelled.
- The job-set total filter is a string in the filter datatype regardless of its wire type.
- The resource-pool, tenant-config and job-type CRUD controllers, and the gRPC handlers, are not modelled beyond the existence, pagination and dedup rules above.
- QueryResult: reading a table from MySQL (`rows.Scan`) is not modelled; tables are values.
- StructValidator: inputs on which the source panics at run time are excluded by `requires`. These cover:
  - reflecting on a nil value;
  - indexing the first byte of an empty key the check reaches (an index-out-of-range panic); empty keys it never reaches are allowed;
  - a failed type assertion on a configuration value read as a map or a list of strings.
- StructValidator.ValidateConfigurationKeys: Go's map iteration order is random, so a key after an early `false` may go unread; the model asks every sibling on a reached level to be safe, whichever order is taken.
- StructValidator: the distinction between `primitive.A` and `[]interface{}` is collapsed into one list kind.
- Variant: the Go numeric kinds are collapsed into one `Num` kind. `Merge` therefore treats an `int` and a `float64` as the same type, which the source does not.
- Variant: `set`/`Set` (variant.go:70-93), `Print` and the typed getters of value.go are not modelled.
- Variant.Child: integer (non-string) keys are not modelled; paths are always strings.
- ErrorCodes.Error: the call-stack capture and the framework's fallback message table of `NewServiceError` are not modelled.
- Monitor.RetryWorker: the backoff is computed with `math.Pow` on floats in the source; the model uses exact integers, which agree for the counts 0..2 that can reach the computation.
- Monitor.Supervise: the retry counts are only shown to grow in domain; per-worker counting is stated by `RetryWorker`.
- StructValidator.ValidateTemplateElement: requires no nil value anywhere in the element, although the source returns false without panicking when the nil sits in an array after an invalid item (`ValidateTemplateArray` itself admits that case); a nil that is reached panics in the source.
- Variant: `primitive.M` and `map[string]any` collapse into one object kind, and `primitive.A` and `[]any` into one array kind, just as the numeric types collapse; the source's `Type()` comparison tells them apart and merges nothing across them.
- Monitor.Tick: the queue length is a parameter, as the source reads it once before the loop.

## Findings

| source | as written | input that shows it | evidently intended | confidence | as-written member | corrected member |
|---|---|---|---|---|---|---|
| src/abandoned/web/controller/handler.go:26-44 | the cooldown is checked with `RedisExists` on the bare key but written by `RedisSetCtx` under the service-prefixed key (framework/database/redis.go:107-117,491-500) | two requests one second apart with 501 tasks queued | at most one alert mail per 30 minutes | not executed | Admission.CooldownIgnoredAsWritten | Admission.OneAlertPerCooldown |
| src/monitor/main.go:86-104 | the replacement is stored at `workers[i]` and then removed by `append(workers[:i], workers[i+1:]...)` | one crashed worker `a` restarted successfully as `b` | the replacement takes the crashed worker's place | not executed | Monitor.ReplacementDroppedAsWritten | Monitor.Supervise |
| src/controller/jobmanage.go:416-430 | the page window is applied again to the answer the service already paginated | page 2, limit 10, skip 0, three matching job types: `result[10:3]` | the service's answer is listed as returned | not executed | JobController.ShortSecondPagePanics | JobController.QueryJobType |
| src/controller/jobmanage.go:337-338 | the de-duplicated list is computed and discarded (again at lines 449-450) | a job set matched by both its id filter and its name filter | each job set listed once | not executed | JobController.DuplicateJobSetListed | JobController.QueryJobSet |
| framework/database/mysql.go:105-146 | index entries are keyed by a freshly allocated `*FieldValue` per cell | any built index, looked up by a cell value | rows looked up by their cell value | not executed | QueryResult.ValueLookupMissesAsWritten | QueryResult.LookupFindsRows |

=== FILE: admission.dfy ===
/** Admission rules of the web front end: quota consumption against the
    equity records, the target-format whitelist, VIP classification, and
    the queue back-pressure handler with its alert cooldown. */
module Admission {
  import opened Common
  import opened Redis

  // ---------------------------------------------------------------------
  // Equity records
  // ---------------------------------------------------------------------

  /** The fields of an equity record the rules read or write. */
  datatype Equity = Equity(equityId: string, userType: int, availableNum: int, isEnable: bool)

  /** The result of looking up a caller's equity records. */
  datatype Lookup = LookupFailed | Found(records: seq<Equity>)

  /** The position of the first enabled record, if any. */
  function FirstEnabled(rs: seq<Equity>): (i: Option<nat>)
    ensures i.Some? ==> i.value < |rs| && rs[i.value].isEnable
    ensures i.Some? ==> forall j :: 0 <= j < i.value ==> !rs[j].isEnable
    ensures i.None? ==> forall j :: 0 <= j < |rs| ==> !rs[j].isEnable
  {
    if |rs| == 0 then None
    else if rs[0].isEnable then Some(0)
    else
      match FirstEnabled(rs[1..])
      case None => None
      case Some(k) => Some(k + 1)
  }

  /** What `CheckEquity` answers, and the records as stored afterwards. */
  datatype EquityVerdict = EquityVerdict(allowed: bool, lookupError: bool, ledger: seq<Equity>)

  /** `CheckEquity`: only the first enabled record is consulted.  When it
      covers `runNum` it is decremented by exactly `runNum` and written back;
      otherwise the request is refused and nothing changes.  No records, or
      no enabled record, means no quota applies. */
  function CheckEquity(lookup: Lookup, runNum: int): (v: EquityVerdict)
    ensures v.lookupError <==> lookup.LookupFailed?
    ensures lookup.LookupFailed? ==> !v.allowed && v.ledger == []
    ensures lookup.Found? ==> |v.ledger| == |lookup.records|
    ensures lookup.Found? && FirstEnabled(lookup.records).None? ==> v.allowed && v.ledger == lookup.records
    ensures lookup.Found? && FirstEnabled(lookup.records).Some? ==>
      var i := FirstEnabled(lookup.records).value;
      var r := lookup.records[i];
      && (v.allowed <==> r.availableNum >= runNum)
      && (v.allowed ==> v.ledger == lookup.records[i := r.(availableNum := r.availableNum - runNum)])
      && (!v.allowed ==> v.ledger == lookup.records)
  {
    match lookup
    case LookupFailed => EquityVerdict(false, true, [])
    case Found(rs) =>
      if |rs| == 0 then EquityVerdict(true, false, rs)
      else
        match FirstEnabled(rs)
        case None => EquityVerdict(true, false, rs)
        case Some(i) =>
          if rs[i].availableNum >= runNum then
            EquityVerdict(true, false, rs[i := rs[i].(availableNum := rs[i].availableNum - runNum)])
          else
            EquityVerdict(false, false, rs)
  }

  /** The verdicts of `k` successive unit-cost checks, each seeing the
      records the previous one wrote back. */
  function UnitCalls(rs: seq<Equity>, k: nat): (res: (seq<bool>, seq<Equity>))
    ensures |res.0| == k && |res.1| == |rs|
    decreases k
  {
    if k == 0 then ([], rs)
    else
      var v := CheckEquity(Found(rs), 1);
      var rest := UnitCalls(v.ledger, k - 1);
      ([v.allowed] + rest.0, rest.1)
  }

  /** Starting from `n` units on the first enabled record, `k <= n` unit
      checks all succeed and leave `n - k` units there. */
  lemma {:induction false} UnitCallsDrain(rs: seq<Equity>, i: nat, n: nat, k: nat)
    requires FirstEnabled(rs) == Some(i)
    requires rs[i].availableNum == n && k <= n
    ensures forall j :: 0 <= j < k ==> UnitCalls(rs, k).0[j]
    ensures FirstEnabled(UnitCalls(rs, k).1) == Some(i)
    ensures UnitCalls(rs, k).1 == rs[i := rs[i].(availableNum := n - k)]
    decreases k
  {
    if k > 0 {
      var v := CheckEquity(Found(rs), 1);
      var rs' := rs[i := rs[i].(availableNum := n - 1)];
      assert v.ledger == rs';
      SameEnabledPrefix(rs, rs', i);
      UnitCallsDrain(rs', i, n - 1, k - 1);
      assert rs'[i := rs'[i].(availableNum := n - 1 - (k - 1))] == rs[i := rs[i].(availableNum := n - k)];
    }
  }

  /** Changing the quota of the first enabled record keeps it first. */
  lemma SameEnabledPrefix(rs: seq<Equity>, rs': seq<Equity>, i: nat)
    requires FirstEnabled(rs) == Some(i)
    requires |rs'| == |rs|
    requires forall j :: 0 <= j < |rs| ==> rs'[j].isEnable == rs[j].isEnable
    ensures FirstEnabled(rs') == Some(i)
  {
    // The record at `i` is enabled in `rs'` and none before it is.
    assert rs'[i].isEnable;
    assert forall j :: 0 <= j < i ==> !rs'[j].isEnable;
  }

  /** A quota of `n` admits exactly `n` unit-cost requests: the next one is
      refused. */
  lemma ExactlyNCallsSucceed(rs: seq<Equity>, n: nat)
    requires FirstEnabled(rs).Some? && rs[FirstEnabled(rs).value].availableNum == n
    ensures var res := UnitCalls(rs, n + 1).0;
      (forall j :: 0 <= j < n ==> res[j]) && !res[n]
  {
    var i := FirstEnabled(rs).value;
    UnitCallsDrain(rs, i, n, n);
    UnitCallsPrefix(rs, n);
    var drained := UnitCalls(rs, n).1;
    assert drained[i].availableNum == 0;
    assert !CheckEquity(Found(drained), 1).allowed;
  }

  /** One more call extends the verdict sequence of the first `k`. */
  lemma {:induction false} UnitCallsPrefix(rs: seq<Equity>, k: nat)
    ensures UnitCalls(rs, k + 1).0 == UnitCalls(rs, k).0 + [CheckEquity(Found(UnitCalls(rs, k).1), 1).allowed]
    decreases k
  {
    if k > 0 {
      var v := CheckEquity(Found(rs), 1);
      UnitCallsPrefix(v.ledger, k - 1);
    }
  }

  // ---------------------------------------------------------------------
  // Target formats
  // ---------------------------------------------------------------------

  /** The caller identity carried by a request. */
  datatype UserInfo = UserInfo(userId: Option<string>, tenantId: Option<string>)

  /** An equity configuration entry: a map holding a `support_format` list,
      or an entry of another shape (such as a scope-id map). */
  datatype EquityConfig = FormatConfig(supportFormat: seq<string>) | OtherConfig

  /** The format list that governs a caller: the tenant's entry when it has
      one, otherwise the user's, otherwise none. */
  function GoverningFormats(u: UserInfo, cfg: map<string, EquityConfig>): seq<string> {
    if u.tenantId.Some? && u.tenantId.value in cfg && cfg[u.tenantId.value].FormatConfig? then
      cfg[u.tenantId.value].supportFormat
    else if u.userId.Some? && u.userId.value in cfg && cfg[u.userId.value].FormatConfig? then
      cfg[u.userId.value].supportFormat
    else []
  }

  /** `CheckTaskTargetFormat`: with no caller, no configuration or an empty
      list every format passes; otherwise every requested format must be on
      the governing list. */
  method CheckTaskTargetFormat(user: Option<UserInfo>, cfg: map<string, EquityConfig>, targets: seq<string>)
    returns (ok: bool)
    ensures ok <==> user.None?
                    || |GoverningFormats(user.value, cfg)| == 0
                    || forall j :: 0 <= j < |targets| ==> targets[j] in GoverningFormats(user.value, cfg)
  {
    if user.None? {
      return true;
    }
    var u := user.value;
    if |cfg| == 0 {
      assert GoverningFormats(u, cfg) == [];
      return true;
    }
    var support: seq<string> := [];
    if u.tenantId.Some? && u.tenantId.value in cfg && cfg[u.tenantId.value].FormatConfig? {
      if |cfg[u.tenantId.value].supportFormat| == 0 {
        return true;
      }
      support := cfg[u.tenantId.value].supportFormat;
    }
    if u.userId.Some? && |support| == 0 && u.userId.value in cfg && cfg[u.userId.value].FormatConfig? {
      if |cfg[u.userId.value].supportFormat| == 0 {
        return true;
      }
      support := cfg[u.userId.value].supportFormat;
    }
    assert support == GoverningFormats(u, cfg);
    if |support| > 0 {
      var supported: set<string> := {};
      for i := 0 to |support|
        invariant supported == set j | 0 <= j < i :: support[j]
      {
        supported := supported + {support[i]};
      }
      assert forall f :: f in supported <==> f in support;
      for i := 0 to |targets|
        invariant forall j :: 0 <= j < i ==> targets[j] in support
      {
        if targets[i] !in supported {
          return false;
        }
      }
    }
    return true;
  }

  /** The tenant's list, when non-empty, overrides whatever the user's
      entry says. */
  lemma TenantOverridesUser(u: UserInfo, cfg: map<string, EquityConfig>, userCfg: EquityConfig)
    requires u.tenantId.Some? && u.userId.Some? && u.userId.value != u.tenantId.value
    requires u.tenantId.value in cfg && cfg[u.tenantId.value].FormatConfig?
    ensures GoverningFormats(u, cfg[u.userId.value := userCfg]) == cfg[u.tenantId.value].supportFormat
  {
  }

  // ---------------------------------------------------------------------
  // VIP
  // ---------------------------------------------------------------------

  const VipUserType: int := 2

  /** Whether some enabled record carries the VIP user type. */
  function HasEnabledVip(rs: seq<Equity>): (vip: bool)
    ensures vip <==> exists i :: 0 <= i < |rs| && rs[i].isEnable && rs[i].userType == VipUserType
  {
    if |rs| == 0 then false
    else if rs[0].isEnable && rs[0].userType == VipUserType then true
    else
      var rest := HasEnabledVip(rs[1..]);
      assert forall i :: 1 <= i < |rs| ==> rs[i] == rs[1..][i - 1];
      rest
  }

  /** `CheckVIP`: a lookup error or an empty list is "not VIP"; otherwise
      VIP exactly when some enabled record has user type 2. */
  function CheckVip(lookup: Lookup): (vip: bool)
    ensures vip <==> lookup.Found?
                     && exists i :: 0 <= i < |lookup.records|
                          && lookup.records[i].isEnable && lookup.records[i].userType == VipUserType
  {
    match lookup
    case LookupFailed => false
    case Found(rs) => if |rs| == 0 then false else HasEnabledVip(rs)
  }

  /** Disabled records never make a caller VIP, whatever their type. */
  lemma DisabledRecordsIgnored(rs: seq<Equity>, extra: Equity)
    requires !extra.isEnable
    ensures CheckVip(Found(rs + [extra])) == CheckVip(Found(rs))
    ensures CheckVip(Found([extra] + rs)) == CheckVip(Found(rs))
  {
    assert forall i :: 0 <= i < |rs| ==> (rs + [extra])[i] == rs[i];
    assert forall i :: 0 <= i < |rs| ==> ([extra] + rs)[i + 1] == rs[i];
  }

  // ---------------------------------------------------------------------
  // Queue back-pressure
  // ---------------------------------------------------------------------

  const HardLimit: int := 1000
  const AlertThreshold: int := 500
  const TooManyTasks: int := 30201
  /** Thirty minutes between two alert mails. */
  const AlertCooldownMs: int := 1_800_000

  /** The record-key pattern `S:filetransfer:<mark>:<key>:<type>`. */
  function RecordKey(key: string, serviceMark: string, paramType: string): (k: string)
    ensures |k| == |"S:filetransfer:"| + |serviceMark| + |key| + |paramType| + 2
  {
    "S:filetransfer:" + serviceMark + ":" + key + ":" + paramType
  }

  /** The cooldown key the handler consults. */
  const CooldownKey: string := RecordKey("limit", "job.data", "C")

  lemma CooldownKeyValue()
    ensures CooldownKey == "S:filetransfer:job.data:limit:C"
  {
  }

  /** What one request through the handler produces. */
  datatype HandlerOutcome = HandlerOutcome(rejectCode: Option<int>, alerted: bool, ks: Keyspace)

  /** The handler as shipped: the existence test uses the bare key while
      the cooldown is written under the service-prefixed key.  A failed
      Redis call (`up` false) reads as "absent" and writes nothing. */
  function LimitJobHandlerAsWritten(queueLen: nat, ks: Keyspace, service: Option<string>, now: int, up: bool)
    : (o: HandlerOutcome)
    ensures o.rejectCode == (if queueLen >= HardLimit then Some(TooManyTasks) else None)
    ensures o.alerted <==> queueLen > AlertThreshold && !(up && Live(ks, CooldownKey, now))
    ensures o.alerted && up ==> o.ks == ks[FullKey(service, CooldownKey) := Entry("", Some(now + AlertCooldownMs))]
    ensures !(o.alerted && up) ==> o.ks == ks
  {
    var reject := if queueLen >= HardLimit then Some(TooManyTasks) else None;
    if queueLen > AlertThreshold && !(up && Live(ks, CooldownKey, now)) then
      var ks' := if up then ks[FullKey(service, CooldownKey) := Entry("", Some(now + AlertCooldownMs))] else ks;
      HandlerOutcome(reject, true, ks')
    else
      HandlerOutcome(reject, false, ks)
  }

  /** The handler with the existence test on the key it writes. */
  function LimitJobHandler(queueLen: nat, ks: Keyspace, service: Option<string>, now: int, up: bool)
    : (o: HandlerOutcome)
    ensures o.rejectCode == Some(TooManyTasks) <==> queueLen >= HardLimit
    ensures o.rejectCode.None? <==> queueLen < HardLimit
    ensures o.alerted <==> queueLen > AlertThreshold && !(up && Live(ks, FullKey(service, CooldownKey), now))
    ensures o.alerted && up ==> Get(o.ks, FullKey(service, CooldownKey), now + AlertCooldownMs - 1) == Some("")
    ensures !(o.alerted && up) ==> o.ks == ks
  {
    var full := FullKey(service, CooldownKey);
    var reject := if queueLen >= HardLimit then Some(TooManyTasks) else None;
    if queueLen > AlertThreshold && !(up && Live(ks, full, now)) then
      var ks' := if up then ks[full := Entry("", Some(now + AlertCooldownMs))] else ks;
      HandlerOutcome(reject, true, ks')
    else
      HandlerOutcome(reject, false, ks)
  }

  /** Between the alert threshold and the hard limit nothing is rejected,
      in either version. */
  lemma PressureBandNeverRejects(queueLen: nat, ks: Keyspace, service: Option<string>, now: int, up: bool)
    requires AlertThreshold < queueLen < HardLimit
    ensures LimitJobHandler(queueLen, ks, service, now, up).rejectCode.None?
    ensures LimitJobHandlerAsWritten(queueLen, ks, service, now, up).rejectCode.None?
  {
  }

  /** Rejection does not stop the handler: a rejected request at the hard
      limit still raises an alert when no cooldown is running. */
  lemma RejectedRequestsStillAlert(queueLen: nat, ks: Keyspace, service: Option<string>, now: int)
    requires queueLen >= HardLimit
    requires !Live(ks, FullKey(service, CooldownKey), now)
    ensures var o := LimitJobHandler(queueLen, ks, service, now, true);
      o.rejectCode == Some(TooManyTasks) && o.alerted
  {
  }

  /** The number of alerts raised by requests arriving at `times`, all with
      the same queue length, through the shipped or the corrected handler. */
  function RunAlerts(times: seq<int>, queueLen: nat, ks: Keyspace, service: Option<string>, asWritten: bool)
    : (n: nat)
    ensures n <= |times|
  {
    if |times| == 0 then 0
    else
      var o := if asWritten then LimitJobHandlerAsWritten(queueLen, ks, service, times[0], true)
               else LimitJobHandler(queueLen, ks, service, times[0], true);
      (if o.alerted then 1 else 0) + RunAlerts(times[1..], queueLen, o.ks, service, asWritten)
  }

  /** While the cooldown key stays live, the corrected handler is silent. */
  lemma {:induction false} SilentWhileCooling(times: seq<int>, queueLen: nat, ks: Keyspace, service: Option<string>)
    requires forall j :: 0 <= j < |times| ==> Live(ks, FullKey(service, CooldownKey), times[j])
    ensures RunAlerts(times, queueLen, ks, service, false) == 0
    decreases |times|
  {
    if |times| > 0 {
      var o := LimitJobHandler(queueLen, ks, service, times[0], true);
      assert o.ks == ks;
      forall j | 0 <= j < |times[1..]|
        ensures Live(ks, FullKey(service, CooldownKey), times[1..][j])
      {
        assert times[1..][j] == times[j + 1];
      }
      SilentWhileCooling(times[1..], queueLen, ks, service);
    }
  }

  /** Under sustained pressure, requests spread over less than thirty
      minutes raise exactly one alert through the corrected handler. */
  lemma OneAlertPerCooldown(times: seq<int>, queueLen: nat, ks: Keyspace, service: Option<string>)
    requires queueLen > AlertThreshold && |times| > 0
    requires !Live(ks, FullKey(service, CooldownKey), times[0])
    requires forall j :: 0 <= j < |times| ==> times[0] <= times[j] < times[0] + AlertCooldownMs
    ensures RunAlerts(times, queueLen, ks, service, false) == 1
  {
    var full := FullKey(service, CooldownKey);
    var o := LimitJobHandler(queueLen, ks, service, times[0], true);
    assert o.alerted;
    var ks' := ks[full := Entry("", Some(times[0] + AlertCooldownMs))];
    assert o.ks == ks';
    forall j | 0 <= j < |times[1..]|
      ensures Live(ks', full, times[1..][j])
    {
      assert times[1..][j] == times[j + 1];
    }
    SilentWhileCooling(times[1..], queueLen, ks', service);
  }

  /** The shipped handler never sees its own cooldown: with the bare key
      absent, every request under pressure raises an alert. */
  lemma {:induction false} AlertsEveryTimeAsWritten(times: seq<int>, queueLen: nat, ks: Keyspace, service: Option<string>)
    requires queueLen > AlertThreshold
    requires CooldownKey !in ks
    ensures RunAlerts(times, queueLen, ks, service, true) == |times|
    decreases |times|
  {
    if |times| > 0 {
      var o := LimitJobHandlerAsWritten(queueLen, ks, service, times[0], true);
      FullKeyInjective(service, CooldownKey, CooldownKey);
      assert CooldownKey !in o.ks;
      AlertsEveryTimeAsWritten(times[1..], queueLen, o.ks, service);
    }
  }

  /** Two requests one second apart: the shipped handler mails twice, the
      corrected one once. */
  lemma CooldownIgnoredAsWritten(ks: Keyspace, service: Option<string>, t: int)
    requires CooldownKey !in ks && FullKey(service, CooldownKey) !in ks
    ensures RunAlerts([t, t + 1000], 501, ks, service, true) == 2
    ensures RunAlerts([t, t + 1000], 501, ks, service, false) == 1
  {
    AlertsEveryTimeAsWritten([t, t + 1000], 501, ks, service);
    OneAlertPerCooldown([t, t + 1000], 501, ks, service);
  }
}

=== FILE: common.dfy ===
/** Small shared vocabulary: an optional value, Go's 32-bit signed wrap-around,
    and the `strings.Split` used by the path helpers. */
module Common {

  /** Go's `nil` versus a present value. */
  datatype Option<+T> = None | Some(value: T)

  const TwoTo31: int := 0x8000_0000
  const TwoTo32: int := 0x1_0000_0000

  predicate IsInt32(x: int) {
    -TwoTo31 <= x < TwoTo31
  }

  /** Two's-complement wrap-around of an `int32` computation. */
  function Wrap32(x: int): (r: int)
    ensures IsInt32(r)
    ensures (r - x) % TwoTo32 == 0
    ensures IsInt32(x) ==> r == x
  {
    var m := (x + TwoTo31) % TwoTo32;
    m - TwoTo31
  }

  /** The pieces of `s` between occurrences of `sep`, as Go's `strings.Split`
      with a one-character separator (an empty string yields one empty piece). */
  function Split(s: string, sep: char): (r: seq<string>)
    ensures |r| >= 1
    ensures forall i :: 0 <= i < |r| ==> sep !in r[i]
    decreases |s|
  {
    if |s| == 0 then [""]
    else
      var rest := Split(s[1..], sep);
      if s[0] == sep then [""] + rest
      else [[s[0]] + rest[0]] + rest[1..]
  }

  /** Go's `strings.Join` with a one-character separator. */
  function Join(parts: seq<string>, sep: char): string
  {
    if |parts| == 0 then ""
    else if |parts| == 1 then parts[0]
    else parts[0] + [sep] + Join(parts[1..], sep)
  }

  /** Splitting and re-joining on the same separator gives back the string. */
  lemma {:induction false} JoinSplit(s: string, sep: char)
    ensures Join(Split(s, sep), sep) == s
    decreases |s|
  {
    if |s| == 0 {
    } else {
      var rest := Split(s[1..], sep);
      JoinSplit(s[1..], sep);
      if s[0] == sep {
        assert Split(s, sep) == [""] + rest;
        assert ([""] + rest)[1..] == rest;
        assert s == [sep] + s[1..];
      } else {
        var parts := [[s[0]] + rest[0]] + rest[1..];
        assert Split(s, sep) == parts;
        if |rest| == 1 {
          assert Join(rest, sep) == rest[0];
          assert s == [s[0]] + s[1..];
        } else {
          assert parts[1..] == rest[1..];
          assert Join(rest, sep) == rest[0] + [sep] + Join(rest[1..], sep);
          assert s == [s[0]] + s[1..];
        }
      }
    }
  }

  /** `r` can be obtained from `s` by deleting elements (order kept). */
  ghost predicate IsSubsequence<T>(r: seq<T>, s: seq<T>)
    decreases |s|
  {
    if |r| == 0 then true
    else if |s| == 0 then false
    else if r[0] == s[0] then IsSubsequence(r[1..], s[1..])
    else IsSubsequence(r, s[1..])
  }

  /** Dropping the first element of a subsequence keeps it a subsequence. */
  lemma {:induction false} SubsequenceDropFirst<T>(r: seq<T>, s: seq<T>)
    requires |r| > 0
    requires IsSubsequence(r, s)
    ensures IsSubsequence(r[1..], s)
    decreases |s|
  {
    if |r| > 1 {
      // In both cases the tail of `r` is a subsequence of the tail of `s`.
      if r[0] != s[0] {
        SubsequenceDropFirst(r, s[1..]);
      }
      assert IsSubsequence(r[1..], s[1..]);
      if r[1] == s[0] {
        SubsequenceDropFirst(r[1..], s[1..]);
        assert r[1..][1..] == r[2..];
      }
    }
  }

  /** A subsequence of the tail is a subsequence of the whole. */
  lemma SubsequenceOfTail<T>(r: seq<T>, s: seq<T>)
    requires |s| > 0
    requires IsSubsequence(r, s[1..])
    ensures IsSubsequence(r, s)
  {
    if |r| > 0 && r[0] == s[0] {
      SubsequenceDropFirst(r, s[1..]);
    }
  }

  /** A subsequence only holds elements of the original. */
  lemma {:induction false} SubsequenceElements<T>(r: seq<T>, s: seq<T>)
    requires IsSubsequence(r, s)
    ensures forall x :: x in r ==> x in s
    decreases |s|
  {
    if |r| == 0 {
    } else if r[0] == s[0] {
      SubsequenceElements(r[1..], s[1..]);
      forall x | x in r ensures x in s {
        if x != r[0] {
          assert x in r[1..];
        }
      }
    } else {
      SubsequenceElements(r, s[1..]);
    }
  }

  /** A slice of `b` is the same slice of `a + b`, shifted by `|a|`. */
  lemma SliceAfterPrefix<T>(a: seq<T>, b: seq<T>, lo: nat, hi: nat)
    requires lo <= hi <= |b|
    ensures (a + b)[|a| + lo..|a| + hi] == b[lo..hi]
  {
  }
}

=== FILE: error_codes.dfy ===
/** The service's error numbers: the table of default messages and the
    accessors that fill in a default code and message. */
module ErrorCodes {
  import opened Common
  import Admission

  /** The default message for each known code. */
  const Messages: map<int, string> := map[
    1000 := "Server internal error.",
    1001 := "Database error.",
    30001 := "Invalid request format.",
    30002 := "Request validate failed.",
    30003 := "Job not found.",
    30004 := "Duplicate request",
    30100 := "Create job failed.",
    30101 := "No Member Interest",
    30102 := "targetFormat is not support",
    30200 := "Request header error.",
    30201 := "Too many tasks, try again later. ",
    30202 := "add Servers is  error. ",
    30203 := "config is  error. "
  ]

  /** The code a zero code stands for. */
  const DatabaseError: int := 1001

  /** An error number; the wrapped Go error is not modelled. */
  datatype ErrorNo = ErrorNo(code: int, message: string)

  /** A Go map read: the zero value when the key is absent. */
  function Lookup(code: int): (msg: string)
    ensures code in Messages ==> msg == Messages[code]
    ensures code !in Messages ==> msg == ""
  {
    if code in Messages then Messages[code] else ""
  }

  /** `ErrCode`: zero means a database error; other codes are reported as
      they are. */
  function ErrCode(e: ErrorNo): (code: int)
    ensures code != 0
    ensures e.code != 0 ==> code == e.code
    ensures e.code == 0 ==> code == DatabaseError && code in Messages
  {
    if e.code == 0 then DatabaseError else e.code
  }

  /** `ErrMsg`: an explicit message wins; otherwise the table's message
      for the stored code, or the empty string. */
  function ErrMsg(e: ErrorNo): (msg: string)
    ensures e.message != "" ==> msg == e.message
    ensures e.message == "" && e.code in Messages ==> msg == Messages[e.code] && msg != ""
    ensures e.message == "" && e.code !in Messages ==> msg == ""
  {
    if e.message == "" then Lookup(e.code) else e.message
  }

  /** The code and message a service error is built from by `Error`: the
      stored code (not the zero default) and the message after defaulting. */
  datatype ServiceError = ServiceError(code: int, message: string)

  /** `Error`: the first call fills in the message and builds the service
      error; `cached` is the error built by an earlier call. */
  function Error(e: ErrorNo, cached: Option<ServiceError>): (r: (ErrorNo, ServiceError))
    ensures cached.Some? ==> r == (e, cached.value)
    ensures cached.None? ==> r.0.code == e.code && r.1 == ServiceError(e.code, ErrMsg(e))
    ensures cached.None? ==> ErrMsg(r.0) == ErrMsg(e)
  {
    match cached
    case Some(err) => (e, err)
    case None =>
      var filled := if e.message == "" then e.(message := Lookup(e.code)) else e;
      (filled, ServiceError(filled.code, filled.message))
  }

  /** Every code in the table has a non-empty message, so an unknown code
      is the only way `ErrMsg` can answer the empty string. */
  lemma TableComplete()
    ensures forall c :: c in Messages ==> Messages[c] != ""
    ensures forall e: ErrorNo :: ErrMsg(e) == "" <==> e.message == "" && e.code !in Messages
  {
  }

  /** A zero code reports as a database error, but its message is not the
      database error's: the table has no entry for zero. */
  lemma ZeroCodeMessage()
    ensures ErrCode(ErrorNo(0, "")) == DatabaseError
    ensures ErrMsg(ErrorNo(0, "")) == ""
    ensures ErrMsg(ErrorNo(DatabaseError, "")) == "Database error."
  {
  }

  /** The code the admission handler rejects with has a table message. */
  lemma RejectionCodeHasMessage()
    ensures ErrMsg(ErrorNo(Admission.TooManyTasks, "")) == "Too many tasks, try again later. "
  {
  }
}

=== FILE: job_constants.dfy ===
/** The job status taxonomy: twelve numeric codes, the terminal ("end")
    statuses and the failed ones among them. */
module JobConstants {

  datatype Status =
    | Pending | Start | Download | DownloadFailed | Processing | Canceling
    | Canceled | Processed | ProcessFailed | Uploading | UploadingFailed
    | Timeout   // scheduler-local, never written to the database

  /** The numeric code stored for each status. */
  function Code(s: Status): (c: int)
    ensures 0 <= c <= 11
  {
    match s
    case Pending => 0
    case Start => 1
    case Download => 2
    case DownloadFailed => 3
    case Processing => 4
    case Canceling => 5
    case Canceled => 6
    case Processed => 7
    case ProcessFailed => 8
    case Uploading => 9
    case UploadingFailed => 10
    case Timeout => 11
  }

  /** The status a stored code stands for, if any. */
  function FromCode(c: int): (s: Status)
    requires 0 <= c <= 11
    ensures Code(s) == c
  {
    if c == 0 then Pending
    else if c == 1 then Start
    else if c == 2 then Download
    else if c == 3 then DownloadFailed
    else if c == 4 then Processing
    else if c == 5 then Canceling
    else if c == 6 then Canceled
    else if c == 7 then Processed
    else if c == 8 then ProcessFailed
    else if c == 9 then Uploading
    else if c == 10 then UploadingFailed
    else Timeout
  }

  /** The codes are pairwise distinct: decoding a status's code gives the
      status back, so no two statuses share a code. */
  lemma CodesDistinct(s: Status, t: Status)
    ensures FromCode(Code(s)) == s
    ensures s != t ==> Code(s) != Code(t)
  {
  }

  /** `EndStatusMap`, as a set of codes. */
  const EndStatusCodes: set<int> := {
    Code(Processed), Code(ProcessFailed), Code(UploadingFailed),
    Code(Timeout), Code(Canceled), Code(DownloadFailed)
  }

  /** `FailedStatusMap`, as a set of codes. */
  const FailedStatusCodes: set<int> := {
    Code(DownloadFailed), Code(ProcessFailed), Code(UploadingFailed)
  }

  /** A status is terminal when its code is in the end-status table. */
  predicate IsTerminal(s: Status) {
    Code(s) in EndStatusCodes
  }

  /** A status is failed when its code is in the failed-status table. */
  predicate IsFailed(s: Status) {
    Code(s) in FailedStatusCodes
  }

  /** The terminal statuses are exactly the six outcomes. */
  lemma TerminalStatuses(s: Status)
    ensures IsTerminal(s) <==>
      s in {Processed, ProcessFailed, UploadingFailed, Timeout, Canceled, DownloadFailed}
  {
  }

  /** The failed statuses are exactly the three failures, and each is terminal. */
  lemma FailedIsTerminal(s: Status)
    ensures IsFailed(s) <==> s in {DownloadFailed, ProcessFailed, UploadingFailed}
    ensures IsFailed(s) ==> IsTerminal(s)
  {
  }

  /** The six in-flight statuses are not terminal; cancellation and timeout
      are terminal without being failures. */
  lemma InFlightAndQuietEnds()
    ensures forall s :: s in {Pending, Start, Download, Processing, Canceling, Uploading} ==> !IsTerminal(s)
    ensures IsTerminal(Canceled) && !IsFailed(Canceled)
    ensures IsTerminal(Timeout) && !IsFailed(Timeout)
  {
  }

  /** Six of the twelve codes are terminal and three are failures. */
  lemma TableSizes()
    ensures |EndStatusCodes| == 6
    ensures |FailedStatusCodes| == 3
    ensures FailedStatusCodes <= EndStatusCodes
  {
  }
}

=== FILE: job_controller.dfy ===
/** The job-set and job-type controllers: creating a job set under an
    existing job type, and the multi-filter queries that run one paginated
    service query per non-empty filter and concatenate the answers.  Both
    the shipped queries and corrected ones are modelled: the shipped ones
    slice each service answer a second time and drop the de-duplicated
    list they compute. */
module JobController {
  import opened Common
  import opened Service

  datatype JobSet = JobSet(jobSetId: string, jobTypeId: string, name: string, total: int, fixedParameters: string)

  datatype JobType = JobType(
    jobTypeId: string, systemSpecification: int, imageUrl: string,
    fixedParameters: Option<seq<string>>, reScript: string, scScript: string, jeScript: string)

  function JobSetKey(s: JobSet): string { s.jobSetId }
  function JobTypeKey(t: JobType): string { t.jobTypeId }

  // ---------------------------------------------------------------------
  // AddJobSet
  // ---------------------------------------------------------------------

  datatype AddJobSetRequest = AddJobSetRequest(jobTypeId: string, name: string, total: int, fixedParameters: string)

  /** The reply code, the new id on success, and the record inserted. */
  datatype AddJobSetReply = AddJobSetReply(code: int, jobSetId: string, inserted: Option<JobSet>)

  /** `AddJobSet`: refuse with 402 when the referenced job type is reported
      absent or the insert fails; otherwise insert under the generated id
      `newId` and answer 200. */
  function AddJobSet(req: AddJobSetRequest, newId: string, types: Collection<JobType>, insertFails: bool)
    : (rpn: AddJobSetReply)
    ensures rpn.code == 200 || rpn.code == 402
    ensures rpn.code == 402 <==> ValidateById(types, JobTypeKey, req.jobTypeId) || insertFails
    ensures rpn.code == 200 ==>
      rpn.jobSetId == newId
      && rpn.inserted == Some(JobSet(newId, req.jobTypeId, req.name, req.total, req.fixedParameters))
    ensures rpn.code == 402 ==> rpn.inserted.None? && rpn.jobSetId == ""
  {
    var newJobSet := JobSet(newId, req.jobTypeId, req.name, req.total, req.fixedParameters);
    if ValidateById(types, JobTypeKey, newJobSet.jobTypeId) then AddJobSetReply(402, "", None)
    else if insertFails then AddJobSetReply(402, "", None)
    else AddJobSetReply(200, newId, Some(newJobSet))
  }

  /** A job set is only created under a job type that is stored, or when
      the job-type lookup itself failed: a failing lookup does not block. */
  lemma AddJobSetNeedsJobType(req: AddJobSetRequest, newId: string, docs: seq<Doc<JobType>>)
    ensures AddJobSet(req, newId, Docs(docs), false).code == 200
        <==> exists j :: 0 <= j < |docs| && docs[j].value.jobTypeId == req.jobTypeId
    ensures AddJobSet(req, newId, Unreachable, false).code == 200
  {
  }

  // ---------------------------------------------------------------------
  // Filters and the shared query loop
  // ---------------------------------------------------------------------

  datatype FilterValue = Text(s: string) | Number(n: int) | Params(items: seq<string>)

  /** One equality filter handed to the service. */
  datatype DbFilter = FieldIs(field: string, value: FilterValue)

  datatype JobSetFilter = JobSetFilter(
    jobSetIdFilter: string, jobTypeIdFilter: string, nameFilter: string,
    totalFilter: string, fixedParametersFilter: string)

  /** The filters `QueryJobSet` issues, in loop order: each non-empty text
      filter, and the total filter unconditionally. */
  function JobSetFilters(f: JobSetFilter): (fs: seq<DbFilter>)
    ensures FieldIs("Total", Text(f.totalFilter)) in fs
    ensures |fs| == 1 + (if f.jobSetIdFilter != "" then 1 else 0) + (if f.jobTypeIdFilter != "" then 1 else 0)
                      + (if f.nameFilter != "" then 1 else 0) + (if f.fixedParametersFilter != "" then 1 else 0)
  {
    (if f.jobSetIdFilter != "" then [FieldIs("JobSetId", Text(f.jobSetIdFilter))] else [])
    + (if f.jobTypeIdFilter != "" then [FieldIs("JobTypeId", Text(f.jobTypeIdFilter))] else [])
    + (if f.nameFilter != "" then [FieldIs("Name", Text(f.nameFilter))] else [])
    + [FieldIs("Total", Text(f.totalFilter))]
    + (if f.fixedParametersFilter != "" then [FieldIs("FixedParameters", Text(f.fixedParametersFilter))] else [])
  }

  datatype JobTypeFilter = JobTypeFilter(
    jobTypeIdFilter: string, systemSpecificationFilter: int, imageUrlFilter: string,
    fixedParametersFilter: Option<seq<string>>, reScriptFilter: string,
    scScriptFilter: string, jeScriptFilter: string)

  /** The filters `QueryJobType` issues, in loop order: each non-empty text
      filter, a non-zero specification, and non-nil fixed parameters. */
  function JobTypeFilters(f: JobTypeFilter): (fs: seq<DbFilter>)
    ensures |fs| <= 7
    ensures |fs| == 0 <==>
      (f.jobTypeIdFilter == "" && f.systemSpecificationFilter == 0 && f.imageUrlFilter == ""
       && f.fixedParametersFilter.None? && f.reScriptFilter == ""
       && f.scScriptFilter == "" && f.jeScriptFilter == "")
  {
    (if f.jobTypeIdFilter != "" then [FieldIs("JobTypeId", Text(f.jobTypeIdFilter))] else [])
    + (if f.systemSpecificationFilter != 0 then [FieldIs("SystemSpecification", Number(f.systemSpecificationFilter))] else [])
    + (if f.imageUrlFilter != "" then [FieldIs("ImageUrl", Text(f.imageUrlFilter))] else [])
    + (if f.fixedParametersFilter.Some? then [FieldIs("FixedParameters", Params(f.fixedParametersFilter.value))] else [])
    + (if f.reScriptFilter != "" then [FieldIs("ReScript", Text(f.reScriptFilter))] else [])
    + (if f.scScriptFilter != "" then [FieldIs("ScScript", Text(f.scScriptFilter))] else [])
    + (if f.jeScriptFilter != "" then [FieldIs("JeScript", Text(f.jeScriptFilter))] else [])
  }

  /** Pagination parameters as carried by a request (`int32` each). */
  datatype Paging = Paging(skip: int, page: int, limit: int)

  predicate ValidPaging(p: Paging) {
    IsInt32(p.skip) && IsInt32(p.page) && IsInt32(p.limit)
  }

  /** The service's answer to one filter's query. */
  function Answer<T>(f: DbFilter, find: DbFilter -> Option<seq<Doc<T>>>, p: Paging): Outcome<T>
    requires ValidPaging(p)
  {
    HandleQueries(find(f), p.skip, p.page, p.limit)
  }

  /** Run the service query for each filter in order and concatenate the
      answers; the first failing query aborts with its error. */
  function Collect<T(!new)>(fs: seq<DbFilter>, find: DbFilter -> Option<seq<Doc<T>>>, p: Paging): (o: Outcome<T>)
    requires ValidPaging(p)
    ensures o.Rows? <==> forall i :: 0 <= i < |fs| ==> Answer(fs[i], find, p).Rows?
    ensures o.Failed? ==> exists i :: 0 <= i < |fs| && Answer(fs[i], find, p) == o
                                      && forall j :: 0 <= j < i ==> Answer(fs[j], find, p).Rows?
    ensures o.Rows? ==> forall x :: x in o.items <==> exists i :: 0 <= i < |fs| && x in Answer(fs[i], find, p).items
  {
    if |fs| == 0 then Rows([])
    else
      match Answer(fs[0], find, p)
      case Failed(e) => Failed(e)
      case Rows(first) =>
        var tail := Collect(fs[1..], find, p);
        assert forall j :: 0 <= j < |fs[1..]| ==> fs[1..][j] == fs[j + 1];
        match tail
        case Failed(e) =>
          var k :| 0 <= k < |fs[1..]| && Answer(fs[1..][k], find, p).Failed? && Answer(fs[1..][k], find, p).err == e
                   && forall j :: 0 <= j < k ==> Answer(fs[1..][j], find, p).Rows?;
          assert forall j :: 0 <= j < k + 1 ==> Answer(fs[j], find, p).Rows?;
          Failed(e)
        case Rows(rest) =>
          assert forall x :: x in first + rest <==> x in first || x in rest;
          Rows(first + rest)
  }

  /** How many records the first `i` filters' answers hold together. */
  function Offset<T>(fs: seq<DbFilter>, find: DbFilter -> Option<seq<Doc<T>>>, p: Paging, i: nat): nat
    requires ValidPaging(p) && i <= |fs|
  {
    if i == 0 then 0
    else Offset(fs, find, p, i - 1) + (if Answer(fs[i - 1], find, p).Rows? then |Answer(fs[i - 1], find, p).items| else 0)
  }

  /** Offsets counted from the second filter are shifted by the first
      filter's count. */
  lemma {:induction false} OffsetShift<T>(fs: seq<DbFilter>, find: DbFilter -> Option<seq<Doc<T>>>, p: Paging, i: nat)
    requires ValidPaging(p) && 0 < |fs| && i < |fs|
    requires Answer(fs[0], find, p).Rows?
    ensures Offset(fs, find, p, i + 1) == |Answer(fs[0], find, p).items| + Offset(fs[1..], find, p, i)
  {
    if i > 0 {
      OffsetShift(fs, find, p, i - 1);
      assert fs[1..][i - 1] == fs[i];
    }
  }

  lemma {:induction false} OffsetMonotone<T>(fs: seq<DbFilter>, find: DbFilter -> Option<seq<Doc<T>>>, p: Paging, i: nat, j: nat)
    requires ValidPaging(p) && i <= j <= |fs|
    ensures Offset(fs, find, p, i) <= Offset(fs, find, p, j)
    decreases j - i
  {
    if i < j {
      OffsetMonotone(fs, find, p, i, j - 1);
    }
  }

  /** The `i`-th filter's answer sits in `items` between the `i`-th and the
      `i+1`-th offset. */
  ghost predicate Placed<T>(items: seq<T>, fs: seq<DbFilter>, find: DbFilter -> Option<seq<Doc<T>>>, p: Paging, i: nat)
    requires ValidPaging(p) && i < |fs|
  {
    var lo := Offset(fs, find, p, i);
    var hi := Offset(fs, find, p, i + 1);
    Answer(fs[i], find, p).Rows? && lo <= hi <= |items| && items[lo..hi] == Answer(fs[i], find, p).items
  }

  /** The concatenated rows are the filters' answers in filter order: the
      `i`-th answer occupies the slice between the `i`-th and `i+1`-th
      offsets, and the last offset is the total. */
  lemma {:induction false} CollectInOrder<T(!new)>(fs: seq<DbFilter>, find: DbFilter -> Option<seq<Doc<T>>>, p: Paging)
    requires ValidPaging(p)
    requires Collect(fs, find, p).Rows?
    ensures |Collect(fs, find, p).items| == Offset(fs, find, p, |fs|)
    ensures forall i :: 0 <= i < |fs| ==> Placed(Collect(fs, find, p).items, fs, find, p, i)
  {
    var items := Collect(fs, find, p).items;
    if |fs| > 0 {
      var first := Answer(fs[0], find, p).items;
      var rest := Collect(fs[1..], find, p).items;
      assert items == first + rest;
      CollectInOrder(fs[1..], find, p);
      OffsetShift(fs, find, p, |fs| - 1);
      forall i | 0 <= i < |fs|
        ensures Placed(items, fs, find, p, i)
      {
        PlacedStep(fs, find, p, first, rest, i);
      }
    }
  }

  /** One slot of `CollectInOrder`'s inductive step. */
  lemma PlacedStep<T(!new)>(fs: seq<DbFilter>, find: DbFilter -> Option<seq<Doc<T>>>, p: Paging,
                             first: seq<T>, rest: seq<T>, i: nat)
    requires ValidPaging(p) && i < |fs|
    requires Answer(fs[0], find, p) == Rows(first)
    requires forall k :: 0 <= k < |fs| - 1 ==> Placed(rest, fs[1..], find, p, k)
    ensures Placed(first + rest, fs, find, p, i)
  {
    if i == 0 {
      PlacedFirst(fs, find, p, first, rest);
    } else {
      assert Placed(rest, fs[1..], find, p, i - 1);
      PlacedLater(fs, find, p, first, rest, i);
    }
  }

  lemma PlacedFirst<T(!new)>(fs: seq<DbFilter>, find: DbFilter -> Option<seq<Doc<T>>>, p: Paging,
                              first: seq<T>, rest: seq<T>)
    requires ValidPaging(p) && 0 < |fs|
    requires Answer(fs[0], find, p) == Rows(first)
    ensures Placed(first + rest, fs, find, p, 0)
  {
    OffsetShift(fs, find, p, 0);
    assert (first + rest)[0..|first|] == first;
  }

  lemma PlacedLater<T(!new)>(fs: seq<DbFilter>, find: DbFilter -> Option<seq<Doc<T>>>, p: Paging,
                              first: seq<T>, rest: seq<T>, i: nat)
    requires ValidPaging(p) && 0 < i < |fs|
    requires Answer(fs[0], find, p) == Rows(first)
    requires Placed(rest, fs[1..], find, p, i - 1)
    ensures Placed(first + rest, fs, find, p, i)
  {
    OffsetShift(fs, find, p, i - 1);
    OffsetShift(fs, find, p, i);
    assert fs[1..][i - 1] == fs[i];
    var lo := Offset(fs[1..], find, p, i - 1);
    var hi := Offset(fs[1..], find, p, i);
    assert Answer(fs[i], find, p).Rows? && lo <= hi <= |rest| && rest[lo..hi] == Answer(fs[i], find, p).items;
    assert Offset(fs, find, p, i) == |first| + lo;
    assert Offset(fs, find, p, i + 1) == |first| + hi;
    SliceAfterPrefix(first, rest, lo, hi);
  }

  /** A single filter's answer comes back as the service returned it. */
  lemma CollectOne<T(!new)>(f: DbFilter, find: DbFilter -> Option<seq<Doc<T>>>, p: Paging)
    requires ValidPaging(p)
    ensures Collect([f], find, p) == HandleQueries(find(f), p.skip, p.page, p.limit)
  {
    assert [f][1..] == [];
    match HandleQueries(find(f), p.skip, p.page, p.limit)
    case Failed(e) =>
    case Rows(items) =>
      assert Collect([f][1..], find, p) == Rows([]);
      assert items + [] == items;
  }

  // ---------------------------------------------------------------------
  // QueryJobSet
  // ---------------------------------------------------------------------

  /** The reply of a query controller: a panic, the aborting error, or the
      records with status 200. */
  datatype Reply<T> = Panicked | QueryError(err: QueryError) | Ok(items: seq<T>)

  function AsReply<T>(o: Outcome<T>): Reply<T> {
    match o
    case Failed(e) => QueryError(e)
    case Rows(items) => Ok(items)
  }

  /** `QueryJobSet` as shipped: the de-duplicated list is computed and
      thrown away, so a job set matched by two filters is listed twice. */
  function QueryJobSetAsWritten(f: JobSetFilter, find: DbFilter -> Option<seq<Doc<JobSet>>>, p: Paging)
    : (r: Reply<JobSet>)
    requires ValidPaging(p)
    ensures r.Ok? <==> Collect(JobSetFilters(f), find, p).Rows?
    ensures r.Ok? ==> r.items == Collect(JobSetFilters(f), find, p).items
    ensures !r.Panicked?
  {
    AsReply(Collect(JobSetFilters(f), find, p))
  }

  /** `QueryJobSet` with the de-duplicated list returned. */
  function QueryJobSet(f: JobSetFilter, find: DbFilter -> Option<seq<Doc<JobSet>>>, p: Paging)
    : (r: Reply<JobSet>)
    requires ValidPaging(p)
    ensures r.Ok? <==> Collect(JobSetFilters(f), find, p).Rows?
    ensures r.Ok? ==> forall i, j :: 0 <= i < j < |r.items| ==> r.items[i].jobSetId != r.items[j].jobSetId
    ensures r.Ok? ==> Ids(r.items, JobSetKey) == Ids(Collect(JobSetFilters(f), find, p).items, JobSetKey)
    ensures r.Ok? ==> IsSubsequence(r.items, Collect(JobSetFilters(f), find, p).items)
    ensures r.Ok? ==> forall k :: 0 <= k < |r.items| ==> KeptAsFirst(r.items, Collect(JobSetFilters(f), find, p).items, JobSetKey, {}, k)
    ensures r.QueryError? ==> Collect(JobSetFilters(f), find, p) == Failed(r.err)
    ensures !r.Panicked?
  {
    match Collect(JobSetFilters(f), find, p)
    case Failed(e) => QueryError(e)
    case Rows(items) =>
      DedupCovers(items, JobSetKey, {});
      DedupSubsequence(items, JobSetKey, {});
      DedupFirstOccurrence(items, JobSetKey, {});
      Ok(Dedup(items, JobSetKey))
  }

  /** The total filter is always queried, even when the request left it
      empty; with every filter empty the total query is the only one. */
  lemma TotalAlwaysQueried(f: JobSetFilter)
    requires f.jobSetIdFilter == "" && f.jobTypeIdFilter == "" && f.nameFilter == "" && f.fixedParametersFilter == ""
    ensures JobSetFilters(f) == [FieldIs("Total", Text(f.totalFilter))]
  {
  }

  /** A job set matched by both its id and its name filter is listed twice
      as shipped, and once after the correction. */
  lemma DuplicateJobSetListed(s: JobSet, find: DbFilter -> Option<seq<Doc<JobSet>>>)
    requires s.jobSetId != "" && s.name != ""
    requires find(FieldIs("JobSetId", Text(s.jobSetId))) == Some([Doc(s, true)])
    requires find(FieldIs("Name", Text(s.name))) == Some([Doc(s, true)])
    requires find(FieldIs("Total", Text(""))) == Some([])
    ensures var f := JobSetFilter(s.jobSetId, "", s.name, "", "");
      && QueryJobSetAsWritten(f, find, Paging(0, 1, 10)) == Ok([s, s])
      && QueryJobSet(f, find, Paging(0, 1, 10)) == Ok([s])
  {
    var f := JobSetFilter(s.jobSetId, "", s.name, "", "");
    var p := Paging(0, 1, 10);
    DuplicateCollected(s, find);
    assert Collect(JobSetFilters(f), find, p) == Rows([s, s]);
    DedupKeepsFirst(s, s, JobSetKey);
  }

  /** The three queries of the duplicate example, concatenated. */
  lemma DuplicateCollected(s: JobSet, find: DbFilter -> Option<seq<Doc<JobSet>>>)
    requires s.jobSetId != "" && s.name != ""
    requires find(FieldIs("JobSetId", Text(s.jobSetId))) == Some([Doc(s, true)])
    requires find(FieldIs("Name", Text(s.name))) == Some([Doc(s, true)])
    requires find(FieldIs("Total", Text(""))) == Some([])
    ensures Collect(JobSetFilters(JobSetFilter(s.jobSetId, "", s.name, "", "")), find, Paging(0, 1, 10)) == Rows([s, s])
  {
    var f := JobSetFilter(s.jobSetId, "", s.name, "", "");
    var p := Paging(0, 1, 10);
    var byId := FieldIs("JobSetId", Text(s.jobSetId));
    var byName := FieldIs("Name", Text(s.name));
    var byTotal := FieldIs("Total", Text(""));
    var one := [Doc(s, true)];
    var noDocs: seq<Doc<JobSet>> := [];
    assert Answer(byId, find, p) == Rows([s]) && Answer(byName, find, p) == Rows([s]) by {
      QueryIsSlice(one, 0, 1, 10);
    }
    assert Collect([byTotal], find, p) == Rows([]) by {
      QueryIsSlice(noDocs, 0, 1, 10);
      CollectOne(byTotal, find, p);
    }
    assert Collect([byName, byTotal], find, p) == Rows([s]) by {
      assert [byName, byTotal][1..] == [byTotal];
      CollectCons([byName, byTotal], find, p, [s], []);
      assert [s] + [] == [s];
    }
    assert Collect([byId, byName, byTotal], find, p) == Rows([s, s]) by {
      assert [byId, byName, byTotal][1..] == [byName, byTotal];
      CollectCons([byId, byName, byTotal], find, p, [s], [s]);
    }
    assert JobSetFilters(f) == [byId, byName, byTotal];
  }

  /** Collecting a non-empty filter list: the first answer, then the rest. */
  lemma CollectCons<T(!new)>(fs: seq<DbFilter>, find: DbFilter -> Option<seq<Doc<T>>>, p: Paging, first: seq<T>, rest: seq<T>)
    requires ValidPaging(p) && |fs| > 0
    requires Answer(fs[0], find, p) == Rows(first)
    requires Collect(fs[1..], find, p) == Rows(rest)
    ensures Collect(fs, find, p) == Rows(first + rest)
  {
  }

  // ---------------------------------------------------------------------
  // QueryJobType
  // ---------------------------------------------------------------------

  /** The controller's second window over a service answer of `n` records:
      `(page-1)` is computed in `int32`, the rest in `int`; the start is
      raised to zero and the end lowered to `n`. */
  function ControllerWindow(n: nat, p: Paging): (w: (int, int))
    requires ValidPaging(p)
    ensures w.0 >= 0 && w.1 <= n
  {
    var start := Wrap32(p.page - 1) * p.limit + p.skip;
    var end := start + p.limit;
    (if start < 0 then 0 else start, if end > n then n else end)
  }

  /** Slicing `result[start:end]` is safe exactly when the window is not
      inverted. */
  predicate WindowSafe(n: nat, p: Paging)
    requires ValidPaging(p)
  {
    ControllerWindow(n, p).0 <= ControllerWindow(n, p).1
  }

  /** The slice is safe exactly when the limit is not negative and the
      unclamped start `(page-1)*limit + skip` lies at or before `n` while
      the unclamped end is not negative. */
  lemma WindowSafeIff(n: nat, p: Paging)
    requires ValidPaging(p)
    ensures var s := Wrap32(p.page - 1) * p.limit + p.skip;
      WindowSafe(n, p) <==> p.limit >= 0 && s <= n && s + p.limit >= 0
  {
  }

  /** A filter whose answer came back and can be sliced safely. */
  predicate Clean<T>(f: DbFilter, find: DbFilter -> Option<seq<Doc<T>>>, p: Paging)
    requires ValidPaging(p)
  {
    Answer(f, find, p).Rows? && WindowSafe(|Answer(f, find, p).items|, p)
  }

  /** What the controller keeps of a clean filter's answer. */
  function Windowed<T>(f: DbFilter, find: DbFilter -> Option<seq<Doc<T>>>, p: Paging): seq<T>
    requires ValidPaging(p) && Clean(f, find, p)
  {
    var items := Answer(f, find, p).items;
    items[ControllerWindow(|items|, p).0..ControllerWindow(|items|, p).1]
  }

  /** Every filter before the `i`-th is clean. */
  predicate CleanBefore<T>(fs: seq<DbFilter>, find: DbFilter -> Option<seq<Doc<T>>>, p: Paging, i: int)
    requires ValidPaging(p) && i <= |fs|
  {
    forall j :: 0 <= j < i ==> Clean(fs[j], find, p)
  }

  /** The loop of `QueryJobType` as shipped: each service answer is sliced
      again by the controller window; an inverted window panics.  The first
      filter that is not clean decides the reply: its error when its query
      failed, a panic when its window is inverted. */
  function CollectWindowed(fs: seq<DbFilter>, find: DbFilter -> Option<seq<Doc<JobType>>>, p: Paging)
    : (r: Reply<JobType>)
    requires ValidPaging(p)
    ensures r.Ok? <==> CleanBefore(fs, find, p, |fs|)
    ensures r.Panicked? <==> exists i :: 0 <= i < |fs| && CleanBefore(fs, find, p, i) && Answer(fs[i], find, p).Rows?
                                         && !WindowSafe(|Answer(fs[i], find, p).items|, p)
    ensures r.QueryError? ==> exists i :: 0 <= i < |fs| && CleanBefore(fs, find, p, i)
                                         && Answer(fs[i], find, p) == Failed(r.err)
    ensures r.Ok? ==> forall x :: x in r.items <==> exists i :: 0 <= i < |fs| && x in Windowed(fs[i], find, p)
  {
    if |fs| == 0 then Ok([])
    else
      assert CleanBefore(fs, find, p, 0);
      assert forall i :: 1 <= i < |fs| ==> fs[i] == fs[1..][i - 1];
      match Answer(fs[0], find, p)
      case Failed(e) => QueryError(e)
      case Rows(result) =>
        if !WindowSafe(|result|, p) then Panicked
        else
          var (start, end) := ControllerWindow(|result|, p);
          var tail := CollectWindowed(fs[1..], find, p);
          CleanBeforeShift(fs, find, p);
          match tail
          case Ok(rest) =>
            assert forall x :: x in result[start..end] + rest <==> x in result[start..end] || x in rest;
            Ok(result[start..end] + rest)
          case QueryError(e) =>
            var k :| 0 <= k < |fs[1..]| && CleanBefore(fs[1..], find, p, k)
                     && Answer(fs[1..][k], find, p).Failed? && Answer(fs[1..][k], find, p).err == e;
            assert CleanBefore(fs, find, p, k + 1);
            QueryError(e)
          case Panicked =>
            var k :| 0 <= k < |fs[1..]| && CleanBefore(fs[1..], find, p, k) && Answer(fs[1..][k], find, p).Rows?
                     && !WindowSafe(|Answer(fs[1..][k], find, p).items|, p);
            assert CleanBefore(fs, find, p, k + 1);
            Panicked
  }

  /** Dropping a clean first filter shifts every "clean before" index by
      one. */
  lemma CleanBeforeShift<T>(fs: seq<DbFilter>, find: DbFilter -> Option<seq<Doc<T>>>, p: Paging)
    requires ValidPaging(p) && |fs| > 0 && Clean(fs[0], find, p)
    ensures forall k :: 0 <= k <= |fs| - 1 ==> (CleanBefore(fs, find, p, k + 1) <==> CleanBefore(fs[1..], find, p, k))
  {
    forall k | 0 <= k <= |fs| - 1
      ensures CleanBefore(fs, find, p, k + 1) <==> CleanBefore(fs[1..], find, p, k)
    {
      assert forall j :: 0 <= j < k ==> fs[1..][j] == fs[j + 1];
    }
  }

  /** `QueryJobType` as shipped: windowed twice, de-duplication discarded.
      The reply lists every clean filter's twice-windowed answer, or the
      first unclean filter's error, or panics on its inverted window. */
  function QueryJobTypeAsWritten(f: JobTypeFilter, find: DbFilter -> Option<seq<Doc<JobType>>>, p: Paging)
    : (r: Reply<JobType>)
    requires ValidPaging(p)
    ensures var fs := JobTypeFilters(f);
      && (r.Ok? <==> CleanBefore(fs, find, p, |fs|))
      && (r.Panicked? <==> exists i :: 0 <= i < |fs| && CleanBefore(fs, find, p, i) && Answer(fs[i], find, p).Rows?
                                        && !WindowSafe(|Answer(fs[i], find, p).items|, p))
      && (r.QueryError? ==> exists i :: 0 <= i < |fs| && CleanBefore(fs, find, p, i)
                                        && Answer(fs[i], find, p) == Failed(r.err))
      && (r.Ok? ==> forall x :: x in r.items <==> exists i :: 0 <= i < |fs| && x in Windowed(fs[i], find, p))
  {
    CollectWindowed(JobTypeFilters(f), find, p)
  }

  /** On page 1 the controller applies the skip a second time: with every
      document decodable, a filter's answer is the service window
      `[skip, m)` with `m = min(skip+limit, n)`, and the controller keeps
      `[2*skip, m)` of the documents, or panics when `2*skip > m`. */
  lemma SkipTwiceOnFirstPage<T>(f: DbFilter, find: DbFilter -> Option<seq<Doc<T>>>, p: Paging, docs: seq<Doc<T>>)
    requires ValidPaging(p) && p.page == 1 && 0 <= p.skip <= |docs| && 0 <= p.limit
    requires find(f) == Some(docs)
    requires forall k :: 0 <= k < |docs| ==> docs[k].decodable
    ensures var m := MinInt(p.skip + p.limit, |docs|);
      && Answer(f, find, p).Rows?
      && (Clean(f, find, p) <==> 2 * p.skip <= m)
      && (Clean(f, find, p) ==> Windowed(f, find, p) == Values(docs, 2 * p.skip, m))
  {
    QueryIsSlice(docs, p.skip, p.page, p.limit);
    var m := MinInt(p.skip + p.limit, |docs|);
    var items := Answer(f, find, p).items;
    assert Wrap32(p.page - 1) == 0;
    if 2 * p.skip <= m {
      assert ControllerWindow(|items|, p) == (p.skip, m - p.skip);
      assert items[p.skip..m - p.skip] == Values(docs, 2 * p.skip, m);
    }
  }

  /** Beyond page 1 the shipped query never lists anything without a skip:
      the service ignores the page and returns at most `limit` records, and
      the controller's window starts at `(page-1)*limit`, so it is empty or
      inverted. */
  lemma LaterPagesListNothing<T>(f: DbFilter, find: DbFilter -> Option<seq<Doc<T>>>, p: Paging, docs: seq<Doc<T>>)
    requires ValidPaging(p) && p.page >= 2 && p.skip == 0 && p.limit >= 1
    requires find(f) == Some(docs)
    requires forall k :: 0 <= k < |docs| ==> docs[k].decodable
    ensures Answer(f, find, p).Rows?
    ensures Clean(f, find, p) <==> (p.page - 1) * p.limit <= MinInt(p.limit, |docs|)
    ensures Clean(f, find, p) ==> Windowed(f, find, p) == []
  {
    QueryIsSlice(docs, 0, p.page, p.limit);
    var items := Answer(f, find, p).items;
    assert |items| == MinInt(p.limit, |docs|);
    var start := (p.page - 1) * p.limit;
    assert start >= p.limit by {
      PositiveProduct(p.page - 2, p.limit);
    }
    assert Wrap32(p.page - 1) == p.page - 1;
    assert ControllerWindow(|items|, p) == (start, |items|);
  }

  lemma PositiveProduct(a: int, b: int)
    requires a >= 0 && b >= 0
    ensures a * b >= 0
  {
  }

  /** `QueryJobType` with each service answer used as returned (the service
      already applied skip and limit) and the de-duplicated list returned. */
  function QueryJobType(f: JobTypeFilter, find: DbFilter -> Option<seq<Doc<JobType>>>, p: Paging)
    : (r: Reply<JobType>)
    requires ValidPaging(p)
    ensures !r.Panicked?
    ensures r.Ok? <==> Collect(JobTypeFilters(f), find, p).Rows?
    ensures r.Ok? ==> forall i, j :: 0 <= i < j < |r.items| ==> r.items[i].jobTypeId != r.items[j].jobTypeId
    ensures r.Ok? ==> Ids(r.items, JobTypeKey) == Ids(Collect(JobTypeFilters(f), find, p).items, JobTypeKey)
    ensures r.Ok? ==> IsSubsequence(r.items, Collect(JobTypeFilters(f), find, p).items)
    ensures r.Ok? ==> forall k :: 0 <= k < |r.items| ==> KeptAsFirst(r.items, Collect(JobTypeFilters(f), find, p).items, JobTypeKey, {}, k)
    ensures r.QueryError? ==> Collect(JobTypeFilters(f), find, p) == Failed(r.err)
  {
    match Collect(JobTypeFilters(f), find, p)
    case Failed(e) => QueryError(e)
    case Rows(items) =>
      DedupCovers(items, JobTypeKey, {});
      DedupSubsequence(items, JobTypeKey, {});
      DedupFirstOccurrence(items, JobTypeKey, {});
      Ok(Dedup(items, JobTypeKey))
  }

  /** On the first page with no skip the second window keeps the whole
      service answer, which is never longer than the limit. */
  lemma FirstPageWindowIsWhole(n: nat, p: Paging)
    requires ValidPaging(p) && p.page == 1 && p.skip == 0 && 0 <= n <= p.limit
    ensures ControllerWindow(n, p) == (0, n)
  {
  }

  /** The second page of a short answer panics as shipped: the service
      returns three records for skip 0 and limit 10, and the controller then
      slices them from 10 to 3.  The corrected query lists the three. */
  lemma ShortSecondPagePanics(t1: JobType, t2: JobType, t3: JobType, find: DbFilter -> Option<seq<Doc<JobType>>>)
    requires t1.jobTypeId != "" && t1.jobTypeId != t2.jobTypeId && t1.jobTypeId != t3.jobTypeId && t2.jobTypeId != t3.jobTypeId
    requires find(FieldIs("JobTypeId", Text(t1.jobTypeId))) == Some([Doc(t1, true), Doc(t2, true), Doc(t3, true)])
    ensures var f := JobTypeFilter(t1.jobTypeId, 0, "", None, "", "", "");
      && QueryJobTypeAsWritten(f, find, Paging(0, 2, 10)) == Panicked
      && QueryJobType(f, find, Paging(0, 2, 10)) == Ok([t1, t2, t3])
  {
    var f := JobTypeFilter(t1.jobTypeId, 0, "", None, "", "", "");
    var p := Paging(0, 2, 10);
    var flt := FieldIs("JobTypeId", Text(t1.jobTypeId));
    assert JobTypeFilters(f) == [flt];
    var docs := [Doc(t1, true), Doc(t2, true), Doc(t3, true)];
    assert HandleQueries(Some(docs), 0, 2, 10) == Rows([t1, t2, t3]);
    assert ControllerWindow(3, p) == (10, 3);
    CollectOne(flt, find, p);
    var items := [t1, t2, t3];
    assert Dedup(items, JobTypeKey) == items by {
      DedupOfDistinct(items, JobTypeKey, {});
    }
  }

  /** With a skip, the shipped query skips twice: of twelve matching job
      types, page 1 with skip 5 and limit 10 lists only the last two. */
  lemma SkipAppliedTwice(ts: seq<JobType>, find: DbFilter -> Option<seq<Doc<JobType>>>)
    requires |ts| == 12 && ts[0].jobTypeId != ""
    requires find(FieldIs("JobTypeId", Text(ts[0].jobTypeId))) == Some(seq(12, i requires 0 <= i < 12 => Doc(ts[i], true)))
    ensures var f := JobTypeFilter(ts[0].jobTypeId, 0, "", None, "", "", "");
      QueryJobTypeAsWritten(f, find, Paging(5, 1, 10)) == Ok(ts[10..12])
  {
    var f := JobTypeFilter(ts[0].jobTypeId, 0, "", None, "", "", "");
    var p := Paging(5, 1, 10);
    var flt := FieldIs("JobTypeId", Text(ts[0].jobTypeId));
    assert JobTypeFilters(f) == [flt];
    var docs := seq(12, i requires 0 <= i < 12 => Doc(ts[i], true));
    QueryIsSlice(docs, 5, 1, 10);
    var o := HandleQueries(Some(docs), 5, 1, 10);
    assert o.items == ts[5..12];
    assert ControllerWindow(7, p) == (5, 7);
    assert [flt][1..] == [];
    assert CollectWindowed([flt][1..], find, p) == Ok([]);
    assert ts[5..12][5..7] == ts[10..12];
    assert CollectWindowed([flt], find, p) == Ok(ts[5..12][5..7] + []);
    assert ts[10..12] + [] == ts[10..12];
  }
}

=== FILE: maps.dfy ===
/** The generic map helpers of the utility package: the key list, entry
    filtering and the left-to-right merge of several maps. */
module Maps {
  import opened Common

  /** `GetKeys`: nil for an empty map, otherwise every key once, in the
      unspecified order Go's map iteration picks. */
  method GetKeys<K(==), V>(m: map<K, V>) returns (keys: Option<seq<K>>)
    ensures keys.None? <==> |m| == 0
    ensures keys.Some? ==> |keys.value| == |m|
    ensures keys.Some? ==> forall k :: k in m <==> k in keys.value
    ensures keys.Some? ==> forall i, j :: 0 <= i < j < |keys.value| ==> keys.value[i] != keys.value[j]
  {
    if |m| == 0 {
      return None;
    }
    var acc: seq<K> := [];
    var rest := m.Keys;
    while rest != {}
      invariant rest <= m.Keys
      invariant forall k :: k in m.Keys <==> k in rest || k in acc
      invariant forall k :: k in acc ==> k !in rest
      invariant forall i, j :: 0 <= i < j < |acc| ==> acc[i] != acc[j]
      invariant |acc| + |rest| == |m.Keys|
      decreases |rest|
    {
      var k :| k in rest;
      acc := acc + [k];
      rest := rest - {k};
    }
    return Some(acc);
  }

  /** `Filter`: the entries on which the predicate holds. */
  function Filter<K(!new), V>(m: map<K, V>, f: (K, V) -> bool): (r: map<K, V>)
    ensures forall k :: k in r <==> k in m && f(k, m[k])
    ensures forall k :: k in r ==> r[k] == m[k]
  {
    map k | k in m && f(k, m[k]) :: m[k]
  }

  /** Filtering twice is filtering once by both predicates; a predicate
      that always holds keeps the map as it is. */
  lemma FilterComposes<K(!new), V>(m: map<K, V>, f: (K, V) -> bool, g: (K, V) -> bool)
    ensures Filter(Filter(m, f), g) == Filter(m, (k, v) => f(k, v) && g(k, v))
    ensures Filter(m, (k, v) => true) == m
  {
  }

  /** The outcome of `Merge`: a map, or a panic from writing into a nil map. */
  datatype MergeOutcome<K, V> = AssignToNilMap | Merged(m: Option<map<K, V>>)

  /** The index of the last map among `ms` that holds `k`, if any. */
  function LastHolder<K, V>(ms: seq<map<K, V>>, k: K): (i: Option<nat>)
    ensures i.Some? ==> i.value < |ms| && k in ms[i.value]
    ensures i.Some? ==> forall j :: i.value < j < |ms| ==> k !in ms[j]
    ensures i.None? ==> forall j :: 0 <= j < |ms| ==> k !in ms[j]
  {
    if |ms| == 0 then None
    else if k in ms[|ms| - 1] then Some(|ms| - 1)
    else LastHolder(ms[..|ms| - 1], k)
  }

  /** The loop of `Merge` over a non-nil first map: each later map's
      entries are written over the accumulated ones. */
  function MergeInto<K(!new), V>(m: map<K, V>, ms: seq<map<K, V>>): (r: map<K, V>)
    ensures forall k :: k in r <==> k in m || LastHolder(ms, k).Some?
    ensures forall k :: k in r && LastHolder(ms, k).Some? ==> r[k] == ms[LastHolder(ms, k).value][k]
    ensures forall k :: k in r && LastHolder(ms, k).None? ==> r[k] == m[k]
  {
    if |ms| == 0 then m
    else
      var prefix := MergeInto(m, ms[..|ms| - 1]);
      assert forall k :: k !in ms[|ms| - 1] ==> LastHolder(ms, k) == LastHolder(ms[..|ms| - 1], k);
      prefix + ms[|ms| - 1]
  }

  /** `Merge(m1, ms...)`: later maps override earlier ones; keys only `m1`
      holds are kept.  The first map is written into, so a nil first map
      panics as soon as any later map has an entry. */
  function Merge<K(!new), V>(m1: Option<map<K, V>>, ms: seq<map<K, V>>): (o: MergeOutcome<K, V>)
    ensures o.AssignToNilMap? <==> m1.None? && exists i :: 0 <= i < |ms| && |ms[i]| > 0
    ensures m1.Some? ==> o == Merged(Some(MergeInto(m1.value, ms)))
    ensures m1.None? && o.Merged? ==> o.m.None?
  {
    match m1
    case Some(m) => Merged(Some(MergeInto(m, ms)))
    case None => if NonEmptyAt(ms).Some? then AssignToNilMap else Merged(None)
  }

  /** The index of the first non-empty map, if any. */
  function NonEmptyAt<K, V>(ms: seq<map<K, V>>): (i: Option<nat>)
    ensures i.Some? ==> i.value < |ms| && |ms[i.value]| > 0
    ensures i.None? ==> forall j :: 0 <= j < |ms| ==> |ms[j]| == 0
  {
    if |ms| == 0 then None
    else if |ms[0]| > 0 then Some(0)
    else
      match NonEmptyAt(ms[1..])
      case None => None
      case Some(j) => Some(j + 1)
  }

  /** Two maps: the second wins on shared keys and the first keeps the rest. */
  lemma MergeTwo<K(!new), V>(m1: map<K, V>, m2: map<K, V>)
    ensures Merge(Some(m1), [m2]) == Merged(Some(m1 + m2))
  {
    var r := MergeInto(m1, [m2]);
    forall k ensures k in r <==> k in m1 + m2 {
    }
    assert r == m1 + m2;
  }
}

=== FILE: monitor.dfy ===
/** The fleet monitor's control loop: the scale-up and idle-majority
    predicates, idle-worker trimming, retry bookkeeping with exponential
    backoff, and one supervision tick.  Starting a process, shutting one
    down and sleeping are effects; their outcomes arrive as parameters. */
module Monitor {
  import opened Common
  import opened WorkerInfo

  const MaxQueueLengthPerWorker: int := 10
  /** Five minutes, in milliseconds. */
  const IdleTimeThreshold: int := 300_000
  const MaxRetries: nat := 3
  /** One second, in milliseconds. */
  const InitialBackoff: nat := 1_000
  const BackoffFactor: nat := 2

  /** Go's integer division, which truncates toward zero. */
  function GoDiv(a: int, b: int): int
    requires b > 0
  {
    if a >= 0 then a / b else -((-a) / b)
  }

  // ---------------------------------------------------------------------
  // Scaling predicates
  // ---------------------------------------------------------------------

  /** More workers are needed when the workers required for the queue,
      rounded up, outnumber the current fleet; for a real queue this is the
      same as the fleet's capacity falling short of the queue. */
  function NeedMoreWorkers(queueLen: int, count: int): (need: bool)
    ensures queueLen >= 0 ==> (need <==> count * MaxQueueLengthPerWorker < queueLen)
    ensures queueLen == 0 && count >= 0 ==> !need
  {
    var required := GoDiv(queueLen + MaxQueueLengthPerWorker - 1, MaxQueueLengthPerWorker);
    required > count
  }

  /** `(q + 9) / 10` is the ceiling of `q / 10` for every queue length. */
  lemma RequiredIsCeiling(q: nat)
    ensures var k := GoDiv(q + MaxQueueLengthPerWorker - 1, MaxQueueLengthPerWorker);
      k * MaxQueueLengthPerWorker >= q && (k - 1) * MaxQueueLengthPerWorker < q
  {
  }

  /** A worker is idle when its last healthy check is older than the idle
      threshold. */
  predicate IsIdle(w: Worker, now: int) {
    Since(now, w.lastHealthyTime) > IdleTimeThreshold
  }

  function CountIdle(ws: seq<Worker>, now: int): (n: nat)
    ensures n <= |ws|
  {
    if ws == [] then 0
    else (if IsIdle(ws[0], now) then 1 else 0) + CountIdle(ws[1..], now)
  }

  /** The workers that are not idle, in their original order; the idle ones
      are the ones shut down. */
  function RemoveIdleWorkers(ws: seq<Worker>, now: int): (active: seq<Worker>)
    ensures IsSubsequence(active, ws)
    ensures forall w :: w in active ==> !IsIdle(w, now)
    ensures forall w :: w in ws && !IsIdle(w, now) ==> w in active
    ensures |active| + CountIdle(ws, now) == |ws|
  {
    if ws == [] then []
    else
      var rest := RemoveIdleWorkers(ws[1..], now);
      if IsIdle(ws[0], now) then
        SubsequenceOfTail(rest, ws);
        rest
      else
        [ws[0]] + rest
  }

  /** True when more than half of the fleet (integer division) is idle, i.e.
      when trimming would remove more than half of it. */
  function TooManyIdleWorkers(ws: seq<Worker>, now: int): (tooMany: bool)
    ensures tooMany <==> |ws| - |RemoveIdleWorkers(ws, now)| > |ws| / 2
  {
    CountIdle(ws, now) > |ws| / 2
  }

  /** An empty fleet or a fleet with nobody idle never triggers trimming. */
  lemma NoIdleNoTrim(ws: seq<Worker>, now: int)
    requires forall w :: w in ws ==> !IsIdle(w, now)
    ensures !TooManyIdleWorkers(ws, now)
    ensures RemoveIdleWorkers(ws, now) == ws
  {
    var r := RemoveIdleWorkers(ws, now);
    assert |r| == |ws| by {
      assert forall w :: w in ws ==> w in r;
      NoIdleCount(ws, now);
    }
    SubsequenceSameLength(r, ws);
  }

  lemma {:induction false} NoIdleCount(ws: seq<Worker>, now: int)
    requires forall w :: w in ws ==> !IsIdle(w, now)
    ensures CountIdle(ws, now) == 0
  {
    if ws != [] {
      assert ws[0] in ws;
      assert forall w :: w in ws[1..] ==> w in ws;
      NoIdleCount(ws[1..], now);
    }
  }

  /** A subsequence as long as the original is the original. */
  lemma {:induction false} SubsequenceSameLength<T>(r: seq<T>, s: seq<T>)
    requires IsSubsequence(r, s)
    requires |r| == |s|
    ensures r == s
    decreases |s|
  {
    if |s| > 0 {
      if r[0] == s[0] {
        SubsequenceSameLength(r[1..], s[1..]);
        assert r == [r[0]] + r[1..];
      } else {
        SubsequenceLength(r, s[1..]);
        assert false;
      }
    }
  }

  lemma {:induction false} SubsequenceLength<T>(r: seq<T>, s: seq<T>)
    requires IsSubsequence(r, s)
    ensures |r| <= |s|
    decreases |s|
  {
    if |r| > 0 {
      if r[0] == s[0] {
        SubsequenceLength(r[1..], s[1..]);
      } else {
        SubsequenceLength(r, s[1..]);
      }
    }
  }

  // ---------------------------------------------------------------------
  // Retry bookkeeping
  // ---------------------------------------------------------------------

  /** The retry count recorded for a worker id; absent ids count zero. */
  function RetryCount(counts: map<string, nat>, id: string): nat {
    if id in counts then counts[id] else 0
  }

  function Pow(b: nat, n: nat): nat {
    if n == 0 then 1 else b * Pow(b, n - 1)
  }

  /** The sleep before the n-th restart: `InitialBackoff * 2^n`. */
  function Backoff(n: nat): (d: nat)
    ensures d >= InitialBackoff
  {
    PowPositive(BackoffFactor, n);
    InitialBackoff * Pow(BackoffFactor, n)
  }

  lemma {:induction false} PowPositive(b: nat, n: nat)
    requires b >= 1
    ensures Pow(b, n) >= 1
  {
    if n > 0 {
      PowPositive(b, n - 1);
    }
  }

  /** Each further retry waits twice as long. */
  lemma BackoffDoubles(n: nat)
    ensures Backoff(n + 1) == 2 * Backoff(n)
  {
  }

  /** The three admissible restarts wait one, two and four seconds. */
  lemma BackoffSchedule()
    ensures Backoff(0) == 1_000 && Backoff(1) == 2_000 && Backoff(2) == 4_000
  {
    assert Pow(2, 2) == 4;
  }

  datatype RetryOutcome =
    | RetriesExhausted                                  // "max retries reached"
    | StartFailed(backoff: nat)                         // slept, shut down, start error
    | Restarted(backoff: nat, replacement: Worker)      // slept, shut down, restarted

  datatype RetryResult = RetryResult(outcome: RetryOutcome, counts: map<string, nat>)

  /** Restart a crashed or stuck worker.  `started` is what starting the
      replacement produced (`None` for a start error); it is only consulted
      when the retry budget is not spent. */
  function RetryWorker(w: Worker, counts: map<string, nat>, started: Option<Worker>): (res: RetryResult)
    ensures res.outcome.RetriesExhausted? <==> RetryCount(counts, w.id) >= MaxRetries
    ensures !res.outcome.RetriesExhausted? ==>
      res.outcome.backoff == Backoff(RetryCount(counts, w.id))
      && InitialBackoff <= res.outcome.backoff <= 4 * InitialBackoff
    ensures res.outcome.Restarted? <==> RetryCount(counts, w.id) < MaxRetries && started.Some?
    ensures res.outcome.Restarted? ==>
      && res.outcome.replacement == started.value
      && RetryCount(res.counts, started.value.id) == RetryCount(counts, w.id) + 1
      && (started.value.id != w.id ==> RetryCount(res.counts, w.id) == RetryCount(counts, w.id))
      && res.counts.Keys == counts.Keys + {started.value.id}
    ensures !res.outcome.Restarted? ==> res.counts == counts
  {
    var n := RetryCount(counts, w.id);
    if n >= MaxRetries then
      RetryResult(RetriesExhausted, counts)
    else
      assert Backoff(n) <= 4 * InitialBackoff by {
        BackoffSchedule();
      }
      match started
      case None => RetryResult(StartFailed(Backoff(n)), counts)
      case Some(nw) => RetryResult(Restarted(Backoff(n), nw), counts[nw.id := n + 1])
  }

  /** Retrying the latest replacement again and again, each start producing
      the next worker of `starts`, until a retry does not restart. */
  function RetryChain(w: Worker, counts: map<string, nat>, starts: seq<Worker>): seq<RetryOutcome>
    decreases |starts|
  {
    if |starts| == 0 then []
    else
      var r := RetryWorker(w, counts, Some(starts[0]));
      [r.outcome] + (if r.outcome.Restarted? then RetryChain(starts[0], r.counts, starts[1..]) else [])
  }

  /** Fresh replacement ids: pairwise distinct, different from the first
      worker, and not yet counted. */
  ghost predicate FreshIds(w: Worker, counts: map<string, nat>, starts: seq<Worker>) {
    && (forall i :: 0 <= i < |starts| ==> starts[i].id != w.id && starts[i].id !in counts)
    && (forall i, j :: 0 <= i < j < |starts| ==> starts[i].id != starts[j].id)
  }

  /** From retry count `c`, the chain restarts while the count is below the
      cap, with backoffs `Backoff(c)`, `Backoff(c+1)`, ..., and then stops. */
  lemma {:induction false} RetryChainFrom(w: Worker, counts: map<string, nat>, starts: seq<Worker>, c: nat)
    requires RetryCount(counts, w.id) == c <= MaxRetries
    requires FreshIds(w, counts, starts)
    ensures |RetryChain(w, counts, starts)| == if |starts| <= MaxRetries - c then |starts| else MaxRetries - c + 1
    ensures forall j :: 0 <= j < |RetryChain(w, counts, starts)| ==>
      RetryChain(w, counts, starts)[j]
        == if c + j < MaxRetries then Restarted(Backoff(c + j), starts[j]) else RetriesExhausted
    decreases |starts|
  {
    if |starts| > 0 {
      var r := RetryWorker(w, counts, Some(starts[0]));
      if c < MaxRetries {
        var next := starts[0];
        assert RetryCount(r.counts, next.id) == c + 1;
        assert FreshIds(next, r.counts, starts[1..]) by {
          forall i | 0 <= i < |starts[1..]|
            ensures starts[1..][i].id != next.id && starts[1..][i].id !in r.counts
          {
            assert starts[1..][i] == starts[i + 1];
          }
        }
        RetryChainFrom(next, r.counts, starts[1..], c + 1);
        var tail := RetryChain(next, r.counts, starts[1..]);
        assert RetryChain(w, counts, starts) == [r.outcome] + tail;
      }
    }
  }

  /** A fresh worker that keeps failing is restarted three times, after 1s,
      2s and 4s, and is retired on the fourth failure. */
  lemma RetiredAfterThreeRestarts(w: Worker, counts: map<string, nat>, starts: seq<Worker>)
    requires w.id !in counts
    requires FreshIds(w, counts, starts)
    requires |starts| >= 4
    ensures RetryChain(w, counts, starts)
      == [Restarted(1_000, starts[0]), Restarted(2_000, starts[1]), Restarted(4_000, starts[2]), RetriesExhausted]
  {
    RetryChainFrom(w, counts, starts, 0);
    BackoffSchedule();
    var ch := RetryChain(w, counts, starts);
    assert |ch| == 4;
    assert ch[0] == Restarted(1_000, starts[0]);
    assert ch[1] == Restarted(2_000, starts[1]);
    assert ch[2] == Restarted(4_000, starts[2]);
    assert ch[3] == RetriesExhausted;
  }

  // ---------------------------------------------------------------------
  // One tick
  // ---------------------------------------------------------------------

  /** The scaling half of a tick: start at most one worker when the queue
      needs more (`started` is the outcome of that start), then trim the idle
      workers when they are the majority. */
  function ScaleStep(ws: seq<Worker>, queueLen: int, started: Option<Worker>, now: int): (next: seq<Worker>)
    ensures |next| <= |ws| + 1
    ensures IsSubsequence(next, ws + (if started.Some? then [started.value] else []))
    ensures !NeedMoreWorkers(queueLen, |ws|) && !TooManyIdleWorkers(ws, now) ==> next == ws
    ensures NeedMoreWorkers(queueLen, |ws|) && started.Some? && !TooManyIdleWorkers(ws + [started.value], now) ==>
      next == ws + [started.value]
    ensures TooManyIdleWorkers(Grown(ws, queueLen, started), now) ==>
      next == RemoveIdleWorkers(Grown(ws, queueLen, started), now)
    ensures !TooManyIdleWorkers(Grown(ws, queueLen, started), now) ==> next == Grown(ws, queueLen, started)
  {
    var grown := Grown(ws, queueLen, started);
    assert IsSubsequence(grown, ws + (if started.Some? then [started.value] else [])) by {
      if grown == ws {
        SubsequenceOfPrefix(ws, if started.Some? then [started.value] else []);
      } else {
        SubsequenceReflexive(grown);
      }
    }
    if TooManyIdleWorkers(grown, now) then
      var trimmed := RemoveIdleWorkers(grown, now);
      SubsequenceTransitive(trimmed, grown, ws + (if started.Some? then [started.value] else []));
      trimmed
    else grown
  }

  /** The fleet after the scale-up half of a tick. */
  function Grown(ws: seq<Worker>, queueLen: int, started: Option<Worker>): seq<Worker> {
    if NeedMoreWorkers(queueLen, |ws|) && started.Some? then ws + [started.value] else ws
  }

  /** Who is in the fleet after scaling: a worker that was there or the one
      started because the queue needed it, minus the idle ones when they
      were the majority. */
  lemma ScaleStepMembers(ws: seq<Worker>, queueLen: int, started: Option<Worker>, now: int, w: Worker)
    ensures var trimmed := TooManyIdleWorkers(Grown(ws, queueLen, started), now);
      (w in ScaleStep(ws, queueLen, started, now))
      <==> (w in ws || (NeedMoreWorkers(queueLen, |ws|) && started == Some(w))) && (!trimmed || !IsIdle(w, now))
  {
    var grown := Grown(ws, queueLen, started);
    assert w in grown <==> w in ws || (NeedMoreWorkers(queueLen, |ws|) && started == Some(w));
    SubsequenceElements(RemoveIdleWorkers(grown, now), grown);
  }

  /** However large the deficit, one tick adds at most one worker. */
  lemma AtMostOneStartPerTick(ws: seq<Worker>, queueLen: int, started: Option<Worker>, now: int)
    requires queueLen >= 0
    requires queueLen > (|ws| + 1) * MaxQueueLengthPerWorker
    ensures |ScaleStep(ws, queueLen, started, now)| <= |ws| + 1
    ensures NeedMoreWorkers(queueLen, |ws| + 1)
  {
  }

  lemma {:induction false} SubsequenceReflexive<T>(s: seq<T>)
    ensures IsSubsequence(s, s)
    decreases |s|
  {
    if |s| > 0 {
      SubsequenceReflexive(s[1..]);
    }
  }

  lemma {:induction false} SubsequenceOfPrefix<T>(s: seq<T>, extra: seq<T>)
    ensures IsSubsequence(s, s + extra)
    decreases |s|
  {
    if |s| > 0 {
      SubsequenceOfPrefix(s[1..], extra);
      assert (s + extra)[1..] == s[1..] + extra;
    }
  }

  lemma {:induction false} SubsequenceTransitive<T>(a: seq<T>, b: seq<T>, c: seq<T>)
    requires IsSubsequence(a, b)
    requires IsSubsequence(b, c)
    ensures IsSubsequence(a, c)
    decreases |c|
  {
    if |a| > 0 {
      assert |b| > 0 && |c| > 0;
      if b[0] == c[0] {
        if a[0] == b[0] {
          SubsequenceTransitive(a[1..], b[1..], c[1..]);
        } else {
          SubsequenceTransitive(a, b[1..], c[1..]);
        }
      } else {
        SubsequenceTransitive(a, b, c[1..]);
        SubsequenceOfTail(a, c);
      }
    }
  }

  // ---------------------------------------------------------------------
  // Per-worker supervision
  // ---------------------------------------------------------------------

  /** Whether a worker is sent to `retryWorker` this tick: its process has
      exited, or it is stuck. */
  predicate NeedsRestart(w: Worker, crashed: set<string>, now: int) {
    w.id in crashed || IsWorkerStuck(w, now, HealthTimeout, ProgressTimeout)
  }

  /** The effect of a passing health probe: the last healthy time is now. */
  function Refresh(w: Worker, healthy: set<string>, now: int): (r: Worker)
    ensures r.id == w.id
  {
    if w.id in healthy then w.(lastHealthyTime := now) else w
  }

  function Head(starts: seq<Option<Worker>>): Option<Worker> {
    if |starts| == 0 then None else starts[0]
  }

  function Tail(starts: seq<Option<Worker>>): seq<Option<Worker>> {
    if |starts| == 0 then [] else starts[1..]
  }

  /** The outcome of one supervision pass over the fleet. */
  datatype Supervision =
    | Panicked                                               // runtime panic: index out of range
    | Supervised(fleet: seq<Worker>, counts: map<string, nat>)

  /** The supervision loop as the program writes it.  The range loop reads
      the backing array `arr` of the slice it started with; a successful
      restart stores the replacement at `i` and then deletes index `i` from
      the live slice (`len` elements long) by shifting its tail left over it.
      The replacement is therefore lost, the worker after it is skipped, and
      stale copies past `len` are visited again. */
  function SuperviseAsWritten(arr: seq<Worker>, len: nat, i: nat, counts: map<string, nat>,
                              crashed: set<string>, starts: seq<Option<Worker>>, now: int): (s: Supervision)
    requires len <= |arr|
    ensures s.Supervised? ==> |s.fleet| <= len
    ensures s.Supervised? ==> forall x :: x in s.fleet ==> x in arr[..len]
    decreases |arr| - i
  {
    if i >= |arr| then Supervised(arr[..len], counts)
    else
      var w := arr[i];
      if !NeedsRestart(w, crashed, now) then
        SuperviseAsWritten(arr, len, i + 1, counts, crashed, starts, now)
      else
        var exhausted := RetryCount(counts, w.id) >= MaxRetries;
        var r := RetryWorker(w, counts, if exhausted then None else Head(starts));
        var rest := if exhausted then starts else Tail(starts);
        if !r.outcome.Restarted? then
          SuperviseAsWritten(arr, len, i + 1, r.counts, crashed, rest, now)
        else if i >= len then
          Panicked
        else
          var arr1 := arr[i := r.outcome.replacement];
          var arr2 := arr1[..i] + arr1[i + 1..len] + arr1[len - 1..];
          assert arr2[..len - 1] == arr[..i] + arr[i + 1..len];
          assert forall x :: x in arr2[..len - 1] ==> x in arr[..len];
          SuperviseAsWritten(arr2, len - 1, i + 1, r.counts, crashed, rest, now)
  }

  /** One pass of the corrected loop: the fleet after it, the retry counts,
      and for every slot the outcome of `retryWorker` on it (`None` when the
      worker needed no restart). */
  datatype Pass = Pass(fleet: seq<Worker>, counts: map<string, nat>, outcomes: seq<Option<RetryOutcome>>)

  /** Whether slot `i` of a pass holds a replacement. */
  predicate RestartedAt(p: Pass, i: int)
    requires 0 <= i < |p.outcomes|
  {
    p.outcomes[i].Some? && p.outcomes[i].value.Restarted?
  }

  /** What one slot of the pass says about the worker `w` it started with:
      an outcome exactly when `w` needed a restart, the replacement in the
      slot when that outcome is a restart and `w` otherwise, and a
      replacement only ever taken from `starts`. */
  ghost predicate SlotOk(outcome: Option<RetryOutcome>, slot: Worker, w: Worker, crashed: set<string>,
                         starts: seq<Option<Worker>>, now: int)
  {
    && (outcome.Some? <==> NeedsRestart(w, crashed, now))
    && slot == (if outcome.Some? && outcome.value.Restarted? then outcome.value.replacement else w)
    && (outcome.Some? && outcome.value.Restarted? ==> Some(outcome.value.replacement) in starts)
  }

  /** Every slot of the pass satisfies `SlotOk` against `ws`. */
  ghost predicate PassOk(p: Pass, ws: seq<Worker>, crashed: set<string>, starts: seq<Option<Worker>>, now: int) {
    && |p.fleet| == |ws| && |p.outcomes| == |ws|
    && forall i :: 0 <= i < |ws| ==> SlotOk(p.outcomes[i], p.fleet[i], ws[i], crashed, starts, now)
  }

  /** The result of examining one worker. */
  datatype Slot = Slot(outcome: Option<RetryOutcome>, worker: Worker, counts: map<string, nat>, rest: seq<Option<Worker>>)

  /** One iteration of the corrected loop: a worker needing a restart goes
      through `retryWorker`, which consumes the next start attempt unless
      the retries are exhausted. */
  function SuperviseOne(w: Worker, counts: map<string, nat>, crashed: set<string>,
                        starts: seq<Option<Worker>>, now: int): (s: Slot)
    ensures SlotOk(s.outcome, s.worker, w, crashed, starts, now)
    ensures forall x :: x in s.rest ==> x in starts
    ensures counts.Keys <= s.counts.Keys
  {
    if !NeedsRestart(w, crashed, now) then Slot(None, w, counts, starts)
    else
      var exhausted := RetryCount(counts, w.id) >= MaxRetries;
      var r := RetryWorker(w, counts, if exhausted then None else Head(starts));
      var rest := if exhausted then starts else Tail(starts);
      assert forall x :: x in rest ==> x in starts;
      Slot(Some(r.outcome), if r.outcome.Restarted? then r.outcome.replacement else w, r.counts, rest)
  }

  /** Putting one slot in front of a pass over the remaining workers. */
  lemma PassCons(ws: seq<Worker>, s: Slot, tail: Pass, crashed: set<string>, starts: seq<Option<Worker>>, now: int)
    requires |ws| > 0
    requires SlotOk(s.outcome, s.worker, ws[0], crashed, starts, now)
    requires forall x :: x in s.rest ==> x in starts
    requires PassOk(tail, ws[1..], crashed, s.rest, now)
    ensures PassOk(Pass([s.worker] + tail.fleet, tail.counts, [s.outcome] + tail.outcomes), ws, crashed, starts, now)
  {
    var p := Pass([s.worker] + tail.fleet, tail.counts, [s.outcome] + tail.outcomes);
    forall i | 0 <= i < |ws|
      ensures SlotOk(p.outcomes[i], p.fleet[i], ws[i], crashed, starts, now)
    {
      if i > 0 {
        assert p.outcomes[i] == tail.outcomes[i - 1] && p.fleet[i] == tail.fleet[i - 1] && ws[i] == ws[1..][i - 1];
        assert SlotOk(tail.outcomes[i - 1], tail.fleet[i - 1], ws[1..][i - 1], crashed, s.rest, now);
      }
    }
  }

  /** The supervision loop as evidently intended: every worker is examined
      exactly once, the ones needing a restart go through `retryWorker`, and
      a successful restart puts the replacement in the crashed worker's slot. */
  function Supervise(ws: seq<Worker>, counts: map<string, nat>, crashed: set<string>,
                     starts: seq<Option<Worker>>, now: int): (p: Pass)
    ensures |p.fleet| == |ws| && |p.outcomes| == |ws|
    ensures forall i :: 0 <= i < |ws| ==> (p.outcomes[i].Some? <==> NeedsRestart(ws[i], crashed, now))
    ensures forall i :: 0 <= i < |ws| ==>
      p.fleet[i] == (if RestartedAt(p, i) then p.outcomes[i].value.replacement else ws[i])
    ensures forall i :: 0 <= i < |ws| && RestartedAt(p, i) ==> Some(p.outcomes[i].value.replacement) in starts
    ensures counts.Keys <= p.counts.Keys
    decreases |ws|
  {
    if ws == [] then Pass([], counts, [])
    else
      var s := SuperviseOne(ws[0], counts, crashed, starts, now);
      var tail := Supervise(ws[1..], s.counts, crashed, s.rest, now);
      PassCons(ws, s, tail, crashed, starts, now);
      var p := Pass([s.worker] + tail.fleet, tail.counts, [s.outcome] + tail.outcomes);
      assert forall i :: 0 <= i < |ws| ==> SlotOk(p.outcomes[i], p.fleet[i], ws[i], crashed, starts, now);
      p
  }

  /** A whole tick: scale, then supervise, then apply the health probes that
      ran alongside (`healthy` are the ids whose probe passed).  Each slot of
      the scaled fleet ends holding its worker or, when restarted, the
      replacement, in either case with the probe's timestamp applied. */
  function Tick(ws: seq<Worker>, queueLen: int, started: Option<Worker>, counts: map<string, nat>,
                crashed: set<string>, healthy: set<string>, starts: seq<Option<Worker>>, now: int): (p: Pass)
    ensures var scaled := ScaleStep(ws, queueLen, started, now);
      && |p.fleet| == |scaled| && |p.outcomes| == |scaled|
      && (forall k :: 0 <= k < |scaled| ==> (p.outcomes[k].Some? <==> NeedsRestart(scaled[k], crashed, now)))
      && (forall k :: 0 <= k < |scaled| ==>
            p.fleet[k] == Refresh(if RestartedAt(p, k) then p.outcomes[k].value.replacement else scaled[k], healthy, now))
    ensures |p.fleet| <= |ws| + 1
    ensures counts.Keys <= p.counts.Keys
  {
    var scaled := ScaleStep(ws, queueLen, started, now);
    var sup := Supervise(scaled, counts, crashed, starts, now);
    Pass(seq(|sup.fleet|, k requires 0 <= k < |sup.fleet| => Refresh(sup.fleet[k], healthy, now)), sup.counts, sup.outcomes)
  }

  /** A quiet tick (queue covered, nobody idle, crashed or stuck) changes no
      worker but their health timestamps and records no retry. */
  lemma QuietTickKeepsFleet(ws: seq<Worker>, queueLen: int, started: Option<Worker>, counts: map<string, nat>,
                            healthy: set<string>, starts: seq<Option<Worker>>, now: int)
    requires !NeedMoreWorkers(queueLen, |ws|)
    requires forall w :: w in ws ==> !IsIdle(w, now) && !IsWorkerStuck(w, now, HealthTimeout, ProgressTimeout)
    ensures var s := Tick(ws, queueLen, started, counts, {}, healthy, starts, now);
      && |s.fleet| == |ws|
      && (forall i :: 0 <= i < |ws| ==> s.fleet[i] == Refresh(ws[i], healthy, now))
  {
    NoIdleNoTrim(ws, now);
    assert ScaleStep(ws, queueLen, started, now) == ws;
  }

  // ---------------------------------------------------------------------
  // The replacement is lost (see README, Findings)
  // ---------------------------------------------------------------------

  /** One crashed worker, restarted successfully: the program's loop ends
      the tick with an empty fleet (the replacement runs unsupervised), while
      the intended loop keeps the replacement in the crashed worker's place. */
  lemma ReplacementDroppedAsWritten(w: Worker, w2: Worker, now: int)
    requires w.id == "a" && w2.id == "b"
    ensures SuperviseAsWritten([w], 1, 0, map[], {"a"}, [Some(w2)], now) == Supervised([], map["b" := 1])
    ensures Supervise([w], map[], {"a"}, [Some(w2)], now).fleet == [w2]
    ensures Supervise([w], map[], {"a"}, [Some(w2)], now).counts == map["b" := 1]
  {
    var r := RetryWorker(w, map[], Some(w2));
    assert r.outcome == Restarted(Backoff(0), w2);
    var arr1 := [w][0 := w2];
    assert arr1[..0] + arr1[1..1] + arr1[0..] == [w2];
    assert SuperviseAsWritten([w2], 0, 1, map["b" := 1], {"a"}, [], now) == Supervised([], map["b" := 1]);
  }

  /** Two crashed workers, both restarted: the program's loop revisits a
      stale slot past the live slice and panics on the second replacement. */
  lemma TwoCrashesPanicAsWritten(a: Worker, b: Worker, a2: Worker, b2: Worker, now: int)
    requires a.id == "a" && b.id == "b" && a2.id == "a2" && b2.id == "b2"
    ensures SuperviseAsWritten([a, b], 2, 0, map[], {"a", "b"}, [Some(a2), Some(b2)], now) == Panicked
    ensures Supervise([a, b], map[], {"a", "b"}, [Some(a2), Some(b2)], now).fleet == [a2, b2]
  {
    var arr1 := [a, b][0 := a2];
    var arr2 := arr1[..0] + arr1[1..2] + arr1[1..];
    assert arr2 == [b, b];
    assert SuperviseAsWritten([a, b], 2, 0, map[], {"a", "b"}, [Some(a2), Some(b2)], now)
        == SuperviseAsWritten([b, b], 1, 1, map["a2" := 1], {"a", "b"}, [Some(b2)], now);
    var t := Supervise([b], map["a2" := 1], {"a", "b"}, [Some(b2)], now);
    assert t.fleet == [b2];
  }
}

=== FILE: query_result.dfy ===
/** The in-memory result of a SQL query: column names, rows of cells, and
    per-column indexes from a cell to the rows holding it.  The indexes
    as shipped are keyed by a freshly allocated wrapper around each cell,
    so a lookup by value never matches; the corrected indexes are keyed by
    the cell value. */
module QueryResult {
  import opened Common

  /** Column names and rows; a row may be shorter than the column list. */
  datatype Table<V> = Table(cols: seq<string>, rows: seq<seq<V>>)

  /** The key an index entry is filed under: the nil interface a missing
      cell yields, a cell value, or the address of a wrapper allocated for
      one row's cell. */
  datatype IndexKey<V> = NilKey | CellKey(v: V) | FieldAddress(row: nat)

  type IndexMap<V(==)> = map<IndexKey<V>, seq<nat>>

  datatype Result<V(==)> = Result(table: Table<V>, indexes: map<string, IndexMap<V>>)

  /** `GetCol`: the first column with the name, or -1. */
  function GetCol<V>(t: Table<V>, name: string): (c: int)
    ensures -1 <= c < |t.cols|
    ensures c == -1 <==> name !in t.cols
    ensures c >= 0 ==> t.cols[c] == name && forall j :: 0 <= j < c ==> t.cols[j] != name
  {
    FirstFrom(t.cols, name, 0)
  }

  /** The first position at or after `i` holding `name`, or -1. */
  function FirstFrom(cols: seq<string>, name: string, i: nat): (c: int)
    requires i <= |cols|
    requires forall j :: 0 <= j < i ==> cols[j] != name
    ensures -1 <= c < |cols|
    ensures c == -1 <==> name !in cols
    ensures c >= 0 ==> cols[c] == name && forall j :: 0 <= j < c ==> cols[j] != name
    decreases |cols| - i
  {
    if i == |cols| then -1
    else if cols[i] == name then i
    else FirstFrom(cols, name, i + 1)
  }

  /** `GetValue`: the cell, or nothing when the row or column is out of
      range or the row is too short. */
  function GetValue<V>(t: Table<V>, row: int, col: int): (v: Option<V>)
    ensures v.Some? <==> 0 <= row < |t.rows| && 0 <= col < |t.cols| && col < |t.rows[row]|
    ensures v.Some? ==> v.value == t.rows[row][col]
  {
    if row < 0 || row >= |t.rows| then None
    else if col < 0 || col >= |t.cols| then None
    else if col >= |t.rows[row]| then None
    else Some(t.rows[row][col])
  }

  /** `GetValueByName`: the cell under the first column with that name. */
  function GetValueByName<V>(t: Table<V>, row: int, name: string): (v: Option<V>)
    ensures name !in t.cols ==> v.None?
    ensures v.Some? <==> name in t.cols && 0 <= row < |t.rows| && GetCol(t, name) < |t.rows[row]|
    ensures name in t.cols && 0 <= row < |t.rows| && GetCol(t, name) < |t.rows[row]| ==>
      v == Some(t.rows[row][GetCol(t, name)])
  {
    GetValue(t, row, GetCol(t, name))
  }

  /** The key row `row` is filed under in the index of column `col`. */
  function KeyAt<V>(t: Table<V>, col: nat, row: nat, asWritten: bool): IndexKey<V> {
    match GetValue(t, row, col)
    case None => NilKey
    case Some(v) => if asWritten then FieldAddress(row) else CellKey(v)
  }

  predicate Ascending(rs: seq<nat>) {
    forall i, j :: 0 <= i < j < |rs| ==> rs[i] < rs[j]
  }

  /** `rs` lists, in ascending order, exactly the rows below `n` filed
      under `k`. */
  predicate ListsRows<V(==)>(rs: seq<nat>, t: Table<V>, col: nat, n: nat, k: IndexKey<V>, asWritten: bool) {
    && Ascending(rs)
    && (forall i :: 0 <= i < |rs| ==> rs[i] < n && KeyAt(t, col, rs[i], asWritten) == k)
    && (forall r: nat :: r < n && KeyAt(t, col, r, asWritten) == k ==> r in rs)
  }

  /** The index of one column over the first `n` rows: each row is
      appended to the list under its key. */
  function BuildIndexMap<V(==)>(t: Table<V>, col: nat, n: nat, asWritten: bool): (m: IndexMap<V>)
    requires n <= |t.rows|
    ensures forall r: nat :: r < n ==> KeyAt(t, col, r, asWritten) in m
    ensures forall k :: k in m ==> |m[k]| > 0
  {
    if n == 0 then map[]
    else
      var m := BuildIndexMap(t, col, n - 1, asWritten);
      var k := KeyAt(t, col, n - 1, asWritten);
      m[k := if k in m then m[k] + [n - 1] else [n - 1]]
  }

  /** Each entry of a built index lists, in ascending order, exactly the
      rows filed under its key. */
  lemma {:induction false} BuildIndexMapLists<V>(t: Table<V>, col: nat, n: nat, asWritten: bool, k: IndexKey<V>)
    requires n <= |t.rows|
    requires k in BuildIndexMap(t, col, n, asWritten)
    ensures ListsRows(BuildIndexMap(t, col, n, asWritten)[k], t, col, n, k, asWritten)
  {
    if n > 0 {
      var m0 := BuildIndexMap(t, col, n - 1, asWritten);
      var m := BuildIndexMap(t, col, n, asWritten);
      if KeyAt(t, col, n - 1, asWritten) != k {
        assert m[k] == m0[k];
        BuildIndexMapLists(t, col, n - 1, asWritten, k);
        ListsOtherRow(m0[k], t, col, n, k, asWritten);
      } else if k in m0 {
        assert m[k] == m0[k] + [n - 1];
        BuildIndexMapLists(t, col, n - 1, asWritten, k);
        ListsAppendRow(m0[k], t, col, n, k, asWritten);
      } else {
        assert m[k] == [n - 1];
        ListsFirstRow(t, col, n, k, asWritten);
      }
    }
  }

  /** A row filed under another key leaves a listing as it is. */
  lemma ListsOtherRow<V>(rs: seq<nat>, t: Table<V>, col: nat, n: nat, k: IndexKey<V>, asWritten: bool)
    requires n > 0 && ListsRows(rs, t, col, n - 1, k, asWritten)
    requires KeyAt(t, col, n - 1, asWritten) != k
    ensures ListsRows(rs, t, col, n, k, asWritten)
  {
  }

  /** A row filed under the key is appended to its listing. */
  lemma ListsAppendRow<V>(rs: seq<nat>, t: Table<V>, col: nat, n: nat, k: IndexKey<V>, asWritten: bool)
    requires n > 0 && ListsRows(rs, t, col, n - 1, k, asWritten)
    requires KeyAt(t, col, n - 1, asWritten) == k
    ensures ListsRows(rs + [n - 1], t, col, n, k, asWritten)
  {
    var rs' := rs + [n - 1];
    forall r: nat | r < n && KeyAt(t, col, r, asWritten) == k ensures r in rs' {
      if r < n - 1 {
        assert r in rs;
      }
    }
  }

  /** The first row filed under a key starts its listing. */
  lemma ListsFirstRow<V>(t: Table<V>, col: nat, n: nat, k: IndexKey<V>, asWritten: bool)
    requires 0 < n <= |t.rows|
    requires k !in BuildIndexMap(t, col, n - 1, asWritten)
    requires KeyAt(t, col, n - 1, asWritten) == k
    ensures ListsRows([n - 1], t, col, n, k, asWritten)
  {
  }

  /** As shipped, no entry is filed under a cell value. */
  lemma {:induction false} NoValueKeysAsWritten<V>(t: Table<V>, col: nat, n: nat, v: V)
    requires n <= |t.rows|
    ensures CellKey(v) !in BuildIndexMap(t, col, n, true)
  {
    if n > 0 {
      NoValueKeysAsWritten(t, col, n - 1, v);
    }
  }

  /** The indexes for `names`: a name that is not a column is skipped. */
  function IndexesFor<V(==)>(t: Table<V>, names: seq<string>, asWritten: bool): (ix: map<string, IndexMap<V>>)
    ensures forall name :: name in ix <==> name in names && name in t.cols
    ensures forall name :: name in ix ==> ix[name] == BuildIndexMap(t, GetCol(t, name), |t.rows|, asWritten)
  {
    if |names| == 0 then map[]
    else
      var rest := IndexesFor(t, names[1..], asWritten);
      var col := GetCol(t, names[0]);
      if col == -1 then rest
      else rest[names[0] := BuildIndexMap(t, col, |t.rows|, asWritten)]
  }

  /** `BuildIndexes`: with no names nothing changes; otherwise the indexes
      are replaced by those of the named columns. */
  function BuildIndexes<V(==)>(q: Result<V>, names: seq<string>, asWritten: bool): (r: Result<V>)
    ensures r.table == q.table
    ensures |names| == 0 ==> r == q
    ensures |names| > 0 ==> forall name :: name in r.indexes <==> name in names && name in q.table.cols
  {
    if |names| > 0 then q.(indexes := IndexesFor(q.table, names, asWritten)) else q
  }

  /** `GetRowByIndex`: the rows filed under `value`, or nothing when there
      are no indexes, the index is unknown or the value absent. */
  function GetRowByIndex<V(==)>(q: Result<V>, index: string, value: IndexKey<V>): (rs: Option<seq<nat>>)
    ensures rs.Some? ==> index in q.indexes && value in q.indexes[index] && rs.value == q.indexes[index][value]
    ensures rs.None? <==> index !in q.indexes || value !in q.indexes[index]
  {
    if |q.indexes| == 0 then None
    else if index !in q.indexes then None
    else if value !in q.indexes[index] then None
    else Some(q.indexes[index][value])
  }

  /** With indexes keyed by value, a lookup after building the column's
      index answers exactly the rows holding the value, in ascending
      order, and nothing when no row holds it. */
  lemma LookupFindsRows<V>(q: Result<V>, name: string, v: V)
    requires name in q.table.cols
    ensures var rs := GetRowByIndex(BuildIndexes(q, [name], false), name, CellKey(v));
      var c := GetCol(q.table, name);
      && (rs.Some? <==> exists r :: 0 <= r < |q.table.rows| && GetValue(q.table, r, c) == Some(v))
      && (rs.Some? ==> Ascending(rs.value))
      && (rs.Some? ==> forall r :: 0 <= r < |q.table.rows| ==> (r in rs.value <==> GetValue(q.table, r, c) == Some(v)))
  {
    var t := q.table;
    var c := GetCol(t, name);
    var m := BuildIndexMap(t, c, |t.rows|, false);
    var q' := BuildIndexes(q, [name], false);
    var k := CellKey(v);
    assert q'.indexes[name] == m;
    assert forall r: nat :: r < |t.rows| ==> (KeyAt(t, c, r, false) == k <==> GetValue(t, r, c) == Some(v));
    if k in m {
      BuildIndexMapLists(t, c, |t.rows|, false, k);
      assert KeyAt(t, c, m[k][0], false) == k;
    }
    if exists r :: 0 <= r < |t.rows| && GetValue(t, r, c) == Some(v) {
      var r :| 0 <= r < |t.rows| && GetValue(t, r, c) == Some(v);
      assert KeyAt(t, c, r, false) in m;
    }
  }

  /** As shipped, a lookup by any cell value finds nothing, whatever was
      indexed. */
  lemma ValueLookupMissesAsWritten<V>(q: Result<V>, names: seq<string>, index: string, v: V)
    requires |names| > 0
    ensures GetRowByIndex(BuildIndexes(q, names, true), index, CellKey(v)).None?
  {
    var q' := BuildIndexes(q, names, true);
    if index in q'.indexes {
      NoValueKeysAsWritten(q.table, GetCol(q.table, index), |q.table.rows|, v);
    }
  }

  /** As shipped, a wrapper address is only filed for a row already seen. */
  lemma {:induction false} AddressKeysBelowAsWritten<V>(t: Table<V>, col: nat, n: nat, j: nat)
    requires n <= |t.rows|
    ensures FieldAddress(j) in BuildIndexMap(t, col, n, true) ==> j < n
  {
    if n > 0 {
      AddressKeysBelowAsWritten(t, col, n - 1, j);
    }
  }

  /** As shipped, every present cell gets an entry of its own: one row per
      wrapper address. */
  lemma {:induction false} AddressEntriesSingleAsWritten<V>(t: Table<V>, col: nat, n: nat, row: nat)
    requires n <= |t.rows| && row < n && col < |t.cols| && col < |t.rows[row]|
    ensures FieldAddress(row) in BuildIndexMap(t, col, n, true)
    ensures BuildIndexMap(t, col, n, true)[FieldAddress(row)] == [row]
  {
    var k := FieldAddress(row);
    var m0 := BuildIndexMap(t, col, n - 1, true);
    assert KeyAt(t, col, n - 1, true) == k <==> row == n - 1;
    if row == n - 1 {
      AddressKeysBelowAsWritten(t, col, n - 1, row);
    } else {
      AddressEntriesSingleAsWritten(t, col, n - 1, row);
    }
  }

  /** A name that is not a column gets no index, so its lookups fail. */
  lemma UnknownColumnNotIndexed<V>(q: Result<V>, names: seq<string>, index: string, value: IndexKey<V>, asWritten: bool)
    requires |names| > 0 && index !in q.table.cols
    ensures GetRowByIndex(BuildIndexes(q, names, asWritten), index, value).None?
  {
  }
}

=== FILE: redis.dfy ===
/** The Redis side of the framework's database package: service-prefixed
    keys, a keyspace with expiry deadlines, the two Lua scripts behind the
    token-checked lock (a reentrant set-if-absent and a compare-and-delete),
    and the `RedisLock` wrapper around them.  Times are milliseconds; a
    duration argument is in nanoseconds, as Go's `time.Duration`. */
module Redis {
  import opened Common

  // ---------------------------------------------------------------------
  // Keys
  // ---------------------------------------------------------------------

  const DefaultServiceName: string := "NoServiceName"

  /** `getFullKey`: the configured `server.name` (or the default when it is
      not configured), a colon, then the key. */
  function FullKey(serviceName: Option<string>, key: string): (full: string)
    ensures var prefix := (if serviceName.Some? then serviceName.value else DefaultServiceName) + ":";
      && |full| == |prefix| + |key|
      && full[..|prefix|] == prefix
      && full[|prefix|..] == key
  {
    var name := if serviceName.Some? then serviceName.value else DefaultServiceName;
    name + ":" + key
  }

  /** Different keys of one service never collide, and a full key is never
      the bare key it was built from. */
  lemma FullKeyInjective(serviceName: Option<string>, k1: string, k2: string)
    ensures FullKey(serviceName, k1) == FullKey(serviceName, k2) ==> k1 == k2
    ensures FullKey(serviceName, k1) != k1
  {
    var f1 := FullKey(serviceName, k1);
    var f2 := FullKey(serviceName, k2);
    var name := if serviceName.Some? then serviceName.value else DefaultServiceName;
    var n := |name + ":"|;
    if f1 == f2 {
      assert k1 == f1[n..] == f2[n..] == k2;
    }
    assert |f1| > |k1|;
  }

  // ---------------------------------------------------------------------
  // Keyspace
  // ---------------------------------------------------------------------

  /** A stored string value with an optional expiry deadline. */
  datatype Entry = Entry(value: string, deadline: Option<int>)

  type Keyspace = map<string, Entry>

  /** A key is present at `now` when it is stored and its deadline, if any,
      has not yet passed: the server drops a key only once the clock is past
      its deadline. */
  predicate Live(ks: Keyspace, key: string, now: int) {
    key in ks && (ks[key].deadline.None? || now <= ks[key].deadline.value)
  }

  /** `GET`: the value of a live key. */
  function Get(ks: Keyspace, key: string, now: int): (v: Option<string>)
    ensures v.Some? <==> Live(ks, key, now)
    ensures v.Some? ==> v.value == ks[key].value
  {
    if Live(ks, key, now) then Some(ks[key].value) else None
  }

  /** The reply of a Lua script run through `EVAL`. */
  datatype Reply = Ok | NilReply | IntReply(n: int) | ScriptError

  /** The reentrant lock script: refresh the key when it already holds `id`,
      otherwise `SET ... NX PX ttl`.  Redis rejects a non-positive `PX`
      before looking at the key, which fails the whole script. */
  function LockScript(ks: Keyspace, key: string, id: string, ttlMs: int, now: int): (res: (Reply, Keyspace))
    ensures res.0 == Ok <==> ttlMs > 0 && (!Live(ks, key, now) || ks[key].value == id)
    ensures res.0 == Ok ==> res.1 == ks[key := Entry(id, Some(now + ttlMs))]
    ensures res.0 != Ok ==> res.1 == ks
    ensures res.0 in {Ok, NilReply, ScriptError}
  {
    if ttlMs <= 0 then (ScriptError, ks)
    else if Get(ks, key, now) == Some(id) then (Ok, ks[key := Entry(id, Some(now + ttlMs))])
    else if Live(ks, key, now) then (NilReply, ks)
    else (Ok, ks[key := Entry(id, Some(now + ttlMs))])
  }

  /** The compare-and-delete script: delete the key only when it holds `id`;
      reply with the number of keys deleted. */
  function DelScript(ks: Keyspace, key: string, id: string, now: int): (res: (Reply, Keyspace))
    ensures res.0 == IntReply(1) <==> Get(ks, key, now) == Some(id)
    ensures res.0 == IntReply(1) ==> res.1 == ks - {key}
    ensures res.0 != IntReply(1) ==> res.0 == IntReply(0) && res.1 == ks
  {
    if Get(ks, key, now) == Some(id) then (IntReply(1), ks - {key}) else (IntReply(0), ks)
  }

  /** A lock never deletes a key another holder owns. */
  lemma DelSparesOtherHolders(ks: Keyspace, key: string, id: string, now: int)
    requires Live(ks, key, now) && ks[key].value != id
    ensures DelScript(ks, key, id, now).1 == ks
    ensures key in DelScript(ks, key, id, now).1
  {
  }

  // ---------------------------------------------------------------------
  // RedisLock
  // ---------------------------------------------------------------------

  /** A lock handle: its full key and the unique id it writes as token. */
  datatype RedisLock = RedisLock(key: string, id: string)

  /** `NewRedisLock`: the key is prefixed with the service name; the id is a
      snowflake or random string chosen by the caller. */
  function NewRedisLock(serviceName: Option<string>, key: string, id: string): (rl: RedisLock)
    ensures rl.key == FullKey(serviceName, key) && rl.id == id
  {
    RedisLock(FullKey(serviceName, key), id)
  }

  /** `time.Duration.Abs().Milliseconds()`: whole milliseconds of a duration
      given in nanoseconds, sign dropped. */
  function AbsMilliseconds(ns: int): (ms: nat)
    ensures ms * 1_000_000 <= (if ns < 0 then -ns else ns) < (ms + 1) * 1_000_000
  {
    (if ns < 0 then -ns else ns) / 1_000_000
  }

  /** `TryLock`: runs the lock script when the server is reachable (`up`);
      any script or connection error, and a nil reply, read as "not
      acquired" without an error. */
  function TryLock(ks: Keyspace, rl: RedisLock, sec: int, now: int, up: bool): (res: (bool, Keyspace))
    ensures res.0 <==> up && LockScript(ks, rl.key, rl.id, AbsMilliseconds(sec), now).0 == Ok
    ensures res.0 <==> up && AbsMilliseconds(sec) > 0 && (!Live(ks, rl.key, now) || ks[rl.key].value == rl.id)
    ensures !res.0 ==> res.1 == ks
    ensures res.0 ==> res.1 == ks[rl.key := Entry(rl.id, Some(now + AbsMilliseconds(sec)))]
  {
    if !up then (false, ks)
    else
      var (reply, ks') := LockScript(ks, rl.key, rl.id, AbsMilliseconds(sec), now);
      (reply == Ok, ks')
  }

  datatype LockError = ContextCanceled | NotAcquired

  /** `Lock`: one attempt; a done context or a failed attempt is an error. */
  function Lock(ks: Keyspace, rl: RedisLock, sec: int, now: int, up: bool, ctxDone: bool)
    : (res: (Option<LockError>, Keyspace))
    ensures res.0.None? <==> !ctxDone && TryLock(ks, rl, sec, now, up).0
    ensures ctxDone ==> res == (Some(ContextCanceled), ks)
    ensures res.0.Some? ==> res.1 == ks
    ensures res.0.None? ==> Get(res.1, rl.key, now) == Some(rl.id)
  {
    if ctxDone then (Some(ContextCanceled), ks)
    else
      var (ok, ks') := TryLock(ks, rl, sec, now, up);
      if ok then (None, ks') else (Some(NotAcquired), ks)
  }

  /** `Unlock`: the compare-and-delete script, reply ignored. */
  function Unlock(ks: Keyspace, rl: RedisLock, now: int, up: bool): (ks': Keyspace)
    ensures up && Get(ks, rl.key, now) == Some(rl.id) ==> ks' == ks - {rl.key}
    ensures !(up && Get(ks, rl.key, now) == Some(rl.id)) ==> ks' == ks
  {
    if up then DelScript(ks, rl.key, rl.id, now).1 else ks
  }

  /** Mutual exclusion: while one holder's lock is live, a lock with another
      id on the same key is refused and changes nothing. */
  lemma ExclusiveWhileLive(ks: Keyspace, a: RedisLock, b: RedisLock, sec: int, now: int, later: int)
    requires a.key == b.key && a.id != b.id
    requires TryLock(ks, a, sec, now, true).0
    requires now <= later <= now + AbsMilliseconds(sec)
    ensures var held := TryLock(ks, a, sec, now, true).1;
      !TryLock(held, b, sec, later, true).0
      && Unlock(held, b, later, true) == held
  {
  }

  /** Reentrancy: the holder may take its own lock again, which only pushes
      the deadline out. */
  lemma Reentrant(ks: Keyspace, rl: RedisLock, sec: int, now: int, later: int)
    requires TryLock(ks, rl, sec, now, true).0
    requires now <= later <= now + AbsMilliseconds(sec)
    ensures var held := TryLock(ks, rl, sec, now, true).1;
      TryLock(held, rl, sec, later, true) == (true, held[rl.key := Entry(rl.id, Some(later + AbsMilliseconds(sec)))])
  {
  }

  /** A crashed holder's lock expires: once its deadline has passed, anybody
      can acquire the key. */
  lemma ExpiredLockIsFree(ks: Keyspace, a: RedisLock, b: RedisLock, sec: int, now: int, later: int)
    requires a.key == b.key
    requires TryLock(ks, a, sec, now, true).0
    requires later > now + AbsMilliseconds(sec)
    ensures TryLock(TryLock(ks, a, sec, now, true).1, b, sec, later, true).0
  {
  }

  /** Lock, then unlock, from a free key leaves the key free again. */
  lemma LockUnlockFreesKey(ks: Keyspace, rl: RedisLock, sec: int, now: int)
    requires !Live(ks, rl.key, now)
    requires Lock(ks, rl, sec, now, true, false).0.None?
    ensures !Live(Unlock(Lock(ks, rl, sec, now, true, false).1, rl, now, true), rl.key, now)
    ensures Unlock(Lock(ks, rl, sec, now, true, false).1, rl, now, true) == ks - {rl.key}
  {
  }

  /** A sub-millisecond timeout is rounded down to zero and always fails. */
  lemma ZeroTimeoutFails(ks: Keyspace, rl: RedisLock, sec: int, now: int)
    requires -1_000_000 < sec < 1_000_000
    ensures TryLock(ks, rl, sec, now, true) == (false, ks)
  {
  }
}

=== FILE: service.dfy ===
/** The persistence helpers the job-type, job-set and resource-pool services
    share: existence checks by id, delete-by-id, the skip/limit cursor walk,
    and first-occurrence de-duplication.  A collection is a sequence of
    stored documents; a document may fail to decode into its record type. */
module Service {
  import opened Common

  /** A stored document and whether it decodes into the record type. */
  datatype Doc<T> = Doc(value: T, decodable: bool)

  /** A collection as the driver sees it: unreachable, or its documents in
      cursor order. */
  datatype Collection<T> = Unreachable | Docs(docs: seq<Doc<T>>)

  /** The index of the first document whose key is `id`, if any. */
  function FirstWithKey<T>(docs: seq<Doc<T>>, key: T -> string, id: string): (i: Option<nat>)
    ensures i.Some? ==> i.value < |docs| && key(docs[i.value].value) == id
    ensures i.Some? ==> forall j :: 0 <= j < i.value ==> key(docs[j].value) != id
    ensures i.None? ==> forall j :: 0 <= j < |docs| ==> key(docs[j].value) != id
  {
    if |docs| == 0 then None
    else if key(docs[0].value) == id then Some(0)
    else
      match FirstWithKey(docs[1..], key, id)
      case None => None
      case Some(k) => Some(k + 1)
  }

  // ---------------------------------------------------------------------
  // Existence check and delete
  // ---------------------------------------------------------------------

  /** What `FindOne(...).Decode` reports. */
  datatype FindOneResult = NoDocuments | FindFailed | FoundOne

  function FindOne<T>(c: Collection<T>, key: T -> string, id: string): (r: FindOneResult)
    ensures r == NoDocuments <==> c.Docs? && FirstWithKey(c.docs, key, id).None?
  {
    match c
    case Unreachable => FindFailed
    case Docs(docs) =>
      match FirstWithKey(docs, key, id)
      case None => NoDocuments
      case Some(i) => if docs[i].decodable then FoundOne else FindFailed
  }

  /** `ValidateJobTypeById` / `ValidateRpById`: true exactly when the lookup
      reports that no document has the id; any other failure reads as
      "exists". */
  function ValidateById<T>(c: Collection<T>, key: T -> string, id: string): (valid: bool)
    ensures valid <==> c.Docs? && forall j :: 0 <= j < |c.docs| ==> key(c.docs[j].value) != id
  {
    FindOne(c, key, id) == NoDocuments
  }

  /** What `RemoveJobType` / `RemoveJobSet` / `RemoveResourcePool` do. */
  datatype RemoveOutcome<T> =
    | NilResultPanic                    // the delete failed and its nil result is dereferenced
    | Removed(notFound: bool, after: Collection<T>)

  /** Delete the first document with the id; report an error when there was
      none. */
  function RemoveById<T>(c: Collection<T>, key: T -> string, id: string): (o: RemoveOutcome<T>)
    ensures o.NilResultPanic? <==> c.Unreachable?
    ensures o.Removed? ==> (o.notFound <==> FirstWithKey(c.docs, key, id).None?)
    ensures o.Removed? && o.notFound ==> o.after == c
    ensures o.Removed? && !o.notFound ==>
      var i := FirstWithKey(c.docs, key, id).value;
      o.after == Docs(c.docs[..i] + c.docs[i + 1..])
  {
    match c
    case Unreachable => NilResultPanic
    case Docs(docs) =>
      match FirstWithKey(docs, key, id)
      case None => Removed(true, c)
      case Some(i) => Removed(false, Docs(docs[..i] + docs[i + 1..]))
  }

  /** A removed id is gone afterwards unless it was stored more than once,
      and the collection shrinks by exactly one document. */
  lemma RemoveShrinks<T>(c: Collection<T>, key: T -> string, id: string)
    requires c.Docs? && FirstWithKey(c.docs, key, id).Some?
    ensures RemoveById(c, key, id).Removed?
    ensures |RemoveById(c, key, id).after.docs| == |c.docs| - 1
    ensures (forall j, k :: 0 <= j < k < |c.docs| ==> key(c.docs[j].value) != key(c.docs[k].value))
            ==> ValidateById(RemoveById(c, key, id).after, key, id)
  {
    var i := FirstWithKey(c.docs, key, id).value;
    var after := c.docs[..i] + c.docs[i + 1..];
    if forall j, k :: 0 <= j < k < |c.docs| ==> key(c.docs[j].value) != key(c.docs[k].value) {
      forall j | 0 <= j < |after| ensures key(after[j].value) != id {
        if j < i {
          assert after[j] == c.docs[j];
        } else {
          assert after[j] == c.docs[j + 1];
        }
      }
    }
  }

  // ---------------------------------------------------------------------
  // Skip/limit cursor walk
  // ---------------------------------------------------------------------

  datatype QueryError = QueryFailed | DecodeFailed

  /** A list of records, or the error that aborted the query. */
  datatype Outcome<T> = Failed(err: QueryError) | Rows(items: seq<T>)

  function Max0(x: int): nat {
    if x < 0 then 0 else x
  }

  function MinInt(a: int, b: int): int {
    if a < b then a else b
  }

  /** Every document in `docs[lo..hi]` decodes. */
  predicate AllDecodable<T>(docs: seq<Doc<T>>, lo: int, hi: int)
    requires 0 <= lo <= hi <= |docs|
  {
    forall k :: lo <= k < hi ==> docs[k].decodable
  }

  /** The values of `docs[lo..hi]`. */
  function Values<T>(docs: seq<Doc<T>>, lo: int, hi: int): (vs: seq<T>)
    requires 0 <= lo <= hi <= |docs|
    ensures |vs| == hi - lo
    ensures forall k :: 0 <= k < hi - lo ==> vs[k] == docs[lo + k].value
  {
    seq(hi - lo, k requires 0 <= k < hi - lo => docs[lo + k].value)
  }

  /** The skip loop: advance over up to `remaining` documents, decoding each
      one, and stop early when the cursor runs out. */
  function SkipPhase<T>(docs: seq<Doc<T>>, pos: nat, remaining: int): (r: Option<nat>)
    requires pos <= |docs|
    ensures var stop := MinInt(pos + Max0(remaining), |docs|);
      (r.Some? <==> AllDecodable(docs, pos, stop)) && (r.Some? ==> r.value == stop)
    decreases |docs| - pos
  {
    if remaining <= 0 || pos == |docs| then Some(pos)
    else if !docs[pos].decodable then None
    else SkipPhase(docs, pos + 1, remaining - 1)
  }

  /** The read loop: decode and collect up to `remaining` documents. */
  function TakePhase<T>(docs: seq<Doc<T>>, pos: nat, remaining: int): (r: Option<seq<T>>)
    requires pos <= |docs|
    ensures var stop := MinInt(pos + Max0(remaining), |docs|);
      (r.Some? <==> AllDecodable(docs, pos, stop)) && (r.Some? ==> r.value == Values(docs, pos, stop))
    decreases |docs| - pos
  {
    if remaining <= 0 || pos == |docs| then Some([])
    else if !docs[pos].decodable then None
    else
      match TakePhase(docs, pos + 1, remaining - 1)
      case None => None
      case Some(rest) => Some([docs[pos].value] + rest)
  }

  /** The window a query answers: start after `skip` documents, stop after
      `limit` more or at the end. */
  function QueryWindow(n: nat, skip: int, limit: int): (w: (nat, nat))
    ensures w.0 <= w.1 <= n
    ensures w.1 - w.0 <= Max0(limit)
  {
    var start := MinInt(Max0(skip), n);
    (start, MinInt(start + Max0(limit), n))
  }

  /** `HandleJobTypeQueries`, `HandleJobSetQueries` and `HandleQueries`: the
      documents in the skip/limit window, or the error of the first failed
      step.  The page argument is accepted and ignored. */
  function HandleQueries<T>(cursor: Option<seq<Doc<T>>>, skip: int, page: int, limit: int): (o: Outcome<T>)
    requires IsInt32(skip) && IsInt32(page) && IsInt32(limit)
    ensures cursor.None? ==> o == Failed(QueryFailed)
    ensures cursor.Some? ==>
      var docs := cursor.value;
      var (lo, hi) := QueryWindow(|docs|, skip, limit);
      && (o.Failed? <==> !AllDecodable(docs, 0, hi))
      && (o.Failed? ==> o.err == DecodeFailed)
      && (o.Rows? ==> o.items == Values(docs, lo, hi))
  {
    match cursor
    case None => Failed(QueryFailed)
    case Some(docs) =>
      match SkipPhase(docs, 0, skip)
      case None => Failed(DecodeFailed)
      case Some(pos) =>
        match TakePhase(docs, pos, limit)
        case None => Failed(DecodeFailed)
        case Some(items) => Rows(items)
  }

  /** With every document decodable the answer is the slice
      `docs[skip .. min(skip + limit, n)]`, at most `limit` long, for any page. */
  lemma QueryIsSlice<T>(docs: seq<Doc<T>>, skip: int, page: int, limit: int)
    requires IsInt32(skip) && IsInt32(page) && IsInt32(limit)
    requires 0 <= skip <= |docs| && 0 <= limit
    requires forall k :: 0 <= k < |docs| ==> docs[k].decodable
    ensures var o := HandleQueries(Some(docs), skip, page, limit);
      && o.Rows?
      && |o.items| <= limit
      && o.items == Values(docs, skip, MinInt(skip + limit, |docs|))
      && o == HandleQueries(Some(docs), skip, 1, limit)
  {
  }

  // ---------------------------------------------------------------------
  // De-duplication
  // ---------------------------------------------------------------------

  /** `RemoveDuplicates` and its job-type and job-set twins: keep the first
      record for each id, in order; `seen` holds the ids already kept. */
  function DedupFrom<T>(items: seq<T>, key: T -> string, seen: set<string>): (r: seq<T>)
    ensures forall i :: 0 <= i < |r| ==> key(r[i]) !in seen
    ensures forall i, j :: 0 <= i < j < |r| ==> key(r[i]) != key(r[j])
  {
    if |items| == 0 then []
    else if key(items[0]) in seen then DedupFrom(items[1..], key, seen)
    else [items[0]] + DedupFrom(items[1..], key, seen + {key(items[0])})
  }

  /** The ids of a list of records. */
  function Ids<T>(items: seq<T>, key: T -> string): set<string> {
    set i | 0 <= i < |items| :: key(items[i])
  }

  lemma IdsCons<T>(x: T, t: seq<T>, key: T -> string)
    ensures Ids([x] + t, key) == {key(x)} + Ids(t, key)
  {
    var l := [x] + t;
    forall y | y in Ids(l, key) ensures y in {key(x)} + Ids(t, key) {
      var i :| 0 <= i < |l| && key(l[i]) == y;
      if i > 0 {
        assert l[i] == t[i - 1];
      }
    }
    forall y | y in Ids(t, key) ensures y in Ids(l, key) {
      var i :| 0 <= i < |t| && key(t[i]) == y;
      assert l[i + 1] == t[i];
    }
    assert key(l[0]) == key(x);
  }

  /** Exactly the ids not seen before survive, each once. */
  lemma {:induction false} DedupCovers<T>(items: seq<T>, key: T -> string, seen: set<string>)
    ensures Ids(DedupFrom(items, key, seen), key) == Ids(items, key) - seen
  {
    if |items| == 0 {
    } else {
      var h := key(items[0]);
      IdsCons(items[0], items[1..], key);
      assert items == [items[0]] + items[1..];
      if h in seen {
        DedupCovers(items[1..], key, seen);
      } else {
        var rest := DedupFrom(items[1..], key, seen + {h});
        DedupCovers(items[1..], key, seen + {h});
        IdsCons(items[0], rest, key);
      }
    }
  }

  /** The kept records appear in their original order. */
  lemma {:induction false} DedupSubsequence<T>(items: seq<T>, key: T -> string, seen: set<string>)
    ensures IsSubsequence(DedupFrom(items, key, seen), items)
  {
    if |items| > 0 {
      var h := key(items[0]);
      if h in seen {
        DedupSubsequence(items[1..], key, seen);
        SubsequenceOfTail(DedupFrom(items[1..], key, seen), items);
      } else {
        var rest := DedupFrom(items[1..], key, seen + {h});
        DedupSubsequence(items[1..], key, seen + {h});
        assert ([items[0]] + rest)[1..] == rest;
      }
    }
  }

  function Dedup<T>(items: seq<T>, key: T -> string): seq<T> {
    DedupFrom(items, key, {})
  }

  /** The first record for an id is the one kept. */
  lemma DedupKeepsFirst<T>(a: T, b: T, key: T -> string)
    requires key(a) == key(b)
    ensures Dedup([a, b], key) == [a]
  {
    assert [a, b][1..] == [b];
    assert [b][1..] == [];
    var seen: set<string> := {};
    assert DedupFrom([b], key, seen + {key(a)}) == [];
    assert Dedup([a, b], key) == [a] + DedupFrom([b], key, seen + {key(a)});
  }

  /** The `i`-th record is the first in `items` with its id, and that id is
      not in `seen`. */
  ghost predicate FirstOfItsId<T>(items: seq<T>, key: T -> string, seen: set<string>, j: int)
    requires 0 <= j < |items|
  {
    key(items[j]) !in seen && forall m :: 0 <= m < j ==> key(items[m]) != key(items[j])
  }

  /** The `k`-th record of `r` is, in `items`, the first record with its id,
      and that id is not in `seen`. */
  ghost predicate KeptAsFirst<T>(r: seq<T>, items: seq<T>, key: T -> string, seen: set<string>, k: int)
    requires 0 <= k < |r|
  {
    exists j :: 0 <= j < |items| && r[k] == items[j] && FirstOfItsId(items, key, seen, j)
  }

  /** Every kept record is the first occurrence of its id among the records
      whose id was not seen before. */
  lemma {:induction false} DedupFirstOccurrence<T>(items: seq<T>, key: T -> string, seen: set<string>)
    ensures forall k :: 0 <= k < |DedupFrom(items, key, seen)| ==> KeptAsFirst(DedupFrom(items, key, seen), items, key, seen, k)
  {
    if |items| == 0 {
      assert DedupFrom(items, key, seen) == [];
    } else {
      var h := key(items[0]);
      if h in seen {
        DedupFirstOccurrence(items[1..], key, seen);
        FirstOfIdShift(items, key, seen, seen, DedupFrom(items[1..], key, seen));
      } else {
        var rest := DedupFrom(items[1..], key, seen + {h});
        var r := [items[0]] + rest;
        DedupFirstOccurrence(items[1..], key, seen + {h});
        FirstOfIdShift(items, key, seen, seen + {h}, rest);
        assert DedupFrom(items, key, seen) == r;
        forall k | 0 <= k < |r|
          ensures KeptAsFirst(r, items, key, seen, k)
        {
          if k == 0 {
            assert FirstOfItsId(items, key, seen, 0);
          } else {
            assert r[k] == rest[k - 1];
            assert KeptAsFirst(rest, items, key, seen, k - 1);
          }
        }
      }
    }
  }

  /** Records that are first of their id in the tail, under `seen'`, are
      first of their id in the whole list, under `seen`, when `seen'` holds
      the head's id and `seen` is part of `seen'`. */
  lemma FirstOfIdShift<T>(items: seq<T>, key: T -> string, seen: set<string>, seen': set<string>, r: seq<T>)
    requires |items| > 0 && key(items[0]) in seen' && seen <= seen'
    requires forall k :: 0 <= k < |r| ==> KeptAsFirst(r, items[1..], key, seen', k)
    ensures forall k :: 0 <= k < |r| ==> KeptAsFirst(r, items, key, seen, k)
  {
    forall k | 0 <= k < |r|
      ensures KeptAsFirst(r, items, key, seen, k)
    {
      assert KeptAsFirst(r, items[1..], key, seen', k);
      var j' :| 0 <= j' < |items[1..]| && r[k] == items[1..][j'] && FirstOfItsId(items[1..], key, seen', j');
      assert forall m :: 1 <= m < j' + 1 ==> items[m] == items[1..][m - 1];
      assert r[k] == items[j' + 1] && FirstOfItsId(items, key, seen, j' + 1);
    }
  }

  /** A list whose ids are already distinct (and unseen) passes unchanged;
      hence de-duplication is idempotent. */
  lemma {:induction false} DedupOfDistinct<T>(items: seq<T>, key: T -> string, seen: set<string>)
    requires forall i, j :: 0 <= i < j < |items| ==> key(items[i]) != key(items[j])
    requires forall i :: 0 <= i < |items| ==> key(items[i]) !in seen
    ensures DedupFrom(items, key, seen) == items
  {
    if |items| > 0 {
      DedupOfDistinct(items[1..], key, seen + {key(items[0])});
      assert items == [items[0]] + items[1..];
    }
  }

  lemma DedupIdempotent<T>(items: seq<T>, key: T -> string)
    ensures Dedup(Dedup(items, key), key) == Dedup(items, key)
  {
    DedupOfDistinct(Dedup(items, key), key, {});
  }
}

=== FILE: setnx_lock.dfy ===
/** The standalone lock package: `Lock` is a plain `SETNX` with a timeout,
    `Unlock` the compare-and-delete script, and `TryLock` runs a guarded
    action between the two.  It shares the keyspace and the delete script
    with the `Redis` module; only its acquire step differs (it is not
    reentrant). */
module SetNxLock {
  import opened Common
  import opened Redis

  /** go-redis's `KeepTTL` sentinel duration. */
  const KeepTtl: int := -1

  /** The deadline `SetNX` attaches, for a duration in nanoseconds: none for
      zero or `KeepTTL`, otherwise the duration in whole milliseconds (at
      least one); any other negative duration is rejected by the server. */
  function SetNxDeadline(sec: int, now: int): (d: Option<Option<int>>)
    ensures d.None? <==> sec < 0 && sec != KeepTtl
    ensures sec > 0 ==> d.Some? && d.value.Some? && d.value.value > now
    ensures 0 < sec < 1_000_000 ==> d == Some(Some(now + 1))
    ensures sec >= 1_000_000 ==> d == Some(Some(now + sec / 1_000_000))
  {
    if sec == 0 || sec == KeepTtl then Some(None)
    else if sec < 0 then None
    else if sec < 1_000_000 then Some(Some(now + 1))
    else Some(Some(now + sec / 1_000_000))
  }

  /** The outcome of a Redis round trip: a value, or a client error. */
  datatype Outcome = Outcome(flag: bool, failed: bool, ks: Keyspace)

  /** `Lock`: set the key to `value` only when it is absent. */
  function Lock(ks: Keyspace, key: string, value: string, sec: int, now: int, up: bool): (o: Outcome)
    ensures o.flag <==> up && !Live(ks, key, now) && SetNxDeadline(sec, now).Some?
    ensures o.failed <==> !up || SetNxDeadline(sec, now).None?
    ensures o.flag ==> Get(o.ks, key, now) == Some(value)
    ensures o.flag ==> forall k :: k != key ==> (k in o.ks <==> k in ks) && (k in ks ==> o.ks[k] == ks[k])
    ensures !o.flag ==> o.ks == ks
  {
    if !up then Outcome(false, true, ks)
    else
      match SetNxDeadline(sec, now)
      case None => Outcome(false, true, ks)
      case Some(deadline) =>
        if Live(ks, key, now) then Outcome(false, false, ks)
        else Outcome(true, false, ks[key := Entry(value, deadline)])
  }

  /** `Unlock`: true exactly when the key held `value` and was deleted. */
  function Unlock(ks: Keyspace, key: string, value: string, now: int, up: bool): (o: Outcome)
    ensures o.flag <==> up && Get(ks, key, now) == Some(value)
    ensures o.failed <==> !up
    ensures o.flag ==> o.ks == ks - {key} && !Live(o.ks, key, now)
    ensures !o.flag ==> o.ks == ks
  {
    if !up then Outcome(false, true, ks)
    else
      var (reply, ks') := DelScript(ks, key, value, now);
      Outcome(reply == IntReply(1), false, ks')
  }

  /** What `TryLock` reports and leaves behind. */
  datatype Guarded = Guarded(acquired: bool, failed: bool, ranAction: bool, ks: Keyspace)

  /** `TryLock`: acquire with `SETNX`; run the action only when that
      succeeded; in every case run the deferred token-checked delete.
      `actionFails` is the action's error; its effects on Redis are not
      modelled. */
  function TryLock(ks: Keyspace, key: string, value: string, sec: int, now: int, up: bool, actionFails: bool)
    : (g: Guarded)
    ensures g.ranAction <==> Lock(ks, key, value, sec, now, up).flag
    ensures g.acquired <==> g.ranAction
    ensures g.failed <==> (if g.ranAction then actionFails else Lock(ks, key, value, sec, now, up).failed)
    ensures g.ks == Unlock(Lock(ks, key, value, sec, now, up).ks, key, value, now, up).ks
  {
    var acquire := Lock(ks, key, value, sec, now, up);
    var released := Unlock(acquire.ks, key, value, now, up).ks;
    if !acquire.flag then Guarded(false, acquire.failed, false, released)
    else Guarded(true, actionFails, true, released)
  }

  /** A successful guarded run leaves the key free again: the lock is
      released on the way out. */
  lemma TryLockReleases(ks: Keyspace, key: string, value: string, sec: int, now: int, actionFails: bool)
    requires TryLock(ks, key, value, sec, now, true, actionFails).acquired
    ensures !Live(TryLock(ks, key, value, sec, now, true, actionFails).ks, key, now)
    ensures TryLock(ks, key, value, sec, now, true, actionFails).ks == ks - {key}
  {
    var acquire := Lock(ks, key, value, sec, now, true);
    assert Get(acquire.ks, key, now) == Some(value);
    assert acquire.ks - {key} == ks - {key};
  }

  /** While another holder's lock is live, `TryLock` neither runs the action
      nor disturbs that holder. */
  lemma TryLockRespectsHolder(ks: Keyspace, key: string, value: string, sec: int, now: int, actionFails: bool)
    requires Live(ks, key, now) && ks[key].value != value
    ensures var g := TryLock(ks, key, value, sec, now, true, actionFails);
      !g.acquired && !g.ranAction && g.ks == ks
  {
  }

  /** A caller that already holds the key with the same value is refused,
      yet the deferred delete still removes its own lock. */
  lemma TryLockDropsOwnLock(ks: Keyspace, key: string, value: string, sec: int, now: int, actionFails: bool)
    requires Live(ks, key, now) && ks[key].value == value
    ensures var g := TryLock(ks, key, value, sec, now, true, actionFails);
      !g.acquired && !g.ranAction && !Live(g.ks, key, now)
  {
  }

  /** Two callers on one key: the second `Lock` fails until the first
      unlocks, after which it succeeds. */
  lemma LockIsExclusive(ks: Keyspace, key: string, a: string, b: string, sec: int, now: int)
    requires !Live(ks, key, now) && sec > 0
    ensures var held := Lock(ks, key, a, sec, now, true);
      held.flag
      && !Lock(held.ks, key, b, sec, now, true).flag
      && Lock(Unlock(held.ks, key, a, now, true).ks, key, b, sec, now, true).flag
  {
  }
}

=== FILE: slices.dfy ===
/** The generic slice helpers of the utility package: membership, a left
    fold with indexes, last-occurrence de-duplication, the `Top` selector
    behind `Min` and `Max`, the sorted `Diff` of two lists, `SafeSlice` and
    `Reverse`.  The ordered helpers are modelled on `int`. */
module Slices {
  import opened Common

  // ---------------------------------------------------------------------
  // InSlice, Reduce
  // ---------------------------------------------------------------------

  /** `InSlice`: a linear scan for `e`. */
  function InSlice<T(==)>(e: T, a: seq<T>): (found: bool)
    ensures found <==> e in a
  {
    if |a| == 0 then false
    else if a[0] == e then true
    else
      var rest := InSlice(e, a[1..]);
      assert a == [a[0]] + a[1..];
      rest
  }

  /** Membership found by the scan is witnessed by an index. */
  lemma InSliceIndex<T>(e: T, a: seq<T>)
    ensures InSlice(e, a) <==> exists i :: 0 <= i < |a| && a[i] == e
  {
  }

  /** The fold of `s[from..]`, each step seeing the element's index in `s`. */
  function ReduceFrom<T, M>(s: seq<T>, from: nat, acc: M, f: (M, int, T) -> M): M
    requires from <= |s|
    decreases |s| - from
  {
    if from == |s| then acc else ReduceFrom(s, from + 1, f(acc, from, s[from]), f)
  }

  /** `Reduce`: the left fold of `s` from `initValue`. */
  function Reduce<T, M>(s: seq<T>, initValue: M, f: (M, int, T) -> M): M {
    ReduceFrom(s, 0, initValue, f)
  }

  /** Folding a sequence extended by one element applies one more step to
      the fold of the original, at the new element's index. */
  lemma {:induction false} ReduceFromSnoc<T, M>(s: seq<T>, x: T, from: nat, acc: M, f: (M, int, T) -> M)
    requires from <= |s|
    ensures ReduceFrom(s + [x], from, acc, f) == f(ReduceFrom(s, from, acc, f), |s|, x)
    decreases |s| - from
  {
    if from < |s| {
      assert (s + [x])[from] == s[from];
      ReduceFromSnoc(s, x, from + 1, f(acc, from, s[from]), f);
    }
  }

  /** `Reduce` is a left fold: the empty slice gives the initial value and
      each appended element is folded in last. */
  lemma ReduceIsLeftFold<T, M>(s: seq<T>, x: T, initValue: M, f: (M, int, T) -> M)
    ensures Reduce([], initValue, f) == initValue
    ensures Reduce(s + [x], initValue, f) == f(Reduce(s, initValue, f), |s|, x)
  {
    ReduceFromSnoc(s, x, 0, initValue, f);
  }

  /** Appending the indexes of a slice with an offset, as `Diff` uses
      `Reduce` to flush a tail, yields the offset run. */
  lemma ReduceCollectsIndexes(s: seq<int>, r: seq<int>, offset: int)
    ensures Reduce(s, r, (acc: seq<int>, i: int, e: int) => acc + [offset + i])
         == r + seq(|s|, i => offset + i)
  {
    var f := (acc: seq<int>, i: int, e: int) => acc + [offset + i];
    CollectFrom(s, 0, r, offset);
  }

  lemma {:induction false} CollectFrom(s: seq<int>, from: nat, acc: seq<int>, offset: int)
    requires from <= |s|
    ensures ReduceFrom(s, from, acc, (a: seq<int>, i: int, e: int) => a + [offset + i])
         == acc + seq(|s| - from, i => offset + from + i)
    decreases |s| - from
  {
    var f := (a: seq<int>, i: int, e: int) => a + [offset + i];
    if from < |s| {
      CollectFrom(s, from + 1, acc + [offset + from], offset);
      assert [offset + from] + seq(|s| - from - 1, i => offset + from + 1 + i)
          == seq(|s| - from, i => offset + from + i);
    }
  }

  // ---------------------------------------------------------------------
  // Unique
  // ---------------------------------------------------------------------

  /** `Unique`: keep an element only when it does not occur again later, so
      the last occurrence of each value survives. */
  function Unique<T(==)>(a: seq<T>): (r: seq<T>)
    ensures |r| <= |a|
  {
    if |a| == 0 then []
    else (if InSlice(a[0], a[1..]) then [] else [a[0]]) + Unique(a[1..])
  }

  predicate NoDuplicates<T(==)>(s: seq<T>) {
    forall i, j :: 0 <= i < j < |s| ==> s[i] != s[j]
  }

  /** `Unique` keeps every value of the input and invents none. */
  lemma {:induction false} UniqueSameElements<T>(a: seq<T>)
    ensures forall i :: 0 <= i < |a| ==> a[i] in Unique(a)
    ensures forall i :: 0 <= i < |Unique(a)| ==> Unique(a)[i] in a
  {
    if |a| > 0 {
      UniqueSameElements(a[1..]);
      var rest := Unique(a[1..]);
      var head := if InSlice(a[0], a[1..]) then [] else [a[0]];
      assert Unique(a) == head + rest;
      forall i | 0 <= i < |a| ensures a[i] in Unique(a) {
        if i > 0 {
          assert a[i] == a[1..][i - 1];
        } else if InSlice(a[0], a[1..]) {
          var k :| 0 <= k < |a[1..]| && a[1..][k] == a[0];
        }
      }
      forall i | 0 <= i < |Unique(a)| ensures Unique(a)[i] in a {
        if i >= |head| {
          assert Unique(a)[i] == rest[i - |head|];
        }
      }
    }
  }

  /** `Unique` leaves no value twice. */
  lemma {:induction false} UniqueDistinct<T>(a: seq<T>)
    ensures NoDuplicates(Unique(a))
  {
    if |a| > 0 {
      UniqueDistinct(a[1..]);
      UniqueSameElements(a[1..]);
      var rest := Unique(a[1..]);
      if !InSlice(a[0], a[1..]) {
        assert a[0] !in rest;
        assert Unique(a) == [a[0]] + rest;
        forall i, j | 0 <= i < j < |Unique(a)| ensures Unique(a)[i] != Unique(a)[j] {
          if i == 0 {
            assert Unique(a)[j] == rest[j - 1];
          } else {
            assert Unique(a)[i] == rest[i - 1] && Unique(a)[j] == rest[j - 1];
          }
        }
      }
    }
  }

  /** `Unique` keeps the survivors in their original order. */
  lemma {:induction false} UniqueSubsequence<T>(a: seq<T>)
    ensures IsSubsequence(Unique(a), a)
  {
    if |a| > 0 {
      UniqueSubsequence(a[1..]);
      var rest := Unique(a[1..]);
      if InSlice(a[0], a[1..]) {
        assert Unique(a) == [] + rest == rest;
        SubsequenceOfTail(rest, a);
      } else {
        assert Unique(a) == [a[0]] + rest;
        assert ([a[0]] + rest)[1..] == rest;
      }
    }
  }

  /** All elements of `s` other than `x`, in order. */
  function Without<T(==)>(s: seq<T>, x: T): seq<T>
  {
    if |s| == 0 then []
    else (if s[0] == x then [] else [s[0]]) + Without(s[1..], x)
  }

  /** Last occurrence wins: appending `x` moves `x` to the end of the
      de-duplicated list and leaves the other survivors in place. */
  lemma {:induction false} UniqueKeepsLast<T>(a: seq<T>, x: T)
    ensures Unique(a + [x]) == Without(Unique(a), x) + [x]
  {
    if |a| == 0 {
      assert a + [x] == [x];
      assert Unique([x]) == [x] + Unique([x][1..]);
    } else {
      UniqueKeepsLast(a[1..], x);
      assert a == [a[0]] + a[1..];
      if InSlice(a[0], a[1..]) {
        UniqueSnocRepeated(a[0], a[1..], x);
      } else if a[0] == x {
        UniqueSnocSame(a[1..], x);
      } else {
        UniqueSnocFresh(a[0], a[1..], x);
      }
    }
  }

  /** One step of `Unique`: the head survives unless it recurs. */
  lemma UniqueUnfold<T>(h: T, t: seq<T>)
    ensures Unique([h] + t) == (if InSlice(h, t) then [] else [h]) + Unique(t)
  {
    assert ([h] + t)[0] == h && ([h] + t)[1..] == t;
  }

  /** The inductive step when the head recurs later in `a`. */
  lemma UniqueSnocRepeated<T>(h: T, t: seq<T>, x: T)
    requires InSlice(h, t)
    requires Unique(t + [x]) == Without(Unique(t), x) + [x]
    ensures Unique([h] + t + [x]) == Without(Unique([h] + t), x) + [x]
  {
    InSliceExtend(h, t, x);
    assert [h] + t + [x] == [h] + (t + [x]);
    UniqueUnfold(h, t + [x]);
    UniqueUnfold(h, t);
    assert Unique([h] + (t + [x])) == [] + Unique(t + [x]) == Unique(t + [x]);
    assert Unique([h] + t) == [] + Unique(t) == Unique(t);
  }

  /** The inductive step when the head is `x` and occurs nowhere else. */
  lemma UniqueSnocSame<T>(t: seq<T>, x: T)
    requires !InSlice(x, t)
    requires Unique(t + [x]) == Without(Unique(t), x) + [x]
    ensures Unique([x] + t + [x]) == Without(Unique([x] + t), x) + [x]
  {
    assert (t + [x])[|t|] == x;
    assert InSlice(x, t + [x]);
    assert [x] + t + [x] == [x] + (t + [x]);
    UniqueUnfold(x, t + [x]);
    UniqueUnfold(x, t);
    WithoutCons(x, Unique(t), x);
  }

  /** The inductive step when the head differs from `x` and does not recur. */
  lemma UniqueSnocFresh<T>(h: T, t: seq<T>, x: T)
    requires !InSlice(h, t) && h != x
    requires Unique(t + [x]) == Without(Unique(t), x) + [x]
    ensures Unique([h] + t + [x]) == Without(Unique([h] + t), x) + [x]
  {
    assert !InSlice(h, t + [x]);
    assert [h] + t + [x] == [h] + (t + [x]);
    UniqueUnfold(h, t + [x]);
    UniqueUnfold(h, t);
    WithoutCons(h, Unique(t), x);
  }

  lemma InSliceExtend<T>(e: T, a: seq<T>, x: T)
    requires InSlice(e, a)
    ensures InSlice(e, a + [x])
  {
    var i :| 0 <= i < |a| && a[i] == e;
    assert (a + [x])[i] == e;
  }

  lemma WithoutCons<T>(h: T, s: seq<T>, x: T)
    ensures Without([h] + s, x) == (if h == x then [] else [h]) + Without(s, x)
  {
    assert ([h] + s)[1..] == s;
  }

  /** A list without duplicates is its own `Unique`; hence `Unique` is
      idempotent. */
  lemma {:induction false} UniqueOfDistinct<T>(a: seq<T>)
    requires NoDuplicates(a)
    ensures Unique(a) == a
  {
    if |a| > 0 {
      assert a[0] !in a[1..];
      UniqueOfDistinct(a[1..]);
      assert Unique(a) == [a[0]] + a[1..];
    }
  }

  lemma UniqueIdempotent<T>(a: seq<T>)
    ensures Unique(Unique(a)) == Unique(a)
  {
    UniqueDistinct(a);
    UniqueOfDistinct(Unique(a));
  }

  /** The survivors appear in the order of their last occurrences. */
  lemma UniqueExample()
    ensures Unique([1, 2, 1, 3, 2]) == [1, 3, 2]
  {
    assert InSlice(1, [2, 1, 3, 2]);
    assert InSlice(2, [1, 3, 2]);
    assert !InSlice(1, [3, 2]);
    assert [1, 2, 1, 3, 2][1..] == [2, 1, 3, 2];
    assert [2, 1, 3, 2][1..] == [1, 3, 2];
    assert [1, 3, 2][1..] == [3, 2];
    assert [3, 2][1..] == [2];
  }

  // ---------------------------------------------------------------------
  // Top, Min, Max
  // ---------------------------------------------------------------------

  /** The loop of `Top` over the variadic tail: replace the candidate
      whenever `fn(candidate, e)` holds. */
  function TopOf(fn: (int, int) -> bool, ret: int, etc: seq<int>): (r: int)
    ensures r == ret || r in etc
    decreases |etc|
  {
    if |etc| == 0 then ret
    else TopOf(fn, if fn(ret, etc[0]) then etc[0] else ret, etc[1..])
  }

  /** `Top(fn, e1, e2, etc...)`. */
  function Top(fn: (int, int) -> bool, e1: int, e2: int, etc: seq<int>): (r: int)
    ensures r in [e1, e2] + etc
  {
    TopOf(fn, if fn(e1, e2) then e2 else e1, etc)
  }

  /** For an ordering `fn` ("the second beats the first"), the winner is
      beaten by none of the candidates. */
  lemma {:induction false} TopOfUnbeaten(fn: (int, int) -> bool, ret: int, etc: seq<int>)
    requires forall x :: !fn(x, x)
    requires forall x, y, z :: fn(x, y) && fn(y, z) ==> fn(x, z)
    requires forall x, y :: !fn(x, y) && !fn(y, x) ==> x == y
    ensures var r := TopOf(fn, ret, etc);
      !fn(r, ret) && forall e :: e in etc ==> !fn(r, e)
    decreases |etc|
  {
    if |etc| > 0 {
      var next := if fn(ret, etc[0]) then etc[0] else ret;
      TopOfUnbeaten(fn, next, etc[1..]);
    }
  }

  /** `Min`: a least argument. */
  function Min(i: int, j: int, etc: seq<int>): (r: int)
    ensures r in [i, j] + etc
    ensures r <= i && r <= j && forall e :: e in etc ==> r <= e
  {
    var less := (x: int, y: int) => y < x;
    TopOfUnbeaten(less, if less(i, j) then j else i, etc);
    Top(less, i, j, etc)
  }

  /** `Max`: a greatest argument. */
  function Max(i: int, j: int, etc: seq<int>): (r: int)
    ensures r in [i, j] + etc
    ensures r >= i && r >= j && forall e :: e in etc ==> r >= e
  {
    var greater := (x: int, y: int) => y > x;
    TopOfUnbeaten(greater, if greater(i, j) then j else i, etc);
    Top(greater, i, j, etc)
  }

  /** `Min` and `Max` agree with each other on reversed order: the minimum
      of the arguments is the negated maximum of their negations. */
  lemma MinIsNegatedMax(i: int, j: int, etc: seq<int>)
    ensures Min(i, j, etc) == -Max(-i, -j, seq(|etc|, k requires 0 <= k < |etc| => -etc[k]))
  {
    var neg := seq(|etc|, k requires 0 <= k < |etc| => -etc[k]);
    var m := Max(-i, -j, neg);
    var n := Min(i, j, etc);
    assert forall e :: e in etc ==> -e in neg by {
      forall e | e in etc ensures -e in neg {
        var k :| 0 <= k < |etc| && etc[k] == e;
        assert neg[k] == -e;
      }
    }
    assert -n in [-i, -j] + neg by {
      if n !in [i, j] {
        var k :| 0 <= k < |etc| && etc[k] == n;
        assert neg[k] == -n;
      }
    }
    assert -m in [i, j] + etc by {
      if m !in [-i, -j] {
        var k :| 0 <= k < |neg| && neg[k] == m;
        assert etc[k] == -m;
      }
    }
  }

  // ---------------------------------------------------------------------
  // Sorting and Diff
  // ---------------------------------------------------------------------

  predicate Sorted(s: seq<int>) {
    forall i, j :: 0 <= i < j < |s| ==> s[i] <= s[j]
  }

  /** Insert `x` into a sorted list. */
  function Insert(x: int, s: seq<int>): (r: seq<int>)
    requires Sorted(s)
    ensures Sorted(r)
    ensures multiset(r) == multiset(s) + multiset{x}
  {
    if |s| == 0 then [x]
    else if x <= s[0] then [x] + s
    else
      var rest := Insert(x, s[1..]);
      assert s == [s[0]] + s[1..];
      BelowAll(s[0], x, s[1..], rest);
      SortedCons(s[0], rest);
      [s[0]] + rest
  }

  /** A lower bound of `t` and of `x` bounds any arrangement of them. */
  lemma BelowAll(h: int, x: int, t: seq<int>, rest: seq<int>)
    requires h <= x && forall k :: 0 <= k < |t| ==> h <= t[k]
    requires multiset(rest) == multiset(t) + multiset{x}
    ensures forall k :: 0 <= k < |rest| ==> h <= rest[k]
  {
    forall k | 0 <= k < |rest| ensures h <= rest[k] {
      assert rest[k] in multiset(rest);
      if rest[k] != x {
        assert rest[k] in multiset(t);
        var j :| 0 <= j < |t| && t[j] == rest[k];
      }
    }
  }

  /** A lower bound put in front of a sorted list keeps it sorted. */
  lemma SortedCons(h: int, rest: seq<int>)
    requires Sorted(rest) && forall k :: 0 <= k < |rest| ==> h <= rest[k]
    ensures Sorted([h] + rest)
  {
    var r := [h] + rest;
    forall i, j | 0 <= i < j < |r| ensures r[i] <= r[j] {
      if i > 0 {
        assert r[i] == rest[i - 1] && r[j] == rest[j - 1];
      } else {
        assert r[j] == rest[j - 1];
      }
    }
  }

  /** The ascending order `sort.Slice` gives a list of integers. */
  function Sort(s: seq<int>): (r: seq<int>)
    ensures Sorted(r)
    ensures multiset(r) == multiset(s)
    ensures |r| == |s|
  {
    if |s| == 0 then []
    else
      assert s == [s[0]] + s[1..];
      Insert(s[0], Sort(s[1..]))
  }

  /** The multiset of the values at the given indexes. */
  function ValuesAt(s: seq<int>, idx: seq<int>): multiset<int>
    requires forall k :: 0 <= k < |idx| ==> 0 <= idx[k] < |s|
  {
    if |idx| == 0 then multiset{}
    else multiset{s[idx[0]]} + ValuesAt(s, idx[1..])
  }

  /** The indexes are strictly increasing and all lie in `[lo, hi)`. */
  predicate AscendingIn(idx: seq<int>, lo: int, hi: int) {
    (forall k :: 0 <= k < |idx| ==> lo <= idx[k] < hi)
    && forall k, l :: 0 <= k < l < |idx| ==> idx[k] < idx[l]
  }

  /** The merge walk of `Diff` over sorted lists from positions `x` and `y`:
      equal heads advance together, a smaller new head is added, a smaller
      current head is removed; the first exhausted side flushes the other. */
  function Walk(n: seq<int>, c: seq<int>, x: nat, y: nat): (res: (seq<int>, seq<int>))
    requires x <= |n| && y <= |c|
    requires Sorted(n) && Sorted(c)
    ensures AscendingIn(res.0, x, |n|) && AscendingIn(res.1, y, |c|)
    decreases |n| - x + |c| - y
  {
    if x == |n| then
      var none: seq<int> := [];
      (none, Span(y, |c|))
    else if y == |c| then
      (Span(x, |n|), [])
    else if n[x] == c[y] then
      Walk(n, c, x + 1, y + 1)
    else if n[x] < c[y] then
      var rest := Walk(n, c, x + 1, y);
      ([x] + rest.0, rest.1)
    else
      var rest := Walk(n, c, x, y + 1);
      (rest.0, [y] + rest.1)
  }

  /** The walk reports, by index, exactly the surplus of each side over the
      other, counting repeats. */
  lemma {:induction false} WalkValues(n: seq<int>, c: seq<int>, x: nat, y: nat)
    requires x <= |n| && y <= |c|
    requires Sorted(n) && Sorted(c)
    ensures ValuesAt(n, Walk(n, c, x, y).0) == multiset(n[x..]) - multiset(c[y..])
    ensures ValuesAt(c, Walk(n, c, x, y).1) == multiset(c[y..]) - multiset(n[x..])
    decreases |n| - x + |c| - y
  {
    var res := Walk(n, c, x, y);
    if x == |n| {
      FlushValues(c, y);
    } else if y == |c| {
      FlushValues(n, x);
    } else if n[x] == c[y] {
      WalkValues(n, c, x + 1, y + 1);
      StepBoth(n, c, x, y);
    } else if n[x] < c[y] {
      var rest := Walk(n, c, x + 1, y);
      WalkValues(n, c, x + 1, y);
      StepNew(n, c, x, y);
      assert ([x] + rest.0)[1..] == rest.0;
    } else {
      var rest := Walk(n, c, x, y + 1);
      WalkValues(n, c, x, y + 1);
      StepNew(c, n, y, x);
      assert ([y] + rest.1)[1..] == rest.1;
    }
  }

  /** The indexes `lo, lo+1, …, hi-1`. */
  function Span(lo: nat, hi: nat): (r: seq<int>)
    requires lo <= hi
    ensures AscendingIn(r, lo, hi) && |r| == hi - lo
    decreases hi - lo
  {
    if lo == hi then [] else [lo] + Span(lo + 1, hi)
  }

  /** Flushing a tail collects exactly its values. */
  lemma {:induction false} FlushValues(s: seq<int>, from: nat)
    requires from <= |s|
    ensures ValuesAt(s, Span(from, |s|)) == multiset(s[from..])
    decreases |s| - from
  {
    if from < |s| {
      FlushValues(s, from + 1);
      ValuesAtCons(s, from, Span(from + 1, |s|));
      TailMultiset(s, from);
    }
  }

  lemma ValuesAtCons(s: seq<int>, a: int, t: seq<int>)
    requires 0 <= a < |s| && forall k :: 0 <= k < |t| ==> 0 <= t[k] < |s|
    ensures ValuesAt(s, [a] + t) == multiset{s[a]} + ValuesAt(s, t)
  {
    assert ([a] + t)[1..] == t;
  }

  lemma TailMultiset(s: seq<int>, from: nat)
    requires from < |s|
    ensures multiset(s[from..]) == multiset{s[from]} + multiset(s[from + 1..])
  {
    assert s[from..] == [s[from]] + s[from + 1..];
  }

  /** Equal heads cancel out of both differences. */
  lemma StepBoth(n: seq<int>, c: seq<int>, x: nat, y: nat)
    requires x < |n| && y < |c| && n[x] == c[y]
    ensures multiset(n[x..]) - multiset(c[y..]) == multiset(n[x + 1..]) - multiset(c[y + 1..])
    ensures multiset(c[y..]) - multiset(n[x..]) == multiset(c[y + 1..]) - multiset(n[x + 1..])
  {
    assert n[x..] == [n[x]] + n[x + 1..];
    assert c[y..] == [c[y]] + c[y + 1..];
  }

  /** A head smaller than everything left on the other sorted side is in
      the difference on its own side and absent from the other. */
  lemma StepNew(n: seq<int>, c: seq<int>, x: nat, y: nat)
    requires x < |n| && y < |c| && n[x] < c[y] && Sorted(c)
    ensures multiset(n[x..]) - multiset(c[y..]) == multiset{n[x]} + (multiset(n[x + 1..]) - multiset(c[y..]))
    ensures multiset(c[y..]) - multiset(n[x..]) == multiset(c[y..]) - multiset(n[x + 1..])
  {
    assert n[x..] == [n[x]] + n[x + 1..];
    assert n[x] !in c[y..];
    assert multiset(c[y..])[n[x]] == 0;
  }

  /** What `Diff` returns, and the caller's two slices, which it sorts in
      place. */
  datatype DiffResult = DiffResult(added: seq<int>, removed: seq<int>, newest: seq<int>, current: seq<int>)

  /** `Diff`: sort both lists, then report the indexes (into the sorted
      lists) of the values only `newest` has and of those only `current`
      has, counting repeats. */
  function Diff(newest: seq<int>, current: seq<int>): (d: DiffResult)
    ensures d.newest == Sort(newest) && d.current == Sort(current)
    ensures AscendingIn(d.added, 0, |newest|) && AscendingIn(d.removed, 0, |current|)
    ensures ValuesAt(d.newest, d.added) == multiset(newest) - multiset(current)
    ensures ValuesAt(d.current, d.removed) == multiset(current) - multiset(newest)
  {
    var n := Sort(newest);
    var c := Sort(current);
    var (added, removed) := Walk(n, c, 0, 0);
    WalkValues(n, c, 0, 0);
    assert n[0..] == n && c[0..] == c;
    DiffResult(added, removed, n, c)
  }

  // ---------------------------------------------------------------------
  // SafeSlice, Reverse
  // ---------------------------------------------------------------------

  /** `SafeSlice`: a nil `*[]T` reads as the empty slice. */
  function SafeSlice<T>(s: Option<seq<T>>): (r: seq<T>)
    ensures s.None? ==> r == []
    ensures s.Some? ==> r == s.value
  {
    match s
    case None => []
    case Some(v) => v
  }

  /** `Reverse`: the elements from last to first, appended one at a time. */
  function Reverse<T>(arr: seq<T>): (r: seq<T>)
    ensures |r| == |arr|
    ensures forall i :: 0 <= i < |arr| ==> r[i] == arr[|arr| - 1 - i]
  {
    if |arr| == 0 then []
    else [arr[|arr| - 1]] + Reverse(arr[..|arr| - 1])
  }

  /** Reversing twice gives back the slice. */
  lemma ReverseInvolution<T>(arr: seq<T>)
    ensures Reverse(Reverse(arr)) == arr
  {
  }
}

=== FILE: struct_validator.dfy ===
/** The configuration-template validator: a template names a type for
    each configuration entry ("Boolean", "Numerical", "String", nested
    maps or lists of type names); a configuration is checked against it
    for required '#'-prefixed keys and for the types of the entries.

    Each check is written twice: a declarative predicate saying what a
    valid template or configuration is, and a method following the loops
    of the source, proved to agree with it.  Go's reflection panics (a
    nil value, an empty key, a type assertion that fails) are excluded by
    the `requires` clauses. */
module StructValidator {

  /** A decoded dynamic value, by the reflection kind the validator
      inspects. */
  datatype Any =
    | Nil
    | Str(s: string)
    | Float(f: real)
    | Int(i: int)
    | Bool(b: bool)
    | List(items: seq<Any>)
    | Map(m: map<string, Any>)

  const TypeNames: set<string> := {"Boolean", "Numerical", "String"}

  // ---------------------------------------------------------------------
  // Templates
  // ---------------------------------------------------------------------

  /** `validateTemplateString`. */
  function ValidateTemplateString(element: string): (ok: bool)
    ensures ok <==> element in TypeNames
  {
    !(element != "Boolean" && element != "Numerical" && element != "String")
  }

  /** A valid template element: a type name, a map of valid elements, or a
      list of type names. */
  predicate ValidElement(e: Any) {
    match e
    case Str(s) => s in TypeNames
    case Map(m) => forall k :: k in m ==> ValidElement(m[k])
    case List(items) => forall i :: 0 <= i < |items| ==> items[i].Str? && items[i].s in TypeNames
    case _ => false
  }

  /** No nil value anywhere: reflection on a nil value panics. */
  predicate NoNil(e: Any) {
    match e
    case Nil => false
    case Map(m) => forall k :: k in m ==> NoNil(m[k])
    case List(items) => forall i :: 0 <= i < |items| ==> NoNil(items[i])
    case _ => true
  }

  /** `validateTemplateArray`: every element is a string naming a type.  A
      nil element panics when the loop reaches it, so one may only follow an
      element that already stopped the loop. */
  method ValidateTemplateArray(items: seq<Any>) returns (ok: bool)
    requires forall i :: 0 <= i < |items| && items[i] == Nil ==>
      exists j :: 0 <= j < i && !(items[j].Str? && items[j].s in TypeNames)
    ensures ok <==> forall i :: 0 <= i < |items| ==> items[i].Str? && items[i].s in TypeNames
  {
    var i := 0;
    while i < |items|
      invariant 0 <= i <= |items|
      invariant forall j :: 0 <= j < i ==> items[j].Str? && items[j].s in TypeNames
    {
      if items[i].Str? {
        var valid := ValidateTemplateString(items[i].s);
        if !valid {
          return false;
        }
      } else {
        return false;
      }
      i := i + 1;
    }
    return true;
  }

  /** `validateTemplateElement`. */
  method ValidateTemplateElement(e: Any) returns (ok: bool)
    requires NoNil(e)
    ensures ok <==> ValidElement(e)
    decreases e
  {
    match e {
      case Str(s) =>
        ok := ValidateTemplateString(s);
      case Map(m) =>
        ok := true;
        var rest := m.Keys;
        while rest != {}
          invariant rest <= m.Keys
          invariant forall k :: k in m && k !in rest ==> ValidElement(m[k])
          decreases |rest|
        {
          var k :| k in rest;
          var valid := ValidateTemplateElement(m[k]);
          if !valid {
            return false;
          }
          rest := rest - {k};
        }
      case List(items) =>
        ok := ValidateTemplateArray(items);
      case _ =>
        ok := false;
    }
  }

  /** `ValidateTemplate`: every value of the template is a valid element. */
  method ValidateTemplate(configuration: map<string, Any>) returns (ok: bool)
    requires forall k :: k in configuration ==> NoNil(configuration[k])
    ensures ok <==> forall k :: k in configuration ==> ValidElement(configuration[k])
  {
    var rest := configuration.Keys;
    while rest != {}
      invariant rest <= configuration.Keys
      invariant forall k :: k in configuration && k !in rest ==> ValidElement(configuration[k])
      decreases |rest|
    {
      var k :| k in rest;
      var valid := ValidateTemplateElement(configuration[k]);
      if !valid {
        return false;
      }
      rest := rest - {k};
    }
    return true;
  }

  /** Scalars other than type names are never template elements, and a
      nested map is valid exactly when its values are. */
  lemma TemplateShapes(x: real, n: int, b: bool, m: map<string, Any>)
    ensures !ValidElement(Float(x)) && !ValidElement(Int(n)) && !ValidElement(Bool(b))
    ensures ValidElement(Map(m)) <==> forall k :: k in m ==> ValidElement(m[k])
    ensures ValidElement(List([Str("String"), Str("Numerical")]))
    ensures !ValidElement(List([Str("String"), List([])]))
    ensures !ValidElement(Str("Integer"))
  {
    assert List([Str("String"), List([])]).items[1] == List([]);
  }

  // ---------------------------------------------------------------------
  // Required keys
  // ---------------------------------------------------------------------

  /** A key whose first byte is '#'. The source reads that byte, which
      panics on an empty key; `KeySafe` rules out the empty keys it reaches. */
  predicate Required(key: string) {
    |key| > 0 && key[0] == '#'
  }

  /** The configuration `c` holds the required key `key` of the template
      element `e`: present, and for a map element, its own required keys
      present in the configuration's value, recursively. */
  predicate KeyHolds(key: string, e: Any, c: map<string, Any>)
    decreases e
  {
    !Required(key)
    || (key in c
        && (e.Map? ==> forall k :: k in e.m ==> c[key].Map? && KeyHolds(k, e.m[k], c[key].m)))
  }

  /** The source does not panic on the keys it reaches: each is non-empty,
      a required one is not nil, and a required map element with entries
      that is present has a map as its configuration value. A nested key is
      reached only under a present required map key; keys below any other
      key are never read, empty or not. */
  predicate KeySafe(key: string, e: Any, c: map<string, Any>)
    decreases e
  {
    && key != ""
    && (Required(key) ==>
          && e != Nil
          && (e.Map? && key in c && |e.m| > 0 ==>
                c[key].Map? && forall k :: k in e.m ==> KeySafe(k, e.m[k], c[key].m)))
  }

  /** `validateConfigurationKey`. */
  method ValidateConfigurationKey(key: string, e: Any, c: map<string, Any>) returns (ok: bool)
    requires KeySafe(key, e, c)
    ensures ok <==> KeyHolds(key, e, c)
    decreases e
  {
    if key[0] == '#' {
      if e.Map? {
        if key in c {
          var rest := e.m.Keys;
          while rest != {}
            invariant rest <= e.m.Keys
            invariant rest != e.m.Keys ==> c[key].Map?
            invariant forall k :: k in e.m && k !in rest ==> c[key].Map? && KeyHolds(k, e.m[k], c[key].m)
            decreases |rest|
          {
            var k :| k in rest;
            var valid := ValidateConfigurationKey(k, e.m[k], c[key].m);
            if !valid {
              return false;
            }
            rest := rest - {k};
          }
        } else {
          return false;
        }
      } else {
        if key !in c {
          return false;
        }
      }
    }
    return true;
  }

  /** `ValidateConfigurationKeys`: every required key of the template is
      held by the configuration. */
  method ValidateConfigurationKeys(template: map<string, Any>, configuration: map<string, Any>)
    returns (ok: bool)
    requires forall k :: k in template ==> KeySafe(k, template[k], configuration)
    ensures ok <==> forall k :: k in template ==> KeyHolds(k, template[k], configuration)
  {
    var rest := template.Keys;
    while rest != {}
      invariant rest <= template.Keys
      invariant forall k :: k in template && k !in rest ==> KeyHolds(k, template[k], configuration)
      decreases |rest|
    {
      var k :| k in rest;
      var valid := ValidateConfigurationKey(k, template[k], configuration);
      if !valid {
        return false;
      }
      rest := rest - {k};
    }
    return true;
  }

  /** Keys without '#' are never required; a required key must be present,
      and a required map's own required keys must be present one level
      down. */
  lemma RequiredKeysPresent(template: map<string, Any>, c: map<string, Any>, key: string)
    requires key in template
    requires KeyHolds(key, template[key], c)
    ensures Required(key) ==> key in c
    ensures Required(key) && template[key].Map? ==>
      forall k :: k in template[key].m && Required(k) ==> c[key].Map? && k in c[key].m
  {
    var e := template[key];
    if Required(key) && e.Map? {
      forall k | k in e.m && Required(k) ensures c[key].Map? && k in c[key].m {
        assert KeyHolds(k, e.m[k], c[key].m);
      }
    }
  }

  /** A configuration always holds the required keys of its own shape:
      validating a value against itself passes. */
  lemma {:induction false} KeysHoldForSelf(key: string, e: Any, c: map<string, Any>)
    requires key in c && c[key] == e
    ensures KeyHolds(key, e, c)
    decreases e
  {
    if Required(key) && e.Map? {
      forall k | k in e.m ensures c[key].Map? && KeyHolds(k, e.m[k], c[key].m) {
        KeysHoldForSelf(k, e.m[k], e.m);
      }
    }
  }

  /** Adding entries to the configuration never breaks its required keys. */
  lemma {:induction false} KeysHoldMonotone(key: string, e: Any, c: map<string, Any>, extra: map<string, Any>)
    requires KeyHolds(key, e, c)
    requires forall k :: k in extra ==> k !in c
    ensures KeyHolds(key, e, c + extra)
    decreases e
  {
    if Required(key) && e.Map? {
      assert (c + extra)[key] == c[key];
    }
  }

  /** Nothing below a key that is not required is read: whatever its
      element holds, empty keys included, the check passes without a panic. */
  lemma PlainKeyNotRead(key: string, e: Any, c: map<string, Any>)
    requires key != "" && key[0] != '#'
    ensures KeySafe(key, e, c) && KeyHolds(key, e, c)
    ensures KeySafe("a", Map(map["" := Str("String")]), c)
    ensures KeyHolds("a", Map(map["" := Str("String")]), c)
  {
  }

  // ---------------------------------------------------------------------
  // Entry types
  // ---------------------------------------------------------------------

  /** The configuration `cur` matches the template element `e` under
      `key`: the three type names ask for a string, a float and a boolean;
      a non-empty list must be matched by a list element whose string and
      float items are allowed by the list; a map is matched recursively. */
  predicate EntryMatches(key: string, e: Any, cur: map<string, Any>)
    decreases e
  {
    key in cur &&
    var val := cur[key];
    if e == Str("String") then val.Str?
    else if e == Str("Numerical") then val.Float?
    else if e == Str("Boolean") then val.Bool?
    else if val.List? then
      |val.items| == 0 ||
      (e.List? && forall i :: 0 <= i < |e.items| ==>
         (e.items[i].Str? ==> Str("String") in val.items)
         && (e.items[i].Float? ==> Str("Numerical") in val.items))
    else if val.Map? then
      e.Map? && forall k :: k in e.m ==> EntryMatches(k, e.m[k], val.m)
    else false
  }

  /** The reflection the source performs is defined: the configuration
      value is not nil, the element is not nil where its kind is read, a
      non-empty list compared with a list holds strings only and the list
      element holds no nil, and nested maps are safe in turn. */
  predicate EntrySafe(key: string, e: Any, cur: map<string, Any>)
    decreases e
  {
    key in cur ==>
      var val := cur[key];
      && val != Nil
      && ((val.List? && |val.items| > 0) || val.Map? ==> e != Nil)
      && (val.List? && |val.items| > 0 && e.List? ==>
            (forall i :: 0 <= i < |val.items| ==> val.items[i].Str?)
            && forall i :: 0 <= i < |e.items| ==> e.items[i] != Nil)
      && (val.Map? && e.Map? ==> forall k :: k in e.m ==> EntrySafe(k, e.m[k], val.m))
  }

  /** The strings of a list of strings. */
  function Strings(items: seq<Any>): (r: seq<string>)
    requires forall i :: 0 <= i < |items| ==> items[i].Str?
    ensures |r| == |items|
    ensures forall i :: 0 <= i < |items| ==> r[i] == items[i].s
  {
    if |items| == 0 then [] else [items[0].s] + Strings(items[1..])
  }

  /** A value is in the strings of a list of strings iff the list holds
      it as a string item. */
  lemma StringsMembership(items: seq<Any>, x: string)
    requires forall i :: 0 <= i < |items| ==> items[i].Str?
    ensures x in Strings(items) <==> Str(x) in items
  {
    if Str(x) in items {
      var i :| 0 <= i < |items| && items[i] == Str(x);
      assert Strings(items)[i] == x;
    }
  }

  /** The list check of `validateConfigurationElement`: a string item asks
      for `String` among the configured names, a float item for
      `Numerical`. */
  method ListAllowed(kinds: seq<Any>, configArray: seq<string>) returns (ok: bool)
    ensures ok <==> forall j :: 0 <= j < |kinds| ==>
      (kinds[j].Str? ==> "String" in configArray) && (kinds[j].Float? ==> "Numerical" in configArray)
  {
    var i := 0;
    while i < |kinds|
      invariant 0 <= i <= |kinds|
      invariant forall j :: 0 <= j < i ==>
        (kinds[j].Str? ==> "String" in configArray) && (kinds[j].Float? ==> "Numerical" in configArray)
    {
      if kinds[i].Str? {
        if "String" !in configArray {
          return false;
        }
      } else if kinds[i].Float? {
        if "Numerical" !in configArray {
          return false;
        }
      }
      i := i + 1;
    }
    return true;
  }

  /** The map check of `validateConfigurationElement`: every entry of the
      map element is matched in the nested configuration. */
  method ValidateFields(e: Any, nested: map<string, Any>) returns (ok: bool)
    requires e.Map? && forall k :: k in e.m ==> EntrySafe(k, e.m[k], nested)
    ensures ok <==> forall k :: k in e.m ==> EntryMatches(k, e.m[k], nested)
    decreases e, 0
  {
    var rest := e.m.Keys;
    while rest != {}
      invariant rest <= e.m.Keys
      invariant forall k :: k in e.m && k !in rest ==> EntryMatches(k, e.m[k], nested)
      decreases |rest|
    {
      var k :| k in rest;
      var valid := ValidateConfigurationElement(k, e.m[k], nested);
      if !valid {
        return false;
      }
      rest := rest - {k};
    }
    return true;
  }

  /** `validateConfigurationElement`. */
  method ValidateConfigurationElement(key: string, e: Any, cur: map<string, Any>) returns (ok: bool)
    requires EntrySafe(key, e, cur)
    ensures ok <==> EntryMatches(key, e, cur)
    decreases e, 1
  {
    if key !in cur {
      return false;
    }
    var val := cur[key];
    if e == Str("String") {
      return val.Str?;
    } else if e == Str("Numerical") {
      return val.Float?;
    } else if e == Str("Boolean") {
      return val.Bool?;
    } else if val.List? {
      if |val.items| == 0 {
        return true;
      } else if e.List? {
        var configArray := Strings(val.items);
        StringsMembership(val.items, "String");
        StringsMembership(val.items, "Numerical");
        ok := ListAllowed(e.items, configArray);
      } else {
        return false;
      }
    } else if val.Map? {
      if e.Map? {
        ok := ValidateFields(e, val.m);
      } else {
        return false;
      }
    } else {
      return false;
    }
  }

  /** `ValidateConfiguration`: every template entry is matched. */
  method ValidateConfiguration(cur: map<string, Any>, template: map<string, Any>) returns (ok: bool)
    requires forall k :: k in template ==> EntrySafe(k, template[k], cur)
    ensures ok <==> forall k :: k in template ==> EntryMatches(k, template[k], cur)
  {
    var rest := template.Keys;
    while rest != {}
      invariant rest <= template.Keys
      invariant forall k :: k in template && k !in rest ==> EntryMatches(k, template[k], cur)
      decreases |rest|
    {
      var k :| k in rest;
      var valid := ValidateConfigurationElement(k, template[k], cur);
      if !valid {
        return false;
      }
      rest := rest - {k};
    }
    return true;
  }

  /** A configuration that passes has every template key, and the three
      type names get values of their type. */
  lemma ConfigurationTypes(cur: map<string, Any>, template: map<string, Any>, k: string)
    requires forall k :: k in template ==> EntryMatches(k, template[k], cur)
    requires k in template
    ensures k in cur
    ensures template[k] == Str("String") ==> cur[k].Str?
    ensures template[k] == Str("Numerical") ==> cur[k].Float?
    ensures template[k] == Str("Boolean") ==> cur[k].Bool?
  {
    assert EntryMatches(k, template[k], cur);
  }

  /** An integer does not pass for "Numerical": only floats do. */
  lemma IntegerIsNotNumerical()
    ensures !EntryMatches("n", Str("Numerical"), map["n" := Int(3)])
    ensures EntryMatches("n", Str("Numerical"), map["n" := Float(3.0)])
  {
  }
}

=== FILE: variant.dfy ===
/** The dynamic JSON-like value of the variant package: path lookup
    through objects and arrays, the deep copy, and the merge of
    configuration trees where the newer tree overrides the older one. */
module Variant {
  import opened Common

  /** A dynamic value.  `Null` is the variant holding nothing; numbers are
      one kind (the Go integer and float types are not told apart). */
  datatype Json =
    | Null
    | Bool(b: bool)
    | Num(n: int)
    | Str(s: string)
    | Arr(items: seq<Json>)
    | Obj(fields: map<string, Json>)

  predicate IsContainer(j: Json) {
    j.Obj? || j.Arr?
  }

  // ---------------------------------------------------------------------
  // Array indexes: `strconv.ParseInt(key, 10, 32)`
  // ---------------------------------------------------------------------

  predicate IsDigit(c: char) {
    '0' <= c <= '9'
  }

  predicate AllDigits(s: string) {
    forall i :: 0 <= i < |s| ==> IsDigit(s[i])
  }

  /** The decimal value of a digit string. */
  function DigitsValue(s: string): (v: nat)
    requires AllDigits(s)
  {
    if |s| == 0 then 0
    else DigitsValue(s[..|s| - 1]) * 10 + (s[|s| - 1] as int - '0' as int)
  }

  /** Base-10 parsing into 32 bits: an optional sign, at least one digit,
      nothing else, and a value within `int32`. */
  function ParseInt32(s: string): (r: Option<int>)
    ensures r.Some? ==> IsInt32(r.value)
    ensures r.Some? ==> |s| > 0 && (AllDigits(s) || (|s| > 1 && (s[0] == '+' || s[0] == '-') && AllDigits(s[1..])))
    ensures AllDigits(s) && |s| > 0 && DigitsValue(s) < TwoTo31 ==> r == Some(DigitsValue(s))
  {
    if |s| == 0 then None
    else
      var neg := s[0] == '-';
      var body := if s[0] == '+' || s[0] == '-' then s[1..] else s;
      if |body| == 0 || !AllDigits(body) then None
      else
        var v: int := if neg then 0 - DigitsValue(body) else DigitsValue(body);
        if IsInt32(v) then Some(v) else None
  }

  // ---------------------------------------------------------------------
  // Lookup
  // ---------------------------------------------------------------------

  /** `Variant.Get` with a string key on a container: an object entry, or
      an array element at the parsed index; `Null` when absent. */
  function Child(j: Json, key: string): (c: Json)
    requires IsContainer(j)
    ensures j.Obj? ==> c == (if key in j.fields then j.fields[key] else Null)
    ensures j.Arr? && ParseInt32(key).None? ==> c == Null
    ensures j.Arr? && ParseInt32(key).Some? ==>
      var i := ParseInt32(key).value;
      c == (if 0 <= i < |j.items| then j.items[i] else Null)
  {
    match j
    case Obj(f) => if key in f then f[key] else Null
    case Arr(items) =>
      match ParseInt32(key)
      case None => Null
      case Some(i) => if 0 <= i < |items| then items[i] else Null
  }

  /** `get`: follow the keys through nested containers. */
  function GetPath(j: Json, keys: seq<string>): (r: Json)
    ensures |keys| == 0 ==> r == Null
    ensures !IsContainer(j) ==> r == Null
    ensures |keys| == 1 && IsContainer(j) ==> r == Child(j, keys[0])
    decreases |keys|
  {
    if |keys| == 0 then Null
    else if IsContainer(j) then
      if |keys| == 1 then Child(j, keys[0]) else GetPath(Child(j, keys[0]), keys[1..])
    else Null
  }

  /** `Get`: a dotted path. */
  function Get(j: Json, path: string): (r: Json)
    ensures !IsContainer(j) ==> r == Null
  {
    GetPath(j, Split(path, '.'))
  }

  /** Following a path in two pieces is following it in one. */
  lemma {:induction false} GetPathConcat(j: Json, a: seq<string>, b: seq<string>)
    requires |a| > 0 && |b| > 0
    ensures GetPath(j, a + b) == GetPath(GetPath(j, a), b)
    decreases |a|
  {
    if IsContainer(j) {
      assert (a + b)[0] == a[0];
      if |a| == 1 {
        assert (a + b)[1..] == b;
      } else {
        assert (a + b)[1..] == a[1..] + b;
        GetPathConcat(Child(j, a[0]), a[1..], b);
      }
    }
  }

  /** Array elements are addressed by decimal strings: a sign and leading
      zeros are accepted, anything else finds nothing. */
  lemma ArrayIndexSpellings(x: Json, y: Json)
    ensures Child(Arr([x, y]), "1") == y
    ensures Child(Arr([x, y]), "+1") == y
    ensures Child(Arr([x, y]), "01") == y
    ensures Child(Arr([x, y]), "-1") == Null
    ensures Child(Arr([x, y]), "") == Null
    ensures Child(Arr([x, y]), "1x") == Null
  {
    assert ParseInt32("1") == Some(1);
    assert "+1"[1..] == "1";
    assert ParseInt32("+1") == Some(1);
    assert "01"[..1] == "0";
    assert ParseInt32("01") == Some(1);
    assert "-1"[1..] == "1";
    assert ParseInt32("-1") == Some(-1);
    assert !IsDigit("1x"[1]);
  }

  /** Appending a digit multiplies the value by ten and adds the digit. */
  lemma DigitsAppend(s: string, c: char)
    requires AllDigits(s) && IsDigit(c)
    ensures AllDigits(s + [c])
    ensures DigitsValue(s + [c]) == DigitsValue(s) * 10 + (c as int - '0' as int)
  {
    assert (s + [c])[..|s|] == s;
  }

  /** The value of the first nine digits of 2^32 + 1. */
  lemma LeadingDigits()
    ensures AllDigits("429496729") && DigitsValue("429496729") == 429496729
  {
    assert DigitsValue("4") == 4;
    DigitsAppend("4", '2');
    assert "4" + ['2'] == "42";
    DigitsAppend("42", '9');
    assert "42" + ['9'] == "429";
    DigitsAppend("429", '4');
    assert "429" + ['4'] == "4294";
    DigitsAppend("4294", '9');
    assert "4294" + ['9'] == "42949";
    DigitsAppend("42949", '6');
    assert "42949" + ['6'] == "429496";
    DigitsAppend("429496", '7');
    assert "429496" + ['7'] == "4294967";
    DigitsAppend("4294967", '2');
    assert "4294967" + ['2'] == "42949672";
    DigitsAppend("42949672", '9');
    assert "42949672" + ['9'] == "429496729";
  }

  /** An index beyond 32 bits is rejected by the parse, not wrapped: it
      finds nothing even when it wraps to a valid position. */
  lemma WideIndexRejected(x: Json, y: Json)
    ensures Wrap32(4294967297) == 1
    ensures Child(Arr([x, y]), "4294967297") == Null
  {
    var s := "4294967297";
    var t := "429496729";
    assert s == t + ['7'];
    LeadingDigits();
    assert DigitsValue(s) == 4294967297 by {
      DigitsAppend(t, '7');
    }
    assert ParseInt32(s) == None;
    assert Wrap32(4294967297) == 1 by {
      assert (4294967297 + TwoTo31) % TwoTo32 == TwoTo31 + 1;
    }
  }

  /** A dotted path is split at every dot. */
  lemma DottedPath(j: Json)
    ensures Get(j, "a.b") == GetPath(j, ["a", "b"])
  {
    assert "b"[1..] == "";
    assert ['b'] + "" == "b";
    assert Split("b", '.') == ["b"];
    assert ".b"[1..] == "b";
    assert Split(".b", '.') == ["", "b"];
    assert "a.b"[1..] == ".b";
    assert ['a'] + "" == "a";
    assert ["", "b"][1..] == ["b"];
    assert Split("a.b", '.') == ["a", "b"];
  }

  // ---------------------------------------------------------------------
  // Copy
  // ---------------------------------------------------------------------

  /** No `Null` anywhere in the value, the value itself included. */
  predicate NoNulls(j: Json) {
    match j
    case Null => false
    case Arr(items) => forall i :: 0 <= i < |items| ==> NoNulls(items[i])
    case Obj(f) => forall k :: k in f ==> NoNulls(f[k])
    case _ => true
  }

  /** `Copy`: a deep copy.  Writing a `Null` into an object removes the
      key, so null entries are dropped; writing one into an array slot
      panics, which is `None` here. */
  function CopyJson(j: Json): (r: Option<Json>)
    ensures !IsContainer(j) ==> r == Some(j)
    ensures r.Some? && j.Obj? ==> r.value.Obj? && forall k :: k in r.value.fields <==> k in j.fields && j.fields[k] != Null
    ensures r.Some? && j.Arr? ==> r.value.Arr? && |r.value.items| == |j.items|
    ensures r.Some? && j.Arr? ==> forall i :: 0 <= i < |j.items| ==> j.items[i] != Null
  {
    match j
    case Obj(f) =>
      if exists k :: k in f && CopyJson(f[k]).None? then None
      else Some(Obj(map k | k in f && f[k] != Null :: CopyJson(f[k]).value))
    case Arr(items) =>
      if exists i :: 0 <= i < |items| && (items[i] == Null || CopyJson(items[i]).None?) then None
      else Some(Arr(seq(|items|, i requires 0 <= i < |items| => CopyJson(items[i]).value)))
    case _ => Some(j)
  }

  /** A value without nulls copies to itself. */
  lemma {:induction false} CopyOfNullFree(j: Json)
    requires NoNulls(j)
    ensures CopyJson(j) == Some(j)
  {
    match j
    case Obj(f) =>
      forall k | k in f ensures CopyJson(f[k]) == Some(f[k]) {
        CopyOfNullFree(f[k]);
      }
      var g := map k | k in f && f[k] != Null :: CopyJson(f[k]).value;
      assert g == f;
    case Arr(items) =>
      forall i | 0 <= i < |items| ensures CopyJson(items[i]) == Some(items[i]) {
        CopyOfNullFree(items[i]);
      }
      var s := seq(|items|, i requires 0 <= i < |items| => CopyJson(items[i]).value);
      assert s == items;
    case _ =>
  }

  // ---------------------------------------------------------------------
  // Merge
  // ---------------------------------------------------------------------

  /** What the merge writes under one key: `v` from the newer tree over
      `dst`, the value already there (`Null` when absent).  Objects merge
      recursively, an existing array is kept, anything else is replaced. */
  function MergeEntry(v: Json, dst: Json): Json
    decreases v, 1
  {
    match v
    case Obj(_) => if dst.Obj? then Obj(MergeFields(v, dst.fields)) else v
    case Arr(_) => if dst.Arr? then dst else v
    case _ => v
  }

  /** The traversal of the newer object `v` over the fields `c`: each key
      of `v` is written, and a `Null` removes the key. */
  function MergeFields(v: Json, c: map<string, Json>): (r: map<string, Json>)
    requires v.Obj?
    decreases v, 0
  {
    map k | k in v.fields.Keys + c.Keys && !(k in v.fields && v.fields[k].Null?) ::
      if k in v.fields then MergeEntry(v.fields[k], if k in c then c[k] else Null) else c[k]
  }

  /** `Merge`'s result: a value or nil, or a panic. */
  datatype MergeOutcome = Panicked | Result(m: Option<Json>)

  /** The kind of a value, as `reflect.Type` tells them apart. */
  function Kind(j: Json): nat {
    match j
    case Null => 0
    case Bool(_) => 1
    case Num(_) => 2
    case Str(_) => 3
    case Arr(_) => 4
    case Obj(_) => 5
  }

  /** The inner `merge(m1, m2)`: `m1` is written over a copy of `m2`.
      Both must be present, of the same kind, and containers. */
  function MergeTwo(m1: Option<Json>, m2: Option<Json>): (o: MergeOutcome)
    ensures m1.None? || m2.None? ==> o == Result(None)
    ensures m1.Some? && m2.Some? && (Kind(m1.value) != Kind(m2.value) || !IsContainer(m2.value)) ==> o == Result(None)
    ensures o.Result? && o.m.Some? ==> m1.Some? && m2.Some? && Kind(o.m.value) == Kind(m2.value)
    ensures o.Panicked? <==>
      && m1.Some? && m2.Some? && Kind(m1.value) == Kind(m2.value) && IsContainer(m2.value)
      && (|| CopyJson(m2.value).None?
          || (m2.value.Arr? && exists i :: 0 <= i < |m1.value.items| && i < |m2.value.items| && m1.value.items[i] == Null))
  {
    if m1.None? || m2.None? then Result(None)
    else if Kind(m1.value) != Kind(m2.value) then Result(None)
    else if !IsContainer(m2.value) then Result(None)
    else
      match CopyJson(m2.value)
      case None => Panicked
      case Some(copy) =>
        match copy
        case Obj(c) => Result(Some(Obj(MergeFields(m1.value, c))))
        case Arr(c) =>
          var n := m1.value.items;
          if exists i :: 0 <= i < |n| && i < |c| && n[i] == Null then Panicked
          else Result(Some(Arr(seq(|c|, i requires 0 <= i < |c| => if i < |n| then MergeEntry(n[i], c[i]) else c[i]))))
  }

  /** One step of the loop over the extra values: a nil accumulator takes
      the next value, a nil value is skipped, otherwise the accumulator is
      merged over it.  A panic ends the loop. */
  function FoldStep(acc: MergeOutcome, e: Option<Json>): (r: MergeOutcome)
    ensures acc.Panicked? ==> r.Panicked?
    ensures e.None? ==> r == acc
    ensures acc == Result(None) ==> r == Result(e)
    ensures acc.Result? && acc.m.Some? && e.Some? ==> r == MergeTwo(acc.m, e)
  {
    match acc
    case Panicked => Panicked
    case Result(m) =>
      if m.None? then Result(e)
      else if e.None? then acc
      else MergeTwo(m, e)
  }

  /** The loop over all extra values: a panic is never recovered from, nil
      values change nothing, and a nil accumulator takes the first value. */
  function FoldMerge(acc: MergeOutcome, mn: seq<Option<Json>>): (r: MergeOutcome)
    ensures acc.Panicked? ==> r.Panicked?
    ensures (forall i :: 0 <= i < |mn| ==> mn[i].None?) ==> r == acc
    ensures |mn| > 0 && acc == Result(None) ==> r == FoldMerge(Result(mn[0]), mn[1..])
    decreases |mn|
  {
    if |mn| == 0 then acc else FoldMerge(FoldStep(acc, mn[0]), mn[1..])
  }

  /** `Merge(newValue, oldValue, mn...)`: earlier arguments take priority;
      a nil argument is passed over. */
  function Merge(newValue: Option<Json>, oldValue: Option<Json>, mn: seq<Option<Json>>): (o: MergeOutcome)
    ensures |mn| == 0 && newValue.None? ==> o == Result(oldValue)
    ensures |mn| == 0 && oldValue.None? ==> o == Result(newValue)
  {
    var start :=
      if newValue.None? then Result(oldValue)
      else if oldValue.None? then Result(newValue)
      else MergeTwo(newValue, oldValue);
    FoldMerge(start, mn)
  }

  /** Merging two objects without nulls in the older one: a scalar from
      the newer one wins, a `Null` removes the key, nested objects merge,
      an older array is kept, and keys only the older one has stay. */
  lemma MergeObjects(n: map<string, Json>, o: map<string, Json>, k: string)
    requires NoNulls(Obj(o))
    ensures MergeTwo(Some(Obj(n)), Some(Obj(o))).Result?
    ensures var r := MergeTwo(Some(Obj(n)), Some(Obj(o))).m;
      && r.Some? && r.value.Obj?
      && (k in r.value.fields <==> (k in n && n[k] != Null) || (k !in n && k in o))
      && (k in n && n[k] != Null && !IsContainer(n[k]) ==> r.value.fields[k] == n[k])
      && (k in n && n[k].Arr? && k in o && o[k].Arr? ==> r.value.fields[k] == o[k])
      && (k in n && n[k].Obj? && k in o && o[k].Obj? ==> r.value.fields[k] == Obj(MergeFields(n[k], o[k].fields)))
      && (k in n && IsContainer(n[k]) && (k !in o || Kind(o[k]) != Kind(n[k])) ==> r.value.fields[k] == n[k])
      && (k !in n && k in o ==> r.value.fields[k] == o[k])
  {
    CopyOfNullFree(Obj(o));
    var f := MergeFields(Obj(n), o);
    assert MergeTwo(Some(Obj(n)), Some(Obj(o))) == Result(Some(Obj(f)));
    if k in n && k in o {
      assert k in f ==> f[k] == MergeEntry(n[k], o[k]);
    } else if k in n {
      assert k in f ==> f[k] == MergeEntry(n[k], Null);
    }
  }

  /** Merging a null-free value into itself gives it back. */
  lemma {:induction false} MergeEntrySelf(v: Json)
    requires NoNulls(v)
    ensures MergeEntry(v, v) == v
    decreases v, 1
  {
    if v.Obj? {
      MergeFieldsSelf(v);
    }
  }

  lemma {:induction false} MergeFieldsSelf(v: Json)
    requires v.Obj? && NoNulls(v)
    ensures MergeFields(v, v.fields) == v.fields
    decreases v, 0
  {
    forall k | k in v.fields ensures MergeEntry(v.fields[k], v.fields[k]) == v.fields[k] {
      MergeEntrySelf(v.fields[k]);
    }
  }

  /** A null-free container merged over itself is unchanged. */
  lemma MergeIdempotent(j: Json)
    requires IsContainer(j) && NoNulls(j)
    ensures MergeTwo(Some(j), Some(j)) == Result(Some(j))
  {
    CopyOfNullFree(j);
    if j.Obj? {
      MergeFieldsSelf(j);
    } else {
      var n := j.items;
      assert !exists i :: 0 <= i < |n| && i < |n| && n[i] == Null;
      var r := MergeTwo(Some(j), Some(j)).m.value.items;
      forall i | 0 <= i < |n| ensures r[i] == n[i] {
        MergeEntrySelf(n[i]);
      }
      assert r == n;
    }
  }

  /** A `Null` in a newer array over an older slot panics; past the end
      of the older array the newer elements are dropped. */
  lemma ArrayMergeEdges(x: Json)
    requires NoNulls(x)
    ensures MergeTwo(Some(Arr([Null])), Some(Arr([x]))) == Panicked
    ensures MergeTwo(Some(Arr([x, x])), Some(Arr([]))) == Result(Some(Arr([])))
  {
    CopyOfNullFree(Arr([x]));
    assert [Null][0] == Null;
    var none: seq<Json> := [];
    CopyOfNullFree(Arr(none));
    assert MergeTwo(Some(Arr([x, x])), Some(Arr(none))).m.value.items == none;
  }

  /** Over three objects, each key takes its value from the earliest
      argument that has it. */
  lemma EarlierArgumentsWin()
    ensures Merge(
      Some(Obj(map["x" := Num(1)])),
      Some(Obj(map["x" := Num(2), "y" := Num(2)])),
      [Some(Obj(map["x" := Num(3), "y" := Num(3), "z" := Num(3)]))])
      == Result(Some(Obj(map["x" := Num(1), "y" := Num(2), "z" := Num(3)])))
  {
    var a := map["x" := Num(1)];
    var b := map["x" := Num(2), "y" := Num(2)];
    var c := map["x" := Num(3), "y" := Num(3), "z" := Num(3)];
    var ab := map["x" := Num(1), "y" := Num(2)];
    var abc := map["x" := Num(1), "y" := Num(2), "z" := Num(3)];
    assert MergeTwo(Some(Obj(a)), Some(Obj(b))) == Result(Some(Obj(ab))) by {
      CopyOfNullFree(Obj(b));
      FirstMergeStep(a, b, ab);
    }
    assert MergeTwo(Some(Obj(ab)), Some(Obj(c))) == Result(Some(Obj(abc))) by {
      CopyOfNullFree(Obj(c));
      SecondMergeStep(ab, c, abc);
    }
  }

  lemma FirstMergeStep(a: map<string, Json>, b: map<string, Json>, ab: map<string, Json>)
    requires a == map["x" := Num(1)] && b == map["x" := Num(2), "y" := Num(2)]
    requires ab == map["x" := Num(1), "y" := Num(2)]
    ensures MergeFields(Obj(a), b) == ab
  {
    var f := MergeFields(Obj(a), b);
    assert f.Keys == ab.Keys;
  }

  lemma SecondMergeStep(ab: map<string, Json>, c: map<string, Json>, abc: map<string, Json>)
    requires ab == map["x" := Num(1), "y" := Num(2)] && c == map["x" := Num(3), "y" := Num(3), "z" := Num(3)]
    requires abc == map["x" := Num(1), "y" := Num(2), "z" := Num(3)]
    ensures MergeFields(Obj(ab), c) == abc
  {
    var f := MergeFields(Obj(ab), c);
    assert f.Keys == abc.Keys;
  }
}

=== FILE: worker_info.dfy ===
/** The per-worker rules of the fleet monitor: the worker record, the stuck
    predicate and the two-stage health check (liveness line, then CPU and
    memory thresholds).  Times are integer milliseconds; `now` replaces the
    wall clock that the program reads through `time.Since`. */
module WorkerInfo {
  import opened Common

  /** A supervised worker process.  The process handle and its pipes are not
      modelled; probe replies are passed in as values instead. */
  datatype Worker = Worker(
    id: string,
    name: string,
    configuration: string,
    queueType: int,
    lastHealthyTime: int,
    lastProgressTime: int,
    progress: real)

  /** `time.Since(t)` evaluated at `now`. */
  function Since(now: int, t: int): int {
    now - t
  }

  /** The progress percentage below which a health-stale worker counts as
      stuck even if it reported progress recently. */
  const ProgressFloor: real := 20.0

  /** A worker is stuck when it has missed health checks for longer than
      `healthTimeout` and, in addition, either its progress is stale or it
      is below the progress floor. */
  function IsWorkerStuck(w: Worker, now: int, healthTimeout: int, progressTimeout: int): (stuck: bool)
    ensures Since(now, w.lastHealthyTime) <= healthTimeout ==> !stuck
    ensures stuck ==> w.progress < ProgressFloor || Since(now, w.lastProgressTime) > progressTimeout
    ensures Since(now, w.lastHealthyTime) > healthTimeout && w.progress < ProgressFloor ==> stuck
  {
    if Since(now, w.lastHealthyTime) > healthTimeout then
      Since(now, w.lastProgressTime) > progressTimeout || w.progress < ProgressFloor
    else
      false
  }

  /** Stuck, stated through deadlines rather than elapsed times: the health
      deadline has passed and so has the progress deadline, unless progress
      is still under the floor. */
  lemma StuckIffDeadlinesPassed(w: Worker, now: int, healthTimeout: int, progressTimeout: int)
    ensures IsWorkerStuck(w, now, healthTimeout, progressTimeout)
        <==> now > w.lastHealthyTime + healthTimeout
             && (now > w.lastProgressTime + progressTimeout || w.progress < ProgressFloor)
  {
  }

  /** The monitor's own timeouts: one minute without a healthy probe, five
      minutes without progress. */
  const HealthTimeout: int := 60_000
  const ProgressTimeout: int := 300_000

  /** A worker two minutes stale on health and at 10% progress is stuck. */
  lemma StaleLowProgressWorkerIsStuck(w: Worker, now: int)
    requires now - w.lastHealthyTime == 120_000
    requires w.progress == 10.0
    ensures IsWorkerStuck(w, now, HealthTimeout, ProgressTimeout)
  {
  }

  /** Reaching the progress floor with recent progress clears the stuck
      verdict, however stale the health checks are. */
  lemma RecentProgressClearsStuck(w: Worker, now: int, healthTimeout: int, progressTimeout: int)
    requires w.progress >= ProgressFloor
    requires Since(now, w.lastProgressTime) <= progressTimeout
    ensures !IsWorkerStuck(w, now, healthTimeout, progressTimeout)
  {
  }

  /** Stuck is monotone in time: a stuck worker that nobody refreshes stays
      stuck later on. */
  lemma StuckPersists(w: Worker, now: int, later: int, healthTimeout: int, progressTimeout: int)
    requires now <= later
    requires IsWorkerStuck(w, now, healthTimeout, progressTimeout)
    ensures IsWorkerStuck(w, later, healthTimeout, progressTimeout)
  {
  }

  // ---------------------------------------------------------------------
  // Health probes
  // ---------------------------------------------------------------------

  const MaxCpuUsage: real := 80.0
  const MaxMemoryUsage: real := 70.0

  /** The decoded reply to `get_metrics`. */
  datatype HealthMetrics = HealthMetrics(cpuUsage: real, memoryUsage: real)

  /** Metrics pass when neither usage exceeds its ceiling; the ceilings
      themselves pass. */
  function EvaluateHealthMetrics(m: HealthMetrics): (ok: bool)
    ensures ok ==> m.cpuUsage <= MaxCpuUsage && m.memoryUsage <= MaxMemoryUsage
    ensures m.cpuUsage > MaxCpuUsage ==> !ok
    ensures m.memoryUsage > MaxMemoryUsage ==> !ok
  {
    if m.cpuUsage > MaxCpuUsage then false
    else if m.memoryUsage > MaxMemoryUsage then false
    else true
  }

  /** Both ceilings are inclusive, and a hair above either fails. */
  lemma MetricsBoundaries()
    ensures EvaluateHealthMetrics(HealthMetrics(80.0, 70.0))
    ensures !EvaluateHealthMetrics(HealthMetrics(80.01, 0.0))
    ensures !EvaluateHealthMetrics(HealthMetrics(0.0, 70.01))
  {
  }

  /** What came back on the control channel after writing a command. */
  datatype Reply =
    | WriteFailed              // writing the command to stdin failed
    | Output(text: string)     // the bytes readable on stdout

  /** What `bufio.Scanner` with line splitting yields for its first token:
      the text up to the first newline with one trailing carriage return
      dropped; nothing for empty output. */
  function FirstLine(out: string): (line: Option<string>)
    ensures out == [] <==> line.None?
    ensures line.Some? ==> '\n' !in line.value
    ensures line.Some? ==> |line.value| <= |out|
  {
    if out == [] then None
    else
      var i := IndexOfNewline(out, 0);
      var raw := out[..i];
      Some(if |raw| > 0 && raw[|raw| - 1] == '\r' then raw[..|raw| - 1] else raw)
  }

  /** The index of the first newline at or after `from`, or `|s|`. */
  function IndexOfNewline(s: string, from: nat): (i: nat)
    requires from <= |s|
    ensures from <= i <= |s|
    ensures forall k :: from <= k < i ==> s[k] != '\n'
    ensures i < |s| ==> s[i] == '\n'
    decreases |s| - from
  {
    if from == |s| then from
    else if s[from] == '\n' then from
    else IndexOfNewline(s, from + 1)
  }

  /** The liveness probe: `check_health` must be answered by a first line
      that reads exactly `healthy`. */
  function SimpleHealthCheck(reply: Reply): (alive: bool)
    ensures alive ==> reply.Output? && FirstLine(reply.text) == Some("healthy")
    ensures reply.Output? && FirstLine(reply.text) == Some("healthy") ==> alive
  {
    match reply
    case WriteFailed => false
    case Output(text) =>
      match FirstLine(text)
      case None => false
      case Some(line) => line == "healthy"
  }

  /** The first newline is where the scan stops. */
  lemma NewlineAt(s: string, k: nat)
    requires k <= |s|
    requires forall j :: 0 <= j < k ==> s[j] != '\n'
    requires k == |s| || s[k] == '\n'
    ensures IndexOfNewline(s, 0) == k
  {
  }

  /** A liveness reply passes with or without the trailing newline and with a
      CRLF line ending, and fails for anything else on the first line. */
  lemma LivenessExamples()
    ensures SimpleHealthCheck(Output("healthy\n"))
    ensures SimpleHealthCheck(Output("healthy\r\nmore"))
    ensures SimpleHealthCheck(Output("healthy"))
    ensures !SimpleHealthCheck(Output("Healthy\n"))
    ensures !SimpleHealthCheck(Output("healthy!\n"))
    ensures !SimpleHealthCheck(Output(""))
    ensures !SimpleHealthCheck(WriteFailed)
  {
    NewlineAt("healthy\n", 7);
    NewlineAt("healthy\r\nmore", 8);
    assert "healthy\r\nmore"[..8] == "healthy\r";
    assert "healthy\r"[..7] == "healthy";
    NewlineAt("healthy", 7);
    NewlineAt("Healthy\n", 7);
    assert "Healthy\n"[..7] == "Healthy";
    NewlineAt("healthy!\n", 8);
    assert "healthy!\n"[..8] == "healthy!";
  }

  /** The decoded reply to `get_metrics`: a metrics object, or a write or
      JSON decoding failure. */
  datatype MetricsReply = MetricsWriteFailed | Undecodable | Decoded(metrics: HealthMetrics)

  /** The metrics probe fails on any write or decoding error. */
  function MetricsBasedHealthCheck(reply: MetricsReply): (ok: bool)
    ensures ok <==> reply.Decoded? && EvaluateHealthMetrics(reply.metrics)
  {
    match reply
    case MetricsWriteFailed => false
    case Undecodable => false
    case Decoded(m) => EvaluateHealthMetrics(m)
  }

  /** Healthy means alive and within the metric ceilings; the metrics probe
      is consulted only after the liveness probe passed. */
  function IsWorkerHealthy(liveness: Reply, metrics: MetricsReply): (healthy: bool)
    ensures healthy ==> SimpleHealthCheck(liveness)
    ensures healthy ==>
      (metrics.Decoded?
       && metrics.metrics.cpuUsage <= MaxCpuUsage
       && metrics.metrics.memoryUsage <= MaxMemoryUsage)
    ensures SimpleHealthCheck(liveness) && MetricsBasedHealthCheck(metrics) ==> healthy
  {
    if !SimpleHealthCheck(liveness) then false
    else MetricsBasedHealthCheck(metrics)
  }

  /** A failed liveness probe decides the verdict alone: no metrics reply
      can change it. */
  lemma FailedLivenessIgnoresMetrics(liveness: Reply, m1: MetricsReply, m2: MetricsReply)
    requires !SimpleHealthCheck(liveness)
    ensures !IsWorkerHealthy(liveness, m1)
    ensures IsWorkerHealthy(liveness, m1) == IsWorkerHealthy(liveness, m2)
  {
  }
}
